=== FILE: README.md ===
# SensorStack core, modelled in Dafny

SensorStack is an Android library that talks to medical sensors: temperature, blood pressure, pulse rate, oximeter and skin conductance (GSR), plus an ECG stream. A device on the other end answers one-byte requests with text lines. This project models the library's protocol and data-assurance core as pure Dafny functions over strings, integers and immutable records, and proves properties of that model.

- **Request bytes.** Bit *i* asks for discrete sensor *i*, a single start bit begins a stream, and bit 7 asks for metadata (`Requests`).
- **Decoding a discrete answer.** The line is split on `identifier + id/data delimiter`. Fragments are tried from the last one back to the second, each is cut at the sensor delimiter, and the latest fragment that parses and lies in its hardware range wins (`Text`, `Extraction`, `Unpacking`).
- **The data-assurance loop.** Only the sensors still required are re-requested, their flags are cleared as they are satisfied, and there are at most `numAttempts` rounds. The device is a function parameter (`Assurance`).
- **Streams.** The buffer length is explicit or derived. Lines that fail to parse or fall out of range are dropped, and the rest are compacted in order (`Streams`).
- **Single-sensor queries and metadata** (`Queries`).
- **The application layer `AALayerII`.** It keeps the hardware ranges, which are updated by null-preserving overlay. It rescales readings onto the standard ranges unless the hardware range `equals` the standard one, which compares boxed-object identity. It also dispatches metadata requests (`Normalise`, `Facade`).
- **The configuration and result records:** `DiscretePacketInfo`, `ContinuousStreamInfo`, `SensorDataRange`, `SensorData`, `RangeOfValues`, `SensorContinuous`/`ECG` and `Sensor`.

Modelling choices:

- **Exceptions** are a `Result` datatype (`Lang`). A Java `null` is `Option.None`.
- **Mutation of shared state** becomes a function that returns the new state with the result. Examples are the requirement flags the engine clears and the hardware table the range-taking getters overwrite.
- **Java `int` arithmetic** wraps explicitly (`Lang.Wrap32`). `(byte)(1 << n)` uses the shift distance `n & 31`.
- **`RangeOfValues.equals`** compares the limit objects with `==`. The model therefore keeps the identity of each boxed limit: `Integer.valueOf` caches -128..127, and `Float.valueOf` never caches.
- **`String.split`** is modelled literally for delimiters with no regex meaning: no match gives `[s]`, and trailing empty pieces are dropped. `Integer.parseInt` is modelled with the 32-bit range (see `Text.ParseInt` under Left out).
- **`Float.parseFloat`** is a parameter (`FloatParser`), and so is float `mapValue` (`FloatArith`). The float-normalisation properties are proved for an arithmetic that agrees with exact rational arithmetic (`Normalise.Exact`).
- **Two cuts.** Where the code as written throws out of the selection loop (`split(c)[0]` on a fragment made only of `c`, `AALayerI.java:68`), the engine is parameterised by `Unpacking.Cut`. `AsWritten` is the code as written and is what `AALayerII.getDiscrete()` runs (`Facade.GetDiscreteAsWritten`). `Corrected` is the repaired cut used by the corrected getter (`Facade.GetDiscrete`). Every engine lemma is stated for both.
- **Extractors.** The selection loop takes the sensor's extractor as a function from text to reading (`Unpacking.Extractor`). `Unpacking.ExtractorFor` is the `switch` on the sensor id at `AALayerI.java:70-112`. The selection lemmas therefore hold for any extractor.
- **Metadata maps.** The caller's `HashMap<String, String>` is its entries in iteration order (`Queries.Entries`). `extractMetada` fills values in that order, and `HashMap` leaves the order unspecified, so the order is an input of the model rather than something it determines.
- **The transport** (`DeviceLayerClass.getDiscretePacket`, `getContinuousPacket`) is a function parameter (`DiscretePort`, `StreamPort`). `None` means no device is connected.

Behaviour of the code worth noting:

- A requested sensor whose identifier is `'\0'` makes `populateDiscreteResponse` throw `DataNotCollectedException`. That aborts the whole `getDiscrete`, siblings included, instead of only that sensor's extraction (`Unpacking.PopulateThrowsIff`).
- A request byte of 0 ends the assurance loop normally, with no error (`Assurance.AssureStops`).
- A zero-width hardware range is not rejected by integer `mapValue`. The division happens in `float`, so it saturates to an infinity and the result wraps (`Normalise.ZeroWidthWrapsRound`).
- A stream length that cannot be resolved gives `DataNotCollectedException` only when it is 0. A negative length fails at the array allocation (`Streams.Fetch`).

## Model

Paths are relative to the repository's source root. `AALayerI.java` and `AALayerII.java` live under `SensorStack/src/com/sensorstack/AAlayer/`, the two packet configurations under `SensorStack/src/com/sensorstack/`, and the record classes under `SensorStack/src/com/sensorstack/sensors/`.

| member | source | states |
|---|---|---|
| Lang.ShiftedBit | SensorStack/src/com/sensorstack/AAlayer/AALayerI.java:302-307 | `(byte)(1 << n)` has exactly bit `n` set for `0 <= n < 8`, and is 0 once the shift distance `n mod 32` reaches 8 |
| Sensor.SensorName | SensorStack/src/com/sensorstack/sensors/Sensor.java:34-53 | a name exists exactly for the six known sensor ids; any other id gives `null` |
| Sensor.SensorNameInjective | SensorStack/src/com/sensorstack/sensors/Sensor.java:34-53 | two ids with the same (non-null) name are the same id |
| Sensor.SensorIdLayout | SensorStack/src/com/sensorstack/sensors/Sensor.java:7-21 | ids are distinct and increasing, an id is discrete exactly when it precedes ECG, ECG equals `NUM_DISCRETE`, and every id is a valid bit index of a request byte |
| Ranges.BoxInteger | SensorStack/src/com/sensorstack/AAlayer/AALayerII.java:39-51 | autoboxing an `int` keeps its value and shares one cached object exactly for values in -128..127 |
| Ranges.BoxFloat | SensorStack/src/com/sensorstack/AAlayer/AALayerII.java:33-75 | autoboxing a `float` always allocates a fresh object |
| Ranges.EqualsSharedLimits | SensorStack/src/com/sensorstack/sensors/RangeOfValues.java:68-71 | `equals` is reflexive, and ranges built from the same limit objects are `equals` |
| Ranges.EqualsImpliesSameLimits | SensorStack/src/com/sensorstack/sensors/RangeOfValues.java:68-71 | on a coherent heap, `equals` ranges have numerically equal limits |
| Ranges.SeparatelyBoxedFloatsDiffer | SensorStack/src/com/sensorstack/sensors/RangeOfValues.java:68-71 | the converse fails: two float ranges with the same limits, boxed separately, are not `equals` |
| Ranges.RangeOfValues.Equals | SensorStack/src/com/sensorstack/sensors/RangeOfValues.java:68-71 | `equals` compares both limit objects with `==`. `EqualsSharedLimits`, `EqualsImpliesSameLimits`, `SeparatelyBoxedFloatsDiffer` and `IntegerCacheDecidesEquals` state what that means for boxed limits |
| Ranges.IntegerCacheDecidesEquals | SensorStack/src/com/sensorstack/sensors/RangeOfValues.java:68-71 | two separately built integer ranges with the same limits are `equals` exactly when both limits lie in the `Integer` cache |
| DataRanges.DefaultSensorDataRange | SensorStack/src/com/sensorstack/sensors/SensorDataRange.java:19-32 | the no-argument constructor sets every field. Temperature and oximeter share one [0,100] object, and the three integer ranges share one [0,100] object. ECG is [1,2]. The two GSR ranges are numerically equal, [-100000,100000], but are not `equals` |
| DataRanges.DefaultRangeIdentity | SensorStack/src/com/sensorstack/sensors/SensorDataRange.java:21-31 | the default integer range is `equals` to any range boxed from 0 and 100, while default float ranges from two constructions are never `equals` |
| Readings.Reading.SensorId | SensorStack/src/com/sensorstack/sensors/Sensor.java:10-14 | every reading belongs to a discrete sensor |
| Readings.SensorData.Set | SensorStack/src/com/sensorstack/sensors/SensorData.java:58-106 | a setter marks its sensor as collected |
| Readings.SensorData.Get | SensorStack/src/com/sensorstack/sensors/SensorData.java:27-101 | a getter succeeds exactly when the sensor is marked collected, and otherwise throws `DataNotCollectedException`; what it returns fits its sensor |
| Readings.SensorData.GetResponse | SensorStack/src/com/sensorstack/sensors/SensorData.java:41-47 | accepts exactly the discrete ids, otherwise `SensorNotDefinedException`; the flag says whether the getter would succeed |
| Readings.NewSensorData | SensorStack/src/com/sensorstack/sensors/SensorData.java:20-25 | a fresh record has every getter throw `DataNotCollectedException` |
| Readings.SetThenGet | SensorStack/src/com/sensorstack/sensors/SensorData.java:58-62 | what a setter stores, the getter returns |
| Readings.SetFrame | SensorStack/src/com/sensorstack/sensors/SensorData.java:58-106 | a setter leaves every other sensor's reading and flag unchanged |
| Readings.SetKeepsFlags | SensorStack/src/com/sensorstack/sensors/SensorData.java:14-107 | presence flags are monotone: no setter clears one |
| Buffers.NewSensorContinuous | SensorStack/src/com/sensorstack/sensors/SensorContinuous.java:18-23 | a non-negative length gives that length and that many null slots; a negative one throws `NegativeArraySizeException` |
| Buffers.SetValueArray | SensorStack/src/com/sensorstack/sensors/SensorContinuous.java:27-31 | copies `a[i]` into slot `i` for `i` below both `length` and `|a|`, and leaves the other slots, the length and the buffer size alone; it throws exactly when that runs past the buffer |
| Buffers.SetLength | SensorStack/src/com/sensorstack/sensors/SensorContinuous.java:35-37 | changes the count only; the buffer keeps its contents and size |
| Buffers.NewECG | SensorStack/src/com/sensorstack/sensors/ECG.java:12-15 | an ECG of `n` null samples with length `n` |
| Buffers.ECGFrom | SensorStack/src/com/sensorstack/sensors/ECG.java:21-25 | the copy has the source's length, and its slots hold the source's first samples (null past the end of the source buffer) |
| Buffers.SetValueArrayExact | SensorStack/src/com/sensorstack/sensors/SensorContinuous.java:27-31 | copying an array of matching length into a matching buffer yields exactly that array, without exception |
| Buffers.SetValueArrayIdempotent | SensorStack/src/com/sensorstack/sensors/SensorContinuous.java:27-31 | copying the same array twice equals copying it once |
| Buffers.ECGFromRoundTrip | SensorStack/src/com/sensorstack/sensors/ECG.java:21-25 | the copy constructor returns a consistent stream unchanged |
| StreamConfig.ContinuousStreamInfo.DataLengthForAsWritten | SensorStack/src/com/sensorstack/ContinuousStreamInfo.java:86-88 | as written: the 32-bit product of the `samplingRate` field and the duration |
| StreamConfig.ContinuousStreamInfo.DataLengthFor | SensorStack/src/com/sensorstack/ContinuousStreamInfo.java:86-88 | corrected: the 32-bit product of the rate argument and the duration, which agrees with the as-written getter whenever the argument equals the field |
| StreamConfig.ContinuousStreamInfo.SetDataLengthForAsWritten | SensorStack/src/com/sensorstack/ContinuousStreamInfo.java:92-94 | the setter stores what the as-written getter returns, and changes no other field |
| StreamConfig.ContinuousStreamInfo.SetDataLengthFor | SensorStack/src/com/sensorstack/ContinuousStreamInfo.java:92-94 | the corrected setter stores what the corrected getter returns, and changes no other field |
| StreamConfig.ContinuousStreamInfo.EffectiveLength | SensorStack/src/com/sensorstack/AAlayer/AALayerI.java:315-319 | the explicit length when it is non-zero, otherwise the length derived from rate and duration |
| StreamConfig.DataLengthIgnoresRate | SensorStack/src/com/sensorstack/ContinuousStreamInfo.java:86-94 | on the defaults, 100 samples/s for 10 s gives 0 samples as written and 1000 as corrected, for both getter and setter |
| StreamConfig.DataLengthAsWrittenIgnoresArgument | SensorStack/src/com/sensorstack/ContinuousStreamInfo.java:86-88 | as written, the result does not depend on the rate argument at all |
| StreamConfig.DefaultStreamIsEmpty | SensorStack/src/com/sensorstack/ContinuousStreamInfo.java:30-46 | with the field initialisers, a fetch asks for 0 samples |
| DiscreteConfig.DiscretePacketInfo.SetRequirement | SensorStack/src/com/sensorstack/DiscretePacketInfo.java:53-59 | succeeds exactly for discrete ids and then changes only that flag; any other id throws `SensorNotDefinedException` |
| DiscreteConfig.DiscretePacketInfo.SetRequirements | SensorStack/src/com/sensorstack/DiscretePacketInfo.java:61-66 | copies the first min(`|flags|`, 5) flags; the remaining flags and every other field are unchanged |
| DiscreteConfig.DiscretePacketInfo.GetRequirement | SensorStack/src/com/sensorstack/DiscretePacketInfo.java:68-74 | succeeds exactly for discrete ids, returning that sensor's flag; otherwise `SensorNotDefinedException` |
| DiscreteConfig.DiscretePacketInfo.GetSensorIdentifierAsWritten | SensorStack/src/com/sensorstack/DiscretePacketInfo.java:117-121 | as written: ids outside 0..5 throw `SensorNotDefinedException`, and ids 0..5, id 5 included, index the identifier array, throwing `ArrayIndexOutOfBoundsException` past its end (id 5 on the default five-element array) |
| DiscreteConfig.DiscretePacketInfo.GetSensorIdentifier | SensorStack/src/com/sensorstack/DiscretePacketInfo.java:117-121 | corrected: `SensorNotDefinedException` exactly for non-discrete ids; otherwise the stored identifier, or `ArrayIndexOutOfBoundsException` for a short array |
| DiscreteConfig.SetThenGetRequirement | SensorStack/src/com/sensorstack/DiscretePacketInfo.java:53-74 | a flag that was set reads back as set, and the other flags read as before |
| DiscreteConfig.SetRequirementsOwnFlags | SensorStack/src/com/sensorstack/DiscretePacketInfo.java:61-79 | copying in the record's own flag array changes nothing |
| DiscreteConfig.IdentifierGuardOffByOne | SensorStack/src/com/sensorstack/DiscretePacketInfo.java:117-121 | the two getters agree on every id except 5: there the default record throws `ArrayIndexOutOfBoundsException` as written, and a longer array even returns a character for a non-discrete sensor |
| Requests.RequestBits | SensorStack/src/com/sensorstack/AAlayer/AALayerI.java:39-43 | after `i` iterations of the loop, bit `k` is set exactly when `k < i` and sensor `k` is requested |
| Requests.RequestByte | SensorStack/src/com/sensorstack/AAlayer/AALayerI.java:37-44 | the request byte is 0 exactly when no discrete sensor is requested |
| Requests.RequestByteBits | SensorStack/src/com/sensorstack/AAlayer/AALayerI.java:37-44 | bit `k` of the request byte is set exactly for the requested discrete sensors; bits 5-7 are clear |
| Requests.RequestByteInjective | SensorStack/src/com/sensorstack/AAlayer/AALayerI.java:37-44 | different flag sets give different request bytes |
| Requests.StartByte | SensorStack/src/com/sensorstack/AAlayer/AALayerI.java:302-307 | `generateRequestByte(int)`, `(byte)(1 << n)`. `StartByteBits` states its bits |
| Requests.StartByteBits | SensorStack/src/com/sensorstack/AAlayer/AALayerI.java:302-307 | the start byte has only the sensor's bit, and is 0 once the shift distance reaches 8 |
| Requests.MetadataByte | SensorStack/src/com/sensorstack/AAlayer/AALayerI.java:481-483 | bit 7 or-ed with the sensor's bit. `MetadataByteBits` states its bits |
| Requests.MetadataByteBits | SensorStack/src/com/sensorstack/AAlayer/AALayerI.java:481-483 | the metadata request has bit 7 set, and otherwise only the sensor's bit |
| Requests.DataRequestsLackMetadataBit | SensorStack/src/com/sensorstack/AAlayer/AALayerI.java:37-44 | neither a data request nor a start byte of a sensor below 7 carries the metadata bit |
| Text.Split | SensorStack/src/com/sensorstack/AAlayer/AALayerI.java:64 | `s.split(d)` is the sequence of pieces between occurrences of `d`, with trailing empty pieces removed; no piece contains `d`, and a text free of `d` splits into itself |
| Text.JoinRawSplit | SensorStack/src/com/sensorstack/AAlayer/AALayerI.java:64 | splitting loses nothing: the pieces joined with the delimiter rebuild the text |
| Text.SplitJoin | SensorStack/src/com/sensorstack/AAlayer/AALayerI.java:503 | values that do not contain `c`, the last one non-empty, split back out of their join |
| Text.SplitPair | SensorStack/src/com/sensorstack/AAlayer/AALayerI.java:205 | `a + c + b` splits into `[a, b]` when neither holds `c` and `b` is not empty |
| Text.Before | SensorStack/src/com/sensorstack/AAlayer/AALayerI.java:68 | the longest prefix without `c`, followed in the text by `c` unless it is the whole text |
| Text.SplitEmptyIff | SensorStack/src/com/sensorstack/AAlayer/AALayerI.java:68 | `s.split(c)` is empty exactly when `s` is a non-empty run of `c` |
| Text.JavaSplit | SensorStack/src/com/sensorstack/AAlayer/AALayerI.java:398 | with an empty delimiter a non-empty text splits into its characters; otherwise it is the literal split |
| Text.ParseInt | SensorStack/src/com/sensorstack/AAlayer/AALayerI.java:184 | `Integer.parseInt` succeeds only on a non-empty text and only with a 32-bit value |
| Text.ParseShowInt | SensorStack/src/com/sensorstack/AAlayer/AALayerI.java:184 | `parseInt(toString(n)) == n` for every `int` |
| Extraction.IsValidFloat | SensorStack/src/com/sensorstack/AAlayer/AALayerI.java:254-259 | `isValid(float, range)`: inclusive at both limits. `AdmitsNoneIff` states which ranges admit nothing |
| Extraction.IsValidInt | SensorStack/src/com/sensorstack/AAlayer/AALayerI.java:261-266 | `isValid(int, range)`: inclusive at both limits |
| Extraction.IsValidFloatPair | SensorStack/src/com/sensorstack/AAlayer/AALayerI.java:268-274 | true exactly when both values lie, inclusively, in their own ranges |
| Extraction.IsValidIntPair | SensorStack/src/com/sensorstack/AAlayer/AALayerI.java:276-282 | true exactly when both values lie, inclusively, in their own ranges |
| Extraction.AdmitsNoneIff | SensorStack/src/com/sensorstack/AAlayer/AALayerI.java:254-266 | a hardware range admits no value exactly when it is unset (`null`, whose exception the extractors catch) or inverted |
| Extraction.NoRangeNoReading | SensorStack/src/com/sensorstack/AAlayer/AALayerI.java:129-252 | a sensor whose range, or either range of a pair, admits no value never yields a reading, whatever text the device sends |
| Extraction.ExtractTemp | SensorStack/src/com/sensorstack/AAlayer/AALayerI.java:227-252 | a temperature results exactly when the text parses and the hardware range is set and contains the value, and it is that value |
| Extraction.ExtractSPO2 | SensorStack/src/com/sensorstack/AAlayer/AALayerI.java:159-178 | the same for oxygen saturation |
| Extraction.ExtractPulseRate | SensorStack/src/com/sensorstack/AAlayer/AALayerI.java:180-199 | the same for a pulse rate parsed with `parseInt` |
| Extraction.ExtractBP | SensorStack/src/com/sensorstack/AAlayer/AALayerI.java:201-225 | a reading results exactly when the field has at least two parts, the first two parse, and each lies in its range; it holds those two values |
| Extraction.ExtractGSR | SensorStack/src/com/sensorstack/AAlayer/AALayerI.java:129-157 | the same for conductance and resistance |
| Extraction.Extract | SensorStack/src/com/sensorstack/AAlayer/AALayerI.java:71-113 | the `switch` picks the extractor of the sensor asked for: what it yields belongs to that sensor and is the value that extractor returns |
| Extraction.PulseRateExtracts | SensorStack/src/com/sensorstack/AAlayer/AALayerI.java:89-96 | a pulse rate sent in decimal is extracted for the pulse-rate sensor exactly when the range admits it |
| Extraction.BloodPressureExtracts | SensorStack/src/com/sensorstack/AAlayer/AALayerI.java:81-88 | `sys c dia` is extracted for the blood-pressure sensor exactly when both values are admitted |
| Extraction.PulseRateRoundTrip | SensorStack/src/com/sensorstack/AAlayer/AALayerI.java:180-199 | a pulse rate sent in decimal extracts to itself exactly when the range admits it |
| Extraction.BloodPressureRoundTrip | SensorStack/src/com/sensorstack/AAlayer/AALayerI.java:201-225 | `sys c dia` extracts to the pair exactly when both are admitted; a half-valid pair is rejected whole |
| Extraction.GsrRoundTrip | SensorStack/src/com/sensorstack/AAlayer/AALayerI.java:129-157 | two float texts joined by the delimiter extract to their values exactly when both are admitted |
| Unpacking.ExtractorFor | SensorStack/src/com/sensorstack/AAlayer/AALayerI.java:70-112 | the extractor the `switch` picks for a sensor yields only readings of that sensor |
| Unpacking.LatestValid | SensorStack/src/com/sensorstack/AAlayer/AALayerI.java:66-118 | the index the backward loop stops at is among `1..k`; fragment 0 is never tried |
| Unpacking.LatestValidSpec | SensorStack/src/com/sensorstack/AAlayer/AALayerI.java:66-118 | the loop finds the last fragment that extracts, and finds none exactly when no fragment in `1..k` extracts |
| Unpacking.SelectLatest | SensorStack/src/com/sensorstack/AAlayer/AALayerI.java:63-118 | the corrected selection: the reading of the latest fragment after the first that extracts. `SelectLatestSpec` characterises it in both directions |
| Unpacking.SelectLatestSpec | SensorStack/src/com/sensorstack/AAlayer/AALayerI.java:63-118 | nothing is selected exactly when no fragment after the first extracts; otherwise the reading of a fragment after which none extracts |
| Unpacking.LatestValidIgnoresHead | SensorStack/src/com/sensorstack/AAlayer/AALayerI.java:66 | fragments that agree from index 1 on give the same loop result |
| Unpacking.SelectLatestIgnoresHead | SensorStack/src/com/sensorstack/AAlayer/AALayerI.java:63-66 | the text before the first identifier has no influence on the selection |
| Unpacking.LastValidFragmentWins | SensorStack/src/com/sensorstack/AAlayer/AALayerI.java:66-118 | a valid last fragment is selected, whatever precedes it |
| Unpacking.FirstFieldAsWritten | SensorStack/src/com/sensorstack/AAlayer/AALayerI.java:68 | the cut as written: `IndexOutOfBounds` on a fragment made only of the sensor delimiter, otherwise the text before the first one. `FirstFieldAsWrittenSplits` proves this is Java's `split(c)[0]` |
| Unpacking.FirstFieldAsWrittenSplits | SensorStack/src/com/sensorstack/AAlayer/AALayerI.java:68 | the cut as written is `split(c)[0]` on Java's split: it throws `ArrayIndexOutOfBoundsException` exactly when trailing-empty removal leaves no field, i.e. on a fragment made only of `c`, and otherwise yields the text before the first `c` |
| Unpacking.LatestValidAsWritten | SensorStack/src/com/sensorstack/AAlayer/AALayerI.java:66-118 | as written: whenever it returns, it agrees with the corrected loop; what it throws is `ArrayIndexOutOfBoundsException` |
| Unpacking.LatestValidAsWrittenThrowsIff | SensorStack/src/com/sensorstack/AAlayer/AALayerI.java:66-68 | the loop as written throws exactly when, scanning back from `k`, it meets a fragment made only of sensor delimiters before any fragment that extracts |
| Unpacking.SelectLatestAsWritten | SensorStack/src/com/sensorstack/AAlayer/AALayerI.java:63-118 | as written: whenever it returns, it agrees with the corrected selection; what it throws is `ArrayIndexOutOfBoundsException` |
| Unpacking.SelectLatestAsWrittenThrowsIff | SensorStack/src/com/sensorstack/AAlayer/AALayerI.java:63-68 | selection as written throws exactly when the backward scan over all fragments trips over a fragment made only of sensor delimiters |
| Unpacking.SelectLatestAsWrittenClean | SensorStack/src/com/sensorstack/AAlayer/AALayerI.java:63-118 | with no fragment made only of sensor delimiters, selection as written returns, and returns the corrected selection |
| Unpacking.EmptyFieldAborts | SensorStack/src/com/sensorstack/AAlayer/AALayerI.java:63-68 | the answer `T@#` splits into `["", "#"]`. As written, selection over it throws; corrected, it merely finds no valid value unless the empty field parses and is admitted |
| Unpacking.Offered | SensorStack/src/com/sensorstack/AAlayer/AALayerI.java:63-118 | the reading an answer offers a sensor belongs to that sensor |
| Unpacking.Selection | SensorStack/src/com/sensorstack/AAlayer/AALayerI.java:63-68 | a sensor's selection yields the reading the answer offers, or throws `ArrayIndexOutOfBoundsException`; only the cut as written throws |
| Unpacking.ReadableIff | SensorStack/src/com/sensorstack/AAlayer/AALayerI.java:55-68 | a pass gets past a required sensor exactly when it has an identifier and, as written, its selection does not trip over a fragment made only of sensor delimiters; corrected, the identifier suffices |
| Unpacking.CleanReadable | SensorStack/src/com/sensorstack/AAlayer/AALayerI.java:68 | a sensor with an identifier and no fragment made only of sensor delimiters is readable under either cut |
| Unpacking.PopulateFrom | SensorStack/src/com/sensorstack/AAlayer/AALayerI.java:46-127 | a pass can only end with `DataNotCollectedException` or `ArrayIndexOutOfBoundsException` |
| Unpacking.Outcome | SensorStack/src/com/sensorstack/AAlayer/AALayerI.java:55-68 | at a required sensor the pass throws `DataNotCollectedException` for the identifier `'\0'`, otherwise throws only `ArrayIndexOutOfBoundsException`, and goes on exactly when the sensor is readable, with the reading the answer offers |
| Unpacking.PopulateIsPass | SensorStack/src/com/sensorstack/AAlayer/AALayerI.java:51-118 | the pass equals the walk over the table of per-sensor outcomes; selection reads only the answer and the configuration, so working the outcomes out up front changes nothing |
| Unpacking.PassThrowsIff | SensorStack/src/com/sensorstack/AAlayer/AALayerI.java:51-68 | over any table of outcomes, the walk throws exactly when a required sensor's outcome is an exception |
| Unpacking.PassFrame | SensorStack/src/com/sensorstack/AAlayer/AALayerI.java:114-118 | over any table, the walk only clears flags, leaves those before its start alone, and a sensor whose flag it keeps keeps its reading and presence |
| Unpacking.PassStores | SensorStack/src/com/sensorstack/AAlayer/AALayerI.java:72-118 | over any table, a cleared flag belongs to a sensor whose outcome offered a reading, and that reading was stored and marked collected |
| Unpacking.PassDecides | SensorStack/src/com/sensorstack/AAlayer/AALayerI.java:66-118 | over any table, a required sensor reached without an earlier exception stays required exactly when its outcome offers nothing |
| Unpacking.PopulateThrowsIff | SensorStack/src/com/sensorstack/AAlayer/AALayerI.java:51-68 | a pass throws exactly when it meets a required sensor that is not readable: one without an identifier, or, as written, one whose selection throws |
| Unpacking.PopulateStops | SensorStack/src/com/sensorstack/AAlayer/AALayerI.java:51-68 | a pass that has run out of sensors, or meets a required sensor it cannot read, ends with the readings and flags it has |
| Unpacking.PopulateFrame | SensorStack/src/com/sensorstack/AAlayer/AALayerI.java:114-118 | a pass only clears flags, never touches sensors before its start, and a sensor whose flag it keeps keeps its reading and presence |
| Unpacking.PopulateStores | SensorStack/src/com/sensorstack/AAlayer/AALayerI.java:114-118 | a cleared flag means the offered reading was stored and marked collected |
| Unpacking.PopulateDecides | SensorStack/src/com/sensorstack/AAlayer/AALayerI.java:66-118 | a required sensor the pass reaches stays required exactly when the answer offers nothing valid for it |
| Unpacking.Populate | SensorStack/src/com/sensorstack/AAlayer/AALayerI.java:46-127 | the whole pass, as written or corrected: it throws exactly when some required sensor is not readable, which for the corrected cut means it has no identifier. It only clears flags, and cleared flags hold the offered readings. Without an exception, a sensor stays required exactly when nothing valid was offered |
| Unpacking.EmptyFieldAbortsPass | SensorStack/src/com/sensorstack/AAlayer/AALayerI.java:46-127 | for a temperature-only request answered `T@#`, the pass as written throws `ArrayIndexOutOfBoundsException`; the corrected pass returns with the flag still set and nothing stored |
| Assurance.AssureFrom | SensorStack/src/com/sensorstack/AAlayer/AALayerI.java:284-300 | a run sends at most as many requests as it has attempts left |
| Assurance.AssureExtends | SensorStack/src/com/sensorstack/AAlayer/AALayerI.java:290-298 | a run only appends to the requests already sent |
| Assurance.Assure | SensorStack/src/com/sensorstack/AAlayer/AALayerI.java:284-300 | a whole run sends at most `numAttempts` requests, and none when that is not positive |
| Assurance.GetDiscrete | SensorStack/src/com/sensorstack/AAlayer/AALayerI.java:284-300 | the loop with its early `break` computes the run of the recursive reference, for either cut |
| Assurance.PassKeepsStep | SensorStack/src/com/sensorstack/AAlayer/AALayerI.java:114-118 | one pass keeps the readings in step with the flags: present exactly when required at the start and since cleared, and then holding a reading |
| Assurance.AssureKeepsStep | SensorStack/src/com/sensorstack/AAlayer/AALayerI.java:290-298 | the whole loop keeps that correspondence |
| Assurance.AssurePresence | SensorStack/src/com/sensorstack/AAlayer/AALayerI.java:284-300 | at the end no flag was raised, and a sensor is present exactly when it was required and its flag was cleared; a present sensor holds a reading |
| Assurance.AssureNarrowsFrom | SensorStack/src/com/sensorstack/AAlayer/AALayerI.java:290-298 | from any state, the requests narrow: none is empty, each asks only for sensors every earlier one asked for, and the flags left over were all in the last request |
| Assurance.PassNarrows | SensorStack/src/com/sensorstack/AAlayer/AALayerI.java:114-118 | a pass only clears flags |
| Assurance.AssureNarrows | SensorStack/src/com/sensorstack/AAlayer/AALayerI.java:290-298 | the first request asks for exactly the initial flags, and no request is empty. Each request asks only for sensors every earlier request asked for, so a satisfied sensor is never asked for again. The flags left at the end were all in the last request |
| Assurance.AssureStopsFrom | SensorStack/src/com/sensorstack/AAlayer/AALayerI.java:290-294 | a run that ends without exception has nothing left to request or has used every attempt |
| Assurance.RequestByteZero | SensorStack/src/com/sensorstack/AAlayer/AALayerI.java:292-294 | a zero request byte means no flag is set |
| Assurance.AssureStops | SensorStack/src/com/sensorstack/AAlayer/AALayerI.java:290-294 | a whole run without exception ends with every flag cleared or with exactly `numAttempts` requests sent |
| Assurance.OneRoundSuffices | SensorStack/src/com/sensorstack/AAlayer/AALayerI.java:290-298 | when the first answer offers every required sensor a valid reading and each of them is readable (for the cut as written: its selection does not throw), exactly one request is sent and nothing is thrown |
| Assurance.PassSatisfiesAll | SensorStack/src/com/sensorstack/AAlayer/AALayerI.java:46-127 | a pass over an answer that offers every required sensor a valid reading, each readable, clears every flag without throwing |
| Assurance.NeverOfferedStaysAbsentFrom | SensorStack/src/com/sensorstack/AAlayer/AALayerI.java:284-300 | from any state, with a connected device, every required sensor identified and, for the cut as written, no answer holding a fragment made only of sensor delimiters, a sensor that is absent and never offered stays absent, and nothing is thrown |
| Assurance.OfferedIgnoresFlags | SensorStack/src/com/sensorstack/AAlayer/AALayerI.java:63-64 | what an answer offers a sensor depends on the identifiers and delimiters, not on the flags |
| Assurance.NeverOfferedStaysAbsent | SensorStack/src/com/sensorstack/AAlayer/AALayerI.java:284-300 | under the same conditions, a sensor for which no answer offers a valid value ends absent while the run succeeds: the result is partial, not an error |
| Streams.Keep | SensorStack/src/com/sensorstack/AAlayer/AALayerI.java:326-341 | the kept samples are no more than the lines and all satisfy the range |
| Streams.KeepMembers | SensorStack/src/com/sensorstack/AAlayer/AALayerI.java:326-341 | a value is kept exactly when some line parses to it and the range admits it |
| Streams.KeepGrows | SensorStack/src/com/sensorstack/AAlayer/AALayerI.java:326-341 | reading more lines only appends: the samples kept from a prefix are a prefix of those kept from more |
| Streams.Collected | SensorStack/src/com/sensorstack/AAlayer/AALayerI.java:323-341 | with a range: the kept samples, or `ArrayIndexOutOfBoundsException` exactly when more are kept than the buffer holds. With a null range: `NullPointerException` exactly when some line parses |
| Streams.Collect | SensorStack/src/com/sensorstack/AAlayer/AALayerI.java:326-341 | the loop computes that reference |
| Streams.ParsedInts | SensorStack/src/com/sensorstack/AAlayer/AALayerI.java:330 | each line parsed with `parseInt`; a null line counts as unparseable |
| Streams.ParsedFloats | SensorStack/src/com/sensorstack/AAlayer/AALayerI.java:369 | each non-null line parsed with the float parser |
| Streams.CollectedFloatsAsWritten | SensorStack/src/com/sensorstack/AAlayer/AALayerI.java:365-380 | as written: it agrees with the reference whenever it returns, and always returns when no line is null |
| Streams.CollectFloatsAsWritten | SensorStack/src/com/sensorstack/AAlayer/AALayerI.java:365-380 | the as-written loop computes that function |
| Streams.Packed | SensorStack/src/com/sensorstack/AAlayer/AALayerI.java:342-343 | the result buffer has exactly as many slots as samples kept, holding them in order |
| Streams.Fetch | SensorStack/src/com/sensorstack/AAlayer/AALayerI.java:312-325 | an effective length of 0 throws `DataNotCollectedException` and a negative one `NegativeArraySizeException`, both before the device is asked; otherwise the device is asked for that many samples |
| Streams.GetIntContinuous | SensorStack/src/com/sensorstack/AAlayer/AALayerI.java:309-345 | length 0 throws `DataNotCollectedException` before any call, a negative length `NegativeArraySizeException`, and a positive length with no device `NoDeviceConnectedException`. After a fetch with a null range, the call throws `NullPointerException` exactly when some line parses, and otherwise returns an empty buffer. With a range, the call returns exactly when the parseable, in-range lines fit in the requested length, and otherwise throws `ArrayIndexOutOfBoundsException`. A returned buffer holds those lines' values in order, and its length is their count |
| Streams.GetFloatContinuous | SensorStack/src/com/sensorstack/AAlayer/AALayerI.java:347-385 | corrected: the same outcomes and the same buffer for floats, with null lines skipped as the integer loop skips them |
| Streams.GetFloatContinuousAsWritten | SensorStack/src/com/sensorstack/AAlayer/AALayerI.java:347-385 | as written: it agrees with the corrected fetch whenever it returns, and always returns when no line is null |
| Streams.GetECG | SensorStack/src/com/sensorstack/AAlayer/AALayerI.java:466-474 | the ECG is the float stream fetched as written with the hardware ECG range: when it returns, and whenever no line is null, it is the corrected float stream; `NullPointerException` comes only from a null range or a null line |
| Streams.NullLineAbortsECG | SensorStack/src/com/sensorstack/AAlayer/AALayerI.java:466-474 | the stream `["1", null]` makes the ECG fetch throw `NullPointerException`, where the corrected float stream returns |
| Streams.KeepAll | SensorStack/src/com/sensorstack/AAlayer/AALayerI.java:326-341 | when every line parses and is admitted, nothing is dropped |
| Streams.LinesParseBack | SensorStack/src/com/sensorstack/AAlayer/AALayerI.java:330-331 | in-range integers sent in decimal are all kept, in order |
| Streams.IntStreamRoundTrip | SensorStack/src/com/sensorstack/AAlayer/AALayerI.java:309-345 | a stream of in-range integers within the capacity, the empty stream included, comes back as exactly those values |
| Streams.IntStreamMembers | SensorStack/src/com/sensorstack/AAlayer/AALayerI.java:326-341 | a sample is in the fetched stream exactly when some line parses to it and the range admits it |
| Streams.NullLineAbortsFloatStream | SensorStack/src/com/sensorstack/AAlayer/AALayerI.java:369-379 | a null line throws out of the float loop as written, while the corrected float loop and the integer loop skip it |
| Queries.Query | SensorStack/src/com/sensorstack/AAlayer/AALayerI.java:390-464 | fails exactly when no device is connected; a reading belongs to the sensor asked for; no marker in the answer means `null` |
| Queries.QueryRoundTrip | SensorStack/src/com/sensorstack/AAlayer/AALayerI.java:390-464 | in an answer with one marker, the text after the marker is what gets extracted |
| Queries.PulseQueryExample | SensorStack/src/com/sensorstack/AAlayer/AALayerI.java:422-433 | `P@50` reads back as a pulse rate of 50 when the range admits it |
| Queries.ExtractMetadata | SensorStack/src/com/sensorstack/AAlayer/AALayerI.java:501-517 | the keys never change. When the answer splits into exactly as many values as there are entries, they are filled in order and the result is `true`; otherwise nothing changes |
| Queries.ExtractMetadataRoundTrip | SensorStack/src/com/sensorstack/AAlayer/AALayerI.java:501-517 | values joined by the delimiter fill the entries in order |
| Queries.GetMetadata | SensorStack/src/com/sensorstack/AAlayer/AALayerI.java:476-499 | fails exactly when no device is connected, and never changes the keys |
| Queries.GetMetadataRoundTrip | SensorStack/src/com/sensorstack/AAlayer/AALayerI.java:476-499 | an answer carrying the marker and the joined values fills the entries with those values |
| Normalise.TruncDivRemainder | SensorStack/src/com/sensorstack/AAlayer/AALayerII.java:847 | Java's `/` rounds toward zero: the remainder is smaller than the divisor and never has the opposite sign of the dividend |
| Normalise.CastQuotient | SensorStack/src/com/sensorstack/AAlayer/AALayerII.java:847 | `(int)` of the float quotient is the truncated quotient when that fits; otherwise it saturates, and division by zero gives `MAX_VALUE`, `MIN_VALUE` or 0 by the sign of the dividend |
| Normalise.MapInt | SensorStack/src/com/sensorstack/AAlayer/AALayerII.java:843-849 | integer `mapValue` with every `int` operation wrapping and the `float` quotient cast by `(int)` saturation; its result is a Java `int`. Its meaning is stated by `MapIntLowerLimit` through `MapIntMonotone` below |
| Normalise.MapIntLowerLimit | SensorStack/src/com/sensorstack/AAlayer/AALayerII.java:843-849 | the hardware lower limit maps onto the standard lower limit |
| Normalise.MapIntUpperLimit | SensorStack/src/com/sensorstack/AAlayer/AALayerII.java:843-849 | for proper ranges, the upper limit maps onto the upper limit |
| Normalise.MapIntIdentity | SensorStack/src/com/sensorstack/AAlayer/AALayerII.java:843-849 | mapping a range onto itself changes nothing inside it |
| Normalise.MapIntInside | SensorStack/src/com/sensorstack/AAlayer/AALayerII.java:843-849 | inside a proper range nothing wraps or saturates: the result is `outLL` plus the offset times `outW` divided by `inW`, truncated toward zero |
| Normalise.MapIntWithin | SensorStack/src/com/sensorstack/AAlayer/AALayerII.java:843-849 | a value inside the hardware range lands inside the standard range |
| Normalise.MapIntMonotone | SensorStack/src/com/sensorstack/AAlayer/AALayerII.java:843-849 | rescaling keeps the order of readings |
| Normalise.MappedInts | SensorStack/src/com/sensorstack/AAlayer/AALayerII.java:851-861 | the array overload returns a new array of the same length |
| Normalise.MapInts | SensorStack/src/com/sensorstack/AAlayer/AALayerII.java:851-861 | the loop maps each element with the scalar formula |
| Normalise.MappedIntsWithin | SensorStack/src/com/sensorstack/AAlayer/AALayerII.java:851-861 | mapping admitted readings lands every element in the standard range and keeps their order |
| Normalise.PulseExample | SensorStack/src/com/sensorstack/AAlayer/AALayerII.java:843-849 | 50 on a 0..100 sensor reads 110 on the 20..200 scale, and 110 maps back to 50 |
| Normalise.MapIntLossy | SensorStack/src/com/sensorstack/AAlayer/AALayerII.java:843-849 | truncation loses information: mapping forth and back need not return the value |
| Normalise.ZeroWidthWrapsRound | SensorStack/src/com/sensorstack/AAlayer/AALayerII.java:843-849 | a zero-width hardware range does not throw: a value above it saturates and the addition wraps to a negative reading |
| Normalise.ExactMapLimits | SensorStack/src/com/sensorstack/AAlayer/AALayerII.java:835-841 | in exact arithmetic the float rescaling sends limits onto limits, is the identity onto the same range, and keeps values inside an ordered range inside the target |
| Normalise.MappedSamples | SensorStack/src/com/sensorstack/AAlayer/AALayerII.java:863-873 | the `Float[]` overload maps every sample and keeps the length; a null sample throws `NullPointerException` |
| Normalise.MapSamples | SensorStack/src/com/sensorstack/AAlayer/AALayerII.java:863-873 | the loop computes that reference |
| Facade.SetHardwareRange | SensorStack/src/com/sensorstack/AAlayer/AALayerII.java:95-113 | every range given replaces the one in force, and every null field keeps the old range |
| Facade.SetHardwareRangeLaws | SensorStack/src/com/sensorstack/AAlayer/AALayerII.java:95-113 | the update is idempotent, all-null is a no-op, a full table replaces everything, and it never loses a set range |
| Facade.OverrideRanges | SensorStack/src/com/sensorstack/AAlayer/AALayerII.java:426-431 | the range-taking getters overwrite exactly their own sensor's ranges, null included |
| Facade.NormaliseInt | SensorStack/src/com/sensorstack/AAlayer/AALayerII.java:621-622 | a null hardware range throws `NullPointerException` in `equals`; a range that is `equals` to the standard one leaves the value alone |
| Facade.NormaliseFloat | SensorStack/src/com/sensorstack/AAlayer/AALayerII.java:413-414 | the same for floats |
| Facade.NormaliseReading | SensorStack/src/com/sensorstack/AAlayer/AALayerII.java:220-253 | a reading normalises exactly when its sensor's hardware ranges are all set, and stays a reading of the same sensor |
| Facade.NormaliseIntWithin | SensorStack/src/com/sensorstack/AAlayer/AALayerII.java:843-849 | an admitted `int` normalises into the standard range, whether or not the map is skipped |
| Facade.NormaliseFloatWithin | SensorStack/src/com/sensorstack/AAlayer/AALayerII.java:835-841 | the same for floats under exact arithmetic |
| Facade.StandardRangesProper | SensorStack/src/com/sensorstack/AAlayer/AALayerII.java:33-75 | every standard range is ordered and has room in it |
| Facade.NormaliseReadingWithin | SensorStack/src/com/sensorstack/AAlayer/AALayerII.java:220-253 | a reading the well-formed hardware ranges admit normalises without exception into the standard ranges |
| Facade.StandardHardwareIsIdentity | SensorStack/src/com/sensorstack/AAlayer/AALayerII.java:76-85 | with the initial table every reading comes back unchanged |
| Facade.DefaultRangesAreRescaled | SensorStack/src/com/sensorstack/sensors/SensorDataRange.java:19-32 | no range of a default `SensorDataRange()` is `equals` to the standard one, so every field is rescaled |
| Facade.ExtractAdmitted | SensorStack/src/com/sensorstack/AAlayer/AALayerI.java:254-282 | whatever an extractor keeps, the hardware ranges admit |
| Facade.GetReading | SensorStack/src/com/sensorstack/AAlayer/AALayerII.java:407-416 | fails exactly when no device is connected; returns `null` exactly when the underlying query did, and otherwise a reading of the sensor asked for |
| Facade.GetReadingWithin | SensorStack/src/com/sensorstack/AAlayer/AALayerII.java:407-416 | with well-formed hardware ranges and exact arithmetic, every reading a getter returns lies in the standard ranges |
| Facade.PulseReadingExample | SensorStack/src/com/sensorstack/AAlayer/AALayerII.java:615-624 | `P@50` from a sensor registered as 0..100 reaches the application as 110, and as 50 with the initial table |
| Facade.GetConfiguredReading | SensorStack/src/com/sensorstack/AAlayer/AALayerII.java:340-348 | the identifier, delimiters and timeout come from the discrete configuration; a short identifier array throws |
| Facade.GetReadingOverriding | SensorStack/src/com/sensorstack/AAlayer/AALayerII.java:327-331 | the given ranges are written into the hardware table before the fetch and stay there |
| Facade.OverridePersists | SensorStack/src/com/sensorstack/AAlayer/AALayerII.java:327-331 | a later call without ranges behaves as the overriding call did; a null range makes the getter return `null` whatever the device sends |
| Facade.NormaliseFrom | SensorStack/src/com/sensorstack/AAlayer/AALayerII.java:219-254 | the guarded blocks keep the presence flags, and can only fail with `DataNotCollectedException` or `NullPointerException` |
| Facade.GetDiscreteAsWritten | SensorStack/src/com/sensorstack/AAlayer/AALayerII.java:213-257 | as written, over the engine as written: the configuration's flags are left as the engine cleared them, and an engine exception propagates |
| Facade.GetDiscrete | SensorStack/src/com/sensorstack/AAlayer/AALayerII.java:213-257 | corrected, over the corrected engine: the same state change and exceptions, with the blocks guarded by the flags read before the run |
| Facade.NormaliseNothing | SensorStack/src/com/sensorstack/AAlayer/AALayerII.java:219-254 | with every guard false, the readings come back untouched |
| Facade.NormaliseMissing | SensorStack/src/com/sensorstack/AAlayer/AALayerII.java:219-254 | a guarded sensor that was not collected makes the block throw `DataNotCollectedException` |
| Facade.NormaliseCollected | SensorStack/src/com/sensorstack/AAlayer/AALayerII.java:219-254 | when every guarded sensor was collected and normalises, the result holds each guarded reading rescaled and every other reading unchanged |
| Facade.OfferedAdmitted | SensorStack/src/com/sensorstack/AAlayer/AALayerI.java:71-113 | a reading an answer offers lies in the hardware ranges |
| Facade.PassKeepsAdmitted | SensorStack/src/com/sensorstack/AAlayer/AALayerI.java:46-127 | a pass stores only admitted readings |
| Facade.AssureKeepsAdmitted | SensorStack/src/com/sensorstack/AAlayer/AALayerI.java:284-300 | from any state, a run keeps every stored reading admitted |
| Facade.RunAdmitted | SensorStack/src/com/sensorstack/AAlayer/AALayerI.java:284-300 | every reading a run stores lies in its hardware range |
| Facade.GetDiscreteAsWrittenSkips | SensorStack/src/com/sensorstack/AAlayer/AALayerII.java:219-254 | as written, a complete run is returned without any rescaling, and an incomplete one throws `DataNotCollectedException` |
| Facade.GetDiscreteNormalises | SensorStack/src/com/sensorstack/AAlayer/AALayerII.java:213-257 | corrected, a complete run returns every required reading rescaled into the standard ranges; an incomplete one throws |
| Facade.SecondFetchIsEmpty | SensorStack/src/com/sensorstack/AAlayer/AALayerII.java:213-219 | the engine clears the shared flags for good: after a complete run, the next aggregate fetch sends nothing and returns an empty record |
| Facade.GetNormalisedECG | SensorStack/src/com/sensorstack/AAlayer/AALayerII.java:310-318 | errors of the ECG fetch as written propagate and a null ECG range throws; otherwise every sample is normalised and the length is kept |
| Facade.GetNormalisedECGWithin | SensorStack/src/com/sensorstack/AAlayer/AALayerII.java:310-318 | under well-formed ranges and exact arithmetic, every sample lies in the standard ECG range |
| Facade.GetECGWithRange | SensorStack/src/com/sensorstack/AAlayer/AALayerII.java:282-286 | the given range, `null` included, becomes the hardware ECG range, and both packet configurations are unchanged. Errors of the stream fetch pass through. After a fetch, a `null` range always ends in `NullPointerException`; with a range given, that exception can only come from a null line of the stream |
| Facade.GetSensorMetadata | SensorStack/src/com/sensorstack/AAlayer/AALayerII.java:882-902 | a negative number throws `SensorNotDefinedException`, and the keys never change. A non-discrete number uses the stream configuration with a 1000 ms timeout and fails only when no device is connected |
| Facade.GetSensorMetadataRoundTrip | SensorStack/src/com/sensorstack/AAlayer/AALayerII.java:882-902 | an answer carrying the sensor's configured marker and the joined values fills the entries, for discrete and continuous sensors alike |

## Left out

- Transport and threading (`BluetoothService`, `DeviceLayerClass`, `DeviceLayerActivity`) are Android sockets, threads and locks. The device is a function parameter. A timed-out discrete answer is whatever the parameter returns (the library gives `""`), and a timed-out stream line is a null slot. The stop-acknowledgement drain is not modelled.
- The provenance layer (`ProvenanceLayer`, `Timestamp`, `GPSLocation`, `Metadata`) is platform calls and plain holders. It is outside the core.
- The value classes `Temperature`, `BloodPressure`, `PulseRate`, `Oximeter` and `GSR` are plain records, represented as datatype fields.
- Logging (`Log.e`, `printStackTrace`) has no effect on results and is dropped.
- `Float.parseFloat` and float arithmetic are parameters. A text that parses to NaN may be read as a failed parse, since NaN fails every range check.
- Normalise.MapInt: the `float` intermediate `(v - inLL) * (float) outW / inW` is computed exactly before truncation, so float rounding of large products (beyond 2^24) is not modelled.
- Plain field getters and setters of `DiscretePacketInfo`, `ContinuousStreamInfo`, `SensorDataRange` and `RangeOfValues` (timeouts, delimiters, limits, stop bytes) are datatype updates. They have no members of their own.
- Aliasing of `getRequirement()` and `getValueArray()`, which return the live array, is not modelled: records are immutable values. The engine's in-place clearing of the flags is modelled by returning them.
- Facade.SetHardwareRange, Facade.Layer: aliasing of the hardware table and its range objects is not modelled. In the code, the table starts out holding the `public static final` (but mutable) `STANDARD_*` objects (AALayerII.java:76-85), `getHardwareDataRange()` returns the live table (:120-123), and `setHardwareRange` stores the caller's `RangeOfValues` references (:95-113). So `setLimits`, `setLowerLimit` or `setUpperLimit` on a range obtained from the table, or on one passed in, also moves the shared object. On a standard object this moves the target scale of normalisation too, and `equals` stays true. The model's table and ranges are immutable values, and a change happens only through `SetHardwareRange`.
- The convenience overloads of `AALayerII.getDiscrete(...)` and `getECG(c)`/`getECG(c, range)` store their arguments in the static state and then delegate. The model has only the layer update (`Facade.Layer` fields) followed by the delegate.
- `AALayerI.getMetadata` sets `remainingAttempts = 2` but sends a single request. It is modelled as the single request it makes.
- The `sd == null` and `ecg == null` checks in `AALayerII` cannot fire, because `AALayerI` never returns `null` there. They are left out.
- Text.ParseInt: accepts ASCII digits only, whereas Java's `Character.digit` also accepts the other Unicode decimal digits; sensor answers are ASCII text.
- `String.split` is modelled for delimiters without regex meaning (the defaults `'#'`, `'@'`, `'%'` are safe). Regex metacharacters as delimiters are not modelled.

## Findings

| source | as written | input that shows it | evidently intended | confidence | as-written member | corrected member |
|---|---|---|---|---|---|---|
| SensorStack/src/com/sensorstack/AAlayer/AALayerI.java:68 | `data[index].split(sensorDelimiter)[0]` on a fragment made only of sensor delimiters indexes an empty array. The `ArrayIndexOutOfBoundsException` is outside the `try` and leaves `getDiscrete` | answer `T@#` for a requested temperature with identifier `T` | an empty field is an invalid value that is skipped and asked for again | high, not executed | Unpacking.FirstFieldAsWritten, Unpacking.FirstFieldAsWrittenSplits, Unpacking.SelectLatestAsWritten, Unpacking.EmptyFieldAborts, Unpacking.EmptyFieldAbortsPass, Facade.GetDiscreteAsWritten | Unpacking.SelectLatest, Unpacking.SelectLatestSpec, Facade.GetDiscrete |
| SensorStack/src/com/sensorstack/AAlayer/AALayerII.java:219 | the normalising blocks are guarded by the requirement flags read after the engine has cleared them | any complete run with a hardware range that is not the standard object, such as pulse 0..100 with `P@50` | rescale every reading that was required | high, not executed | Facade.GetDiscreteAsWritten, Facade.GetDiscreteAsWrittenSkips | Facade.GetDiscrete, Facade.GetDiscreteNormalises |
| SensorStack/src/com/sensorstack/DiscretePacketInfo.java:118 | the guard `sensorId<=Sensor.NUM_DISCRETE` admits id 5 | `getSensorIdentifier(5)` on the defaults throws `ArrayIndexOutOfBoundsException` | `SensorNotDefinedException` for id 5, as `getRequirement` does | high, not executed | DiscreteConfig.DiscretePacketInfo.GetSensorIdentifierAsWritten, DiscreteConfig.IdentifierGuardOffByOne | DiscreteConfig.DiscretePacketInfo.GetSensorIdentifier |
| SensorStack/src/com/sensorstack/ContinuousStreamInfo.java:87 | `getDataLength(samplingrate, duration)` and `setDataLength(samplingrate, duration)` multiply the field `samplingRate`, ignoring the argument | on the defaults, `getDataLength(100, 10)` is 0 | `samplingrate * duration` = 1000 | high, not executed | StreamConfig.ContinuousStreamInfo.DataLengthForAsWritten, StreamConfig.DataLengthAsWrittenIgnoresArgument | StreamConfig.ContinuousStreamInfo.DataLengthFor, StreamConfig.DataLengthIgnoresRate |
| SensorStack/src/com/sensorstack/AAlayer/AALayerI.java:369 | `Float.parseFloat(null)` throws `NullPointerException`, which the `catch (NumberFormatException)` does not catch | a stream `["1", null]` | skip the missing line, as the integer loop does (`parseInt(null)` throws `NumberFormatException`) | medium, not executed | Streams.CollectedFloatsAsWritten, Streams.NullLineAbortsFloatStream, Streams.GetECG, Streams.NullLineAbortsECG | Streams.GetFloatContinuous, Streams.Collected |

=== FILE: assurance.dfy ===
/** The data-assurance loop (`AALayerI.getDiscrete`): request the sensors
    still required, unpack the answer, clear the flags of the sensors it
    satisfied, and repeat until nothing is required or the attempts run out. */
module Assurance {
  import opened Lang
  import opened Sensor
  import opened DataRanges
  import opened Readings
  import opened DiscreteConfig
  import opened Extraction
  import opened Unpacking
  import opened Requests

  /** The device as the discrete engine sees it (`getDiscretePacket`): given
      the request byte, the timeout and the number of requests sent so far,
      the line that comes back — `""` when nothing arrives in time — or
      `None` when no device is connected, in which case nothing is sent. */
  type DiscretePort = (Byte, int, nat) -> Option<string>

  /** The outcome of a run: the readings, the requirement flags left in the
      packet configuration, the exception the run ended with, if any, and
      the flags each request covered, in order. */
  datatype Exchange = Exchange(data: SensorData, requirement: Flags, thrown: Option<Exception>, asked: seq<Flags>) {
    /** The request bytes sent. */
    function Requests(): (r: seq<Byte>)
      ensures |r| == |asked| && forall j :: 0 <= j < |asked| ==> r[j] == RequestByte(asked[j])
    {
      seq(|asked|, j requires 0 <= j < |asked| => RequestByte(asked[j]))
    }
  }

  /** The loop from a given state: `remaining` attempts left, readings `sd`,
      requests `asked` sent so far; `p.requirement` holds the current flags,
      which each pass clears in place. `cut` says how each pass cuts a
      fragment at the sensor delimiter. */
  function AssureFrom(cut: Cut, sd: SensorData, p: DiscretePacketInfo, remaining: int, asked: seq<Flags>,
                      hw: SensorDataRange, parseFloat: FloatParser, port: DiscretePort): (r: Exchange)
    ensures |asked| <= |r.asked| <= |asked| + (if remaining > 0 then remaining else 0)
    decreases if remaining > 0 then remaining else 0
  {
    var request := RequestByte(p.requirement);
    if remaining <= 0 || request == 0 then Exchange(sd, p.requirement, None, asked)
    else match port(request, p.timeout, |asked|)
      case None => Exchange(sd, p.requirement, Some(NoDeviceConnected), asked)
      case Some(line) =>
        var pass := PopulateFrom(cut, sd, line, p, p.requirement, 0, hw, parseFloat);
        var asked' := asked + [p.requirement];
        if pass.thrown.Some? then Exchange(pass.data, pass.requirement, pass.thrown, asked')
        else
          AssureFrom(cut, pass.data, p.(requirement := pass.requirement), remaining - 1, asked', hw, parseFloat, port)
  }

  /** A run only appends to the requests already sent. */
  lemma {:induction false} AssureExtends(cut: Cut, sd: SensorData, p: DiscretePacketInfo, remaining: int, asked: seq<Flags>,
                                         hw: SensorDataRange, parseFloat: FloatParser, port: DiscretePort)
    ensures AssureFrom(cut, sd, p, remaining, asked, hw, parseFloat, port).asked[..|asked|] == asked
    decreases if remaining > 0 then remaining else 0
  {
    if remaining > 0 && RequestByte(p.requirement) != 0 {
      var line := port(RequestByte(p.requirement), p.timeout, |asked|);
      if line.Some? {
        var pass := PopulateFrom(cut, sd, line.value, p, p.requirement, 0, hw, parseFloat);
        AssureUnfolds(cut, sd, p, remaining, asked, hw, parseFloat, port, line.value);
        if pass.thrown.None? {
          var r := AssureFrom(cut, pass.data, p.(requirement := pass.requirement), remaining - 1, asked + [p.requirement], hw, parseFloat, port);
          AssureExtends(cut, pass.data, p.(requirement := pass.requirement), remaining - 1, asked + [p.requirement], hw, parseFloat, port);
          PrefixOfPrefix(r.asked, asked, p.requirement);
        }
      }
    }
  }

  lemma PrefixOfPrefix<T>(x: seq<T>, a: seq<T>, e: T)
    requires |a| + 1 <= |x| && x[..|a| + 1] == a + [e]
    ensures x[..|a|] == a
  {
    assert x[..|a|] == x[..|a| + 1][..|a|];
  }

  /** One pass of the loop, unfolded: the answer `line` to a non-empty
      request either ends the run or leads into the next pass. */
  lemma AssureUnfolds(cut: Cut, sd: SensorData, p: DiscretePacketInfo, remaining: int, asked: seq<Flags>,
                      hw: SensorDataRange, parseFloat: FloatParser, port: DiscretePort, line: string)
    requires remaining > 0 && RequestByte(p.requirement) != 0
    requires port(RequestByte(p.requirement), p.timeout, |asked|) == Some(line)
    ensures var pass := PopulateFrom(cut, sd, line, p, p.requirement, 0, hw, parseFloat);
            AssureFrom(cut, sd, p, remaining, asked, hw, parseFloat, port)
            == if pass.thrown.Some? then Exchange(pass.data, pass.requirement, pass.thrown, asked + [p.requirement])
               else AssureFrom(cut, pass.data, p.(requirement := pass.requirement), remaining - 1, asked + [p.requirement], hw, parseFloat, port)
  {
  }

  /** A whole run, as the functional reference for `GetDiscrete`. */
  function Assure(cut: Cut, p: DiscretePacketInfo, hw: SensorDataRange, parseFloat: FloatParser, port: DiscretePort): (r: Exchange)
    ensures |r.asked| <= if p.numAttempts > 0 then p.numAttempts else 0
  {
    AssureFrom(cut, NewSensorData(), p, p.numAttempts, [], hw, parseFloat, port)
  }

  /** `AALayerI.getDiscrete`; with `AsWritten` it is the code as written. */
  method GetDiscrete(cut: Cut, p: DiscretePacketInfo, hw: SensorDataRange, parseFloat: FloatParser, port: DiscretePort)
    returns (r: Exchange)
    ensures r == Assure(cut, p, hw, parseFloat, port)
  {
    ghost var run := Assure(cut, p, hw, parseFloat, port);
    var sd := NewSensorData();
    var config := p;
    var asked: seq<Flags> := [];
    var remaining := p.numAttempts;
    while remaining > 0
      invariant AssureFrom(cut, sd, config, remaining, asked, hw, parseFloat, port) == run
      decreases remaining
    {
      var request := RequestByte(config.requirement);
      if request == 0 {
        break;
      }
      var line := port(request, config.timeout, |asked|);
      if line.None? {
        return Exchange(sd, config.requirement, Some(NoDeviceConnected), asked);
      }
      var pass := PopulateFrom(cut, sd, line.value, config, config.requirement, 0, hw, parseFloat);
      asked := asked + [config.requirement];
      if pass.thrown.Some? {
        return Exchange(pass.data, pass.requirement, pass.thrown, asked);
      }
      sd, config := pass.data, config.(requirement := pass.requirement);
      remaining := remaining - 1;
    }
    r := Exchange(sd, config.requirement, None, asked);
  }

  // ---------------------------------------------------------------------
  // What a run guarantees

  /** Every flag set in `a` is set in `b`. */
  predicate Within(a: Flags, b: Flags) {
    forall k :: 0 <= k < NUM_DISCRETE && a[k] ==> b[k]
  }

  /** The readings kept in step with the flags: a sensor is present exactly
      when it was required at the start and its flag has been cleared, and a
      present sensor holds a reading. */
  ghost predicate InStep(sd: SensorData, req0: Flags, req: Flags) {
    Within(req, req0)
    && forall k :: 0 <= k < NUM_DISCRETE ==>
      (sd.response[k] <==> req0[k] && !req[k]) && (sd.response[k] ==> sd.values[k].Some?)
  }

  /** One pass keeps the readings in step with the flags. */
  lemma PassKeepsStep(cut: Cut, sd: SensorData, line: string, p: DiscretePacketInfo, req0: Flags, hw: SensorDataRange, parseFloat: FloatParser)
    requires InStep(sd, req0, p.requirement)
    ensures var pass := PopulateFrom(cut, sd, line, p, p.requirement, 0, hw, parseFloat);
            InStep(pass.data, req0, pass.requirement)
  {
    PopulateFrame(cut, sd, line, p, p.requirement, 0, hw, parseFloat);
    PopulateStores(cut, sd, line, p, p.requirement, 0, hw, parseFloat);
  }

  lemma {:induction false} AssureKeepsStep(cut: Cut, sd: SensorData, p: DiscretePacketInfo, req0: Flags, remaining: int,
                                           asked: seq<Flags>, hw: SensorDataRange, parseFloat: FloatParser, port: DiscretePort)
    requires InStep(sd, req0, p.requirement)
    ensures var r := AssureFrom(cut, sd, p, remaining, asked, hw, parseFloat, port); InStep(r.data, req0, r.requirement)
    decreases if remaining > 0 then remaining else 0
  {
    if remaining > 0 && RequestByte(p.requirement) != 0 {
      var line := port(RequestByte(p.requirement), p.timeout, |asked|);
      if line.Some? {
        var pass := PopulateFrom(cut, sd, line.value, p, p.requirement, 0, hw, parseFloat);
        PassKeepsStep(cut, sd, line.value, p, req0, hw, parseFloat);
        if pass.thrown.None? {
          AssureKeepsStep(cut, pass.data, p.(requirement := pass.requirement), req0, remaining - 1, asked + [p.requirement], hw, parseFloat, port);
        }
        KeepsStep(cut, sd, p, req0, remaining, asked, hw, parseFloat, port, line.value);
      }
    }
  }

  lemma KeepsStep(cut: Cut, sd: SensorData, p: DiscretePacketInfo, req0: Flags, remaining: int, asked: seq<Flags>,
                  hw: SensorDataRange, parseFloat: FloatParser, port: DiscretePort, line: string)
    requires remaining > 0 && RequestByte(p.requirement) != 0
    requires port(RequestByte(p.requirement), p.timeout, |asked|) == Some(line)
    requires var pass := PopulateFrom(cut, sd, line, p, p.requirement, 0, hw, parseFloat);
             InStep(pass.data, req0, pass.requirement)
    requires var pass := PopulateFrom(cut, sd, line, p, p.requirement, 0, hw, parseFloat);
             pass.thrown.None? ==>
               var r := AssureFrom(cut, pass.data, p.(requirement := pass.requirement), remaining - 1, asked + [p.requirement], hw, parseFloat, port);
               InStep(r.data, req0, r.requirement)
    ensures var r := AssureFrom(cut, sd, p, remaining, asked, hw, parseFloat, port); InStep(r.data, req0, r.requirement)
  {
  }

  /** At the end of a run the present sensors are exactly the required ones
      whose flags were cleared, each holding a reading; no flag was raised. */
  lemma AssurePresence(cut: Cut, p: DiscretePacketInfo, hw: SensorDataRange, parseFloat: FloatParser, port: DiscretePort)
    ensures var r := Assure(cut, p, hw, parseFloat, port);
            Within(r.requirement, p.requirement)
            && forall k :: 0 <= k < NUM_DISCRETE ==>
                 (r.data.response[k] <==> p.requirement[k] && !r.requirement[k])
                 && (r.data.response[k] ==> r.data.values[k].Some?)
  {
    AssureKeepsStep(cut, NewSensorData(), p, p.requirement, p.numAttempts, [], hw, parseFloat, port);
  }

  /** The requests of a run: the first covers the initial flags, none is
      empty, each asks only for sensors the one before it asked for — a
      sensor once satisfied is never asked for again — and the flags left at
      the end were all part of the last request. */
  ghost predicate Narrowing(start: Flags, asked: seq<Flags>, final: Flags) {
    (|asked| == 0 ==> final == start)
    && (|asked| > 0 ==> asked[0] == start && Within(final, asked[|asked| - 1]))
    && (forall j :: 0 <= j < |asked| ==> RequestByte(asked[j]) != 0)
    && (forall i, j :: 0 <= i < j < |asked| ==> Within(asked[j], asked[i]))
  }

  lemma {:induction false} AssureNarrowsFrom(cut: Cut, sd: SensorData, p: DiscretePacketInfo, remaining: int,
                                             asked: seq<Flags>, hw: SensorDataRange, parseFloat: FloatParser, port: DiscretePort)
    ensures var r := AssureFrom(cut, sd, p, remaining, asked, hw, parseFloat, port);
            Narrowing(p.requirement, r.asked[|asked|..], r.requirement)
    decreases if remaining > 0 then remaining else 0
  {
    if remaining > 0 && RequestByte(p.requirement) != 0 {
      var line := port(RequestByte(p.requirement), p.timeout, |asked|);
      if line.Some? {
        var pass := PopulateFrom(cut, sd, line.value, p, p.requirement, 0, hw, parseFloat);
        if pass.thrown.None? {
          AssureNarrowsFrom(cut, pass.data, p.(requirement := pass.requirement), remaining - 1, asked + [p.requirement], hw, parseFloat, port);
        }
        NarrowsStep(cut, sd, p, remaining, asked, hw, parseFloat, port, line.value);
      }
    }
  }

  lemma NarrowsStep(cut: Cut, sd: SensorData, p: DiscretePacketInfo, remaining: int, asked: seq<Flags>,
                    hw: SensorDataRange, parseFloat: FloatParser, port: DiscretePort, line: string)
    requires remaining > 0 && RequestByte(p.requirement) != 0
    requires port(RequestByte(p.requirement), p.timeout, |asked|) == Some(line)
    requires var pass := PopulateFrom(cut, sd, line, p, p.requirement, 0, hw, parseFloat);
             pass.thrown.None? ==>
               var r := AssureFrom(cut, pass.data, p.(requirement := pass.requirement), remaining - 1, asked + [p.requirement], hw, parseFloat, port);
               Narrowing(p.(requirement := pass.requirement).requirement, r.asked[|asked + [p.requirement]|..], r.requirement)
    ensures var r := AssureFrom(cut, sd, p, remaining, asked, hw, parseFloat, port);
            Narrowing(p.requirement, r.asked[|asked|..], r.requirement)
  {
    var r := AssureFrom(cut, sd, p, remaining, asked, hw, parseFloat, port);
    var pass := PopulateFrom(cut, sd, line, p, p.requirement, 0, hw, parseFloat);
    PassNarrows(cut, sd, line, p, hw, parseFloat);
    var asked' := asked + [p.requirement];
    if pass.thrown.None? {
      AssureExtends(cut, pass.data, p.(requirement := pass.requirement), remaining - 1, asked', hw, parseFloat, port);
      SliceAfter(r.asked, asked, p.requirement);
      NarrowingCons(p.requirement, r.asked[|asked'|..], r.requirement);
    } else {
      assert r.asked[|asked|..] == [p.requirement];
    }
  }

  /** A pass only clears flags. */
  lemma PassNarrows(cut: Cut, sd: SensorData, line: string, p: DiscretePacketInfo, hw: SensorDataRange, parseFloat: FloatParser)
    ensures Within(PopulateFrom(cut, sd, line, p, p.requirement, 0, hw, parseFloat).requirement, p.requirement)
  {
    PopulateFrame(cut, sd, line, p, p.requirement, 0, hw, parseFloat);
  }

  /** Dropping a prefix that ends in `x`. */
  lemma SliceAfter(all: seq<Flags>, asked: seq<Flags>, x: Flags)
    requires |all| >= |asked| + 1 && all[..|asked| + 1] == asked + [x]
    ensures all[|asked|..] == [x] + all[|asked| + 1..]
  {
    assert all[|asked|] == (all[..|asked| + 1])[|asked|];
  }

  /** One more request in front of a narrowing run that starts within it. */
  lemma NarrowingCons(req: Flags, tail: seq<Flags>, final: Flags)
    requires RequestByte(req) != 0
    requires |tail| > 0 ==> Within(tail[0], req)
    requires |tail| == 0 ==> Within(final, req)
    requires Narrowing(if |tail| > 0 then tail[0] else final, tail, final)
    ensures Narrowing(req, [req] + tail, final)
  {
    var all := [req] + tail;
    forall i, j | 0 <= i < j < |all|
      ensures Within(all[j], all[i])
    {
      if i == 0 && j > 1 {
        assert Within(tail[j - 1], tail[0]);
      }
    }
  }

  lemma AssureNarrows(cut: Cut, p: DiscretePacketInfo, hw: SensorDataRange, parseFloat: FloatParser, port: DiscretePort)
    ensures var r := Assure(cut, p, hw, parseFloat, port); Narrowing(p.requirement, r.asked, r.requirement)
  {
    var r := Assure(cut, p, hw, parseFloat, port);
    AssureNarrowsFrom(cut, NewSensorData(), p, p.numAttempts, [], hw, parseFloat, port);
    assert r.asked[0..] == r.asked;
  }

  /** A run that ends without an exception ends because nothing is required
      any more or because every attempt was used. */
  lemma {:induction false} AssureStopsFrom(cut: Cut, sd: SensorData, p: DiscretePacketInfo, remaining: int,
                                           asked: seq<Flags>, hw: SensorDataRange, parseFloat: FloatParser, port: DiscretePort)
    ensures Stops(AssureFrom(cut, sd, p, remaining, asked, hw, parseFloat, port), asked, remaining)
    decreases if remaining > 0 then remaining else 0, 1
  {
    if remaining > 0 && RequestByte(p.requirement) != 0 {
      var line := port(RequestByte(p.requirement), p.timeout, |asked|);
      if line.Some? {
        StopsStep(cut, sd, p, remaining, asked, hw, parseFloat, port, line.value);
      }
    }
  }

  /** A run from `asked` with `remaining` attempts that ends without an
      exception has nothing left to request or has used every attempt. */
  ghost predicate Stops(r: Exchange, asked: seq<Flags>, remaining: int) {
    r.thrown.None? ==> RequestByte(r.requirement) == 0 || |r.asked| == |asked| + (if remaining > 0 then remaining else 0)
  }

  lemma {:induction false} StopsStep(cut: Cut, sd: SensorData, p: DiscretePacketInfo, remaining: int, asked: seq<Flags>,
                                     hw: SensorDataRange, parseFloat: FloatParser, port: DiscretePort, line: string)
    requires remaining > 0 && RequestByte(p.requirement) != 0
    requires port(RequestByte(p.requirement), p.timeout, |asked|) == Some(line)
    ensures Stops(AssureFrom(cut, sd, p, remaining, asked, hw, parseFloat, port), asked, remaining)
    decreases remaining, 0
  {
    var pass := PopulateFrom(cut, sd, line, p, p.requirement, 0, hw, parseFloat);
    var r := AssureFrom(cut, sd, p, remaining, asked, hw, parseFloat, port);
    AssureUnfolds(cut, sd, p, remaining, asked, hw, parseFloat, port, line);
    if pass.thrown.None? {
      var asked' := asked + [p.requirement];
      AssureStopsFrom(cut, pass.data, p.(requirement := pass.requirement), remaining - 1, asked', hw, parseFloat, port);
      assert r == AssureFrom(cut, pass.data, p.(requirement := pass.requirement), remaining - 1, asked', hw, parseFloat, port);
      assert |asked'| + (remaining - 1) == |asked| + remaining;
    } else {
      assert r.thrown.Some?;
    }
  }

  /** A request byte of 0 means no flag is set. */
  lemma RequestByteZero(req: Flags)
    requires RequestByte(req) == 0
    ensures req == NO_FLAGS
  {
    assert forall k :: 0 <= k < NUM_DISCRETE ==> !req[k];
  }

  lemma AssureStops(cut: Cut, p: DiscretePacketInfo, hw: SensorDataRange, parseFloat: FloatParser, port: DiscretePort)
    ensures var r := Assure(cut, p, hw, parseFloat, port);
            r.thrown.None? ==> r.requirement == NO_FLAGS || |r.asked| == (if p.numAttempts > 0 then p.numAttempts else 0)
  {
    var r := Assure(cut, p, hw, parseFloat, port);
    AssureStopsFrom(cut, NewSensorData(), p, p.numAttempts, [], hw, parseFloat, port);
    if RequestByte(r.requirement) == 0 {
      RequestByteZero(r.requirement);
    }
  }

  /** When the first answer satisfies every required sensor, and the pass
      reads each of them without throwing, exactly one request is sent,
      however many sensors and attempts there are. */
  lemma OneRoundSuffices(cut: Cut, p: DiscretePacketInfo, hw: SensorDataRange, parseFloat: FloatParser, port: DiscretePort, line: string)
    requires p.numAttempts >= 1 && RequestByte(p.requirement) != 0
    requires port(RequestByte(p.requirement), p.timeout, 0) == Some(line)
    requires forall k :: 0 <= k < NUM_DISCRETE && p.requirement[k] ==>
               Readable(cut, k, line, p, hw, parseFloat) && Offered(k, line, p, hw, parseFloat).Some?
    ensures Assure(cut, p, hw, parseFloat, port).thrown.None?
    ensures |Assure(cut, p, hw, parseFloat, port).asked| == 1
  {
    var pass := PopulateFrom(cut, NewSensorData(), line, p, p.requirement, 0, hw, parseFloat);
    PassSatisfiesAll(cut, NewSensorData(), line, p, hw, parseFloat);
    var p' := p.(requirement := pass.requirement);
    var none: seq<Flags> := [];
    AssureUnfolds(cut, NewSensorData(), p, p.numAttempts, none, hw, parseFloat, port, line);
    var r := AssureFrom(cut, pass.data, p', p.numAttempts - 1, none + [p.requirement], hw, parseFloat, port);
    assert r == Exchange(pass.data, pass.requirement, None, none + [p.requirement]);
  }

  /** A pass over an answer that offers every required sensor, each
      readable, clears every flag without throwing. */
  lemma PassSatisfiesAll(cut: Cut, sd: SensorData, line: string, p: DiscretePacketInfo, hw: SensorDataRange, parseFloat: FloatParser)
    requires forall k :: 0 <= k < NUM_DISCRETE && p.requirement[k] ==>
               Readable(cut, k, line, p, hw, parseFloat) && Offered(k, line, p, hw, parseFloat).Some?
    ensures PopulateFrom(cut, sd, line, p, p.requirement, 0, hw, parseFloat).thrown.None?
    ensures RequestByte(PopulateFrom(cut, sd, line, p, p.requirement, 0, hw, parseFloat).requirement) == 0
  {
    var pass := PopulateFrom(cut, sd, line, p, p.requirement, 0, hw, parseFloat);
    PopulateThrowsIff(cut, sd, line, p, p.requirement, 0, hw, parseFloat);
    PopulateFrame(cut, sd, line, p, p.requirement, 0, hw, parseFloat);
    PopulateDecides(cut, sd, line, p, p.requirement, 0, hw, parseFloat);
    assert pass.requirement == NO_FLAGS;
  }

  /** With a connected device, every required sensor identified and, for
      the cut as written, no answer holding a fragment made only of sensor
      delimiters for a required sensor, a run never throws, and a sensor
      for which no answer ever offers a valid reading ends absent — while
      the others may be present: the result is partial, not an error. */
  lemma {:induction false} NeverOfferedStaysAbsentFrom(cut: Cut, sd: SensorData, p: DiscretePacketInfo, remaining: int,
                                                       asked: seq<Flags>, hw: SensorDataRange, parseFloat: FloatParser,
                                                       port: DiscretePort, s: int)
    requires IsDiscrete(s) && !sd.response[s]
    requires forall k :: 0 <= k < NUM_DISCRETE && p.requirement[k] ==> HasIdentifier(p, k)
    requires forall b, j :: port(b, p.timeout, j).Some?
    requires cut == AsWritten ==>
               forall b, j, k :: 0 <= k < NUM_DISCRETE && p.requirement[k] && HasIdentifier(p, k) ==>
                 Clean(k, port(b, p.timeout, j).value, p)
    requires HasIdentifier(p, s) ==> forall b, j :: Offered(s, port(b, p.timeout, j).value, p, hw, parseFloat).None?
    ensures var r := AssureFrom(cut, sd, p, remaining, asked, hw, parseFloat, port);
            r.thrown.None? && !r.data.response[s]
    decreases if remaining > 0 then remaining else 0
  {
    if remaining > 0 && RequestByte(p.requirement) != 0 {
      var line := port(RequestByte(p.requirement), p.timeout, |asked|).value;
      var pass := PopulateFrom(cut, sd, line, p, p.requirement, 0, hw, parseFloat);
      forall k | 0 <= k < NUM_DISCRETE && p.requirement[k]
        ensures Readable(cut, k, line, p, hw, parseFloat)
      {
        if cut == AsWritten {
          CleanReadable(cut, k, line, p, hw, parseFloat);
        }
      }
      assert HasIdentifier(p, s) ==> Offered(s, line, p, hw, parseFloat).None?;
      AbsentPass(cut, sd, p, line, hw, parseFloat, s);
      var p' := p.(requirement := pass.requirement);
      OfferedIgnoresFlags(p, p', s, hw, parseFloat, port);
      NeverOfferedStaysAbsentFrom(cut, pass.data, p', remaining - 1, asked + [p.requirement], hw, parseFloat, port, s);
      AbsentStep(cut, sd, p, remaining, asked, hw, parseFloat, port, s, line);
    }
  }

  /** One pass of `NeverOfferedStaysAbsentFrom`: it does not throw, does
      not collect sensor `s`, and only clears flags. */
  lemma AbsentPass(cut: Cut, sd: SensorData, p: DiscretePacketInfo, line: string, hw: SensorDataRange, parseFloat: FloatParser, s: int)
    requires IsDiscrete(s) && !sd.response[s]
    requires forall k :: 0 <= k < NUM_DISCRETE && p.requirement[k] ==> Readable(cut, k, line, p, hw, parseFloat)
    requires HasIdentifier(p, s) ==> Offered(s, line, p, hw, parseFloat).None?
    ensures var pass := PopulateFrom(cut, sd, line, p, p.requirement, 0, hw, parseFloat);
            pass.thrown.None? && !pass.data.response[s]
            && forall k :: 0 <= k < NUM_DISCRETE && pass.requirement[k] ==> p.requirement[k]
  {
    PopulateThrowsIff(cut, sd, line, p, p.requirement, 0, hw, parseFloat);
    PopulateFrame(cut, sd, line, p, p.requirement, 0, hw, parseFloat);
    PopulateStores(cut, sd, line, p, p.requirement, 0, hw, parseFloat);
  }

  lemma AbsentStep(cut: Cut, sd: SensorData, p: DiscretePacketInfo, remaining: int, asked: seq<Flags>,
                   hw: SensorDataRange, parseFloat: FloatParser, port: DiscretePort, s: int, line: string)
    requires IsDiscrete(s) && remaining > 0 && RequestByte(p.requirement) != 0
    requires port(RequestByte(p.requirement), p.timeout, |asked|) == Some(line)
    requires PopulateFrom(cut, sd, line, p, p.requirement, 0, hw, parseFloat).thrown.None?
    requires var pass := PopulateFrom(cut, sd, line, p, p.requirement, 0, hw, parseFloat);
             var r := AssureFrom(cut, pass.data, p.(requirement := pass.requirement), remaining - 1, asked + [p.requirement], hw, parseFloat, port);
             r.thrown.None? && !r.data.response[s]
    ensures var r := AssureFrom(cut, sd, p, remaining, asked, hw, parseFloat, port);
            r.thrown.None? && !r.data.response[s]
  {
  }

  /** Only the identifiers and delimiters of the configuration decide what a
      response offers; the flags do not. */
  lemma OfferedIgnoresFlags(p: DiscretePacketInfo, q: DiscretePacketInfo, s: int, hw: SensorDataRange, parseFloat: FloatParser, port: DiscretePort)
    requires IsDiscrete(s) && q == p.(requirement := q.requirement)
    requires forall b, j :: port(b, p.timeout, j).Some?
    requires HasIdentifier(p, s) ==> forall b, j :: Offered(s, port(b, p.timeout, j).value, p, hw, parseFloat).None?
    ensures HasIdentifier(q, s) ==> forall b, j :: Offered(s, port(b, q.timeout, j).value, q, hw, parseFloat).None?
  {
    if HasIdentifier(q, s) {
      forall b, j
        ensures Offered(s, port(b, q.timeout, j).value, q, hw, parseFloat).None?
      {
        assert Offered(s, port(b, q.timeout, j).value, q, hw, parseFloat) == Offered(s, port(b, p.timeout, j).value, p, hw, parseFloat);
      }
    }
  }

  lemma NeverOfferedStaysAbsent(cut: Cut, p: DiscretePacketInfo, hw: SensorDataRange, parseFloat: FloatParser, port: DiscretePort, s: int)
    requires IsDiscrete(s)
    requires forall k :: 0 <= k < NUM_DISCRETE && p.requirement[k] ==> HasIdentifier(p, k)
    requires forall b, j :: port(b, p.timeout, j).Some?
    requires cut == AsWritten ==>
               forall b, j, k :: 0 <= k < NUM_DISCRETE && p.requirement[k] && HasIdentifier(p, k) ==>
                 Clean(k, port(b, p.timeout, j).value, p)
    requires HasIdentifier(p, s) ==> forall b, j :: Offered(s, port(b, p.timeout, j).value, p, hw, parseFloat).None?
    ensures Assure(cut, p, hw, parseFloat, port).thrown.None?
    ensures !Assure(cut, p, hw, parseFloat, port).data.response[s]
  {
    NeverOfferedStaysAbsentFrom(cut, NewSensorData(), p, p.numAttempts, [], hw, parseFloat, port, s);
  }
}

=== FILE: continuous_stream_info.dfy ===
/** `ContinuousStreamInfo`: how a stream is requested, how long it is, and
    how the metadata of a continuous sensor is laid out. */
module StreamConfig {
  import opened Lang
  import opened Sensor

  datatype ContinuousStreamInfo = ContinuousStreamInfo(
    sensorNum: int,               // the streaming sensor
    stop: Byte,                   // byte that ends the stream
    stopAck: char,                // the device's answer to `stop`
    dataLength: int,              // samples per fetch; 0 means "derive it"
    timeout: int,                 // ms to wait for the whole stream
    dataDuration: int,            // seconds of data per fetch
    samplingRate: int,            // samples per second
    sensorIdentifier: char,       // metadata layout
    sensorDataDelimiter: char,
    multiValueDelimiter: char)
  {
    /** `getDataLength(int samplingrate, int duration)` as written: the
        product uses the `samplingRate` field, not the argument. */
    function DataLengthForAsWritten(samplingrate: int, duration: int): (r: int)
      ensures IsInt32(r)
      ensures IsInt32(samplingRate * duration) ==> r == samplingRate * duration
    {
      Wrap32(samplingRate * duration)
    }

    /** `getDataLength(int, int)` as its parameters say: the number of
        samples `duration` seconds at `samplingrate` samples per second give,
        in 32-bit `int` arithmetic. */
    function DataLengthFor(samplingrate: int, duration: int): (r: int)
      ensures IsInt32(r)
      ensures IsInt32(samplingrate * duration) ==> r == samplingrate * duration
      ensures samplingrate == samplingRate ==> r == DataLengthForAsWritten(samplingrate, duration)
    {
      Wrap32(samplingrate * duration)
    }

    /** `setDataLength(int, int)` as written. */
    function SetDataLengthForAsWritten(samplingrate: int, duration: int): (r: ContinuousStreamInfo)
      ensures r == this.(dataLength := DataLengthForAsWritten(samplingrate, duration))
    {
      this.(dataLength := Wrap32(samplingRate * duration))
    }

    /** `setDataLength(int, int)` as its parameters say. */
    function SetDataLengthFor(samplingrate: int, duration: int): (r: ContinuousStreamInfo)
      ensures r == this.(dataLength := DataLengthFor(samplingrate, duration))
    {
      this.(dataLength := Wrap32(samplingrate * duration))
    }

    /** The number of samples a fetch asks for: the explicit `dataLength`,
        or, when it is 0, the one derived from rate and duration. */
    function EffectiveLength(): (r: int)
      ensures dataLength != 0 ==> r == dataLength
      ensures dataLength == 0 ==> r == DataLengthFor(samplingRate, dataDuration)
    {
      if dataLength == 0 then DataLengthFor(samplingRate, dataDuration) else dataLength
    }
  }

  /** The field initialisers. */
  const DEFAULT_STREAM: ContinuousStreamInfo := ContinuousStreamInfo(
    ECG, 'Q' as Byte, '!', 0, 120000, 0, 0, 'E', '@', '%')

  /** As written, the derived length ignores its first argument: on the
      default record (sampling rate 0) asking for 10 s at 100 samples per
      second gives 0 samples, not 1000. */
  lemma DataLengthIgnoresRate()
    ensures DEFAULT_STREAM.DataLengthForAsWritten(100, 10) == 0
    ensures DEFAULT_STREAM.DataLengthFor(100, 10) == 1000
    ensures DEFAULT_STREAM.SetDataLengthForAsWritten(100, 10).dataLength == 0
    ensures DEFAULT_STREAM.SetDataLengthFor(100, 10).dataLength == 1000
  {
  }

  /** As written, the derived length does not depend on the rate passed. */
  lemma DataLengthAsWrittenIgnoresArgument(info: ContinuousStreamInfo, a: int, b: int, duration: int)
    ensures info.DataLengthForAsWritten(a, duration) == info.DataLengthForAsWritten(b, duration)
  {
  }

  /** The default record has no explicit length and no rate, so a fetch
      with it asks for no samples at all. */
  lemma DefaultStreamIsEmpty()
    ensures DEFAULT_STREAM.EffectiveLength() == 0
  {
  }
}

=== FILE: discrete_packet_info.dfy ===
/** `DiscretePacketInfo`: what a discrete fetch asks for and how the device's
    answer is laid out. */
module DiscreteConfig {
  import opened Lang
  import opened Sensor

  datatype DiscretePacketInfo = DiscretePacketInfo(
    requirement: Flags,            // sensors still to be fetched
    timeout: int,                  // ms to wait for one answer
    numAttempts: int,              // requests per fetch
    multiValueDelimiter: char,     // between the values of one sensor
    sensorDelimiter: char,         // between two sensors' data
    sensorDataDelimiter: char,     // between an identifier and its data
    sensorIdentifier: seq<char>)   // identifier of each sensor in the answer
  {
    /** `setRequirement(int, boolean)`. */
    function SetRequirement(sensorId: int, val: bool): (r: Result<DiscretePacketInfo>)
      ensures r.Ok? <==> IsDiscrete(sensorId)
      ensures r.Err? ==> r.error == SensorNotDefined
      ensures r.Ok? ==> r.value.requirement[sensorId] == val
      ensures r.Ok? ==> forall j :: 0 <= j < NUM_DISCRETE && j != sensorId ==> r.value.requirement[j] == requirement[j]
      ensures r.Ok? ==> r.value.(requirement := requirement) == this
    {
      if 0 <= sensorId < NUM_DISCRETE then Ok(this.(requirement := requirement[sensorId := val]))
      else Err(SensorNotDefined)
    }

    /** `setRequirement(boolean[])`: copies as many flags as both arrays
        hold; the remaining flags keep their value. */
    function SetRequirements(flags: seq<bool>): (r: DiscretePacketInfo)
      ensures forall i :: 0 <= i < NUM_DISCRETE ==> r.requirement[i] == if i < |flags| then flags[i] else requirement[i]
      ensures r.(requirement := requirement) == this
    {
      var n := if |flags| < NUM_DISCRETE then |flags| else NUM_DISCRETE;
      this.(requirement := flags[..n] + requirement[n..])
    }

    /** `getRequirement(int)`. */
    function GetRequirement(sensor: int): (r: Result<bool>)
      ensures r.Ok? <==> IsDiscrete(sensor)
      ensures r.Err? ==> r.error == SensorNotDefined
      ensures r.Ok? ==> r.value == requirement[sensor]
    {
      if 0 <= sensor < NUM_DISCRETE then Ok(requirement[sensor]) else Err(SensorNotDefined)
    }

    /** `getSensorIdentifier(int)` as written: the guard admits id
        `NUM_DISCRETE` (5), which then indexes the identifier array, one
        past the end of the default array. */
    function GetSensorIdentifierAsWritten(sensorId: int): (r: Result<char>)
      ensures r.Err? && r.error == SensorNotDefined <==> !(0 <= sensorId <= NUM_DISCRETE)
      ensures r.Err? && r.error == IndexOutOfBounds <==> 0 <= sensorId <= NUM_DISCRETE && sensorId >= |sensorIdentifier|
      ensures r.Ok? ==> 0 <= sensorId < |sensorIdentifier| && r.value == sensorIdentifier[sensorId]
    {
      if 0 <= sensorId <= NUM_DISCRETE then
        (if sensorId < |sensorIdentifier| then Ok(sensorIdentifier[sensorId]) else Err(IndexOutOfBounds))
      else Err(SensorNotDefined)
    }

    /** `getSensorIdentifier(int)` with the guard of `getRequirement`:
        only a discrete sensor has an identifier. An identifier array shorter
        than `NUM_DISCRETE` (set through `setSensorIdentifier`) still makes it
        throw `ArrayIndexOutOfBoundsException`. */
    function GetSensorIdentifier(sensorId: int): (r: Result<char>)
      ensures r.Err? && r.error == SensorNotDefined <==> !IsDiscrete(sensorId)
      ensures r.Err? && r.error == IndexOutOfBounds <==> IsDiscrete(sensorId) && sensorId >= |sensorIdentifier|
      ensures r.Ok? ==> 0 <= sensorId < |sensorIdentifier| && r.value == sensorIdentifier[sensorId]
    {
      if 0 <= sensorId < NUM_DISCRETE then
        (if sensorId < |sensorIdentifier| then Ok(sensorIdentifier[sensorId]) else Err(IndexOutOfBounds))
      else Err(SensorNotDefined)
    }
  }

  /** `'\0'`: Java's default `char`, meaning "no identifier set". */
  const NO_IDENTIFIER: char := '\0'

  /** The field initialisers. */
  const DEFAULT_DISCRETE: DiscretePacketInfo := DiscretePacketInfo(
    NO_FLAGS, 1000, 5, '%', '#', '@',
    [NO_IDENTIFIER, NO_IDENTIFIER, NO_IDENTIFIER, NO_IDENTIFIER, NO_IDENTIFIER])

  /** Setting a flag and reading it back gives the value set, and leaves the
      other flags readable as before. */
  lemma SetThenGetRequirement(p: DiscretePacketInfo, sensorId: int, val: bool, other: int)
    requires IsDiscrete(sensorId)
    ensures p.SetRequirement(sensorId, val).Ok?
    ensures p.SetRequirement(sensorId, val).value.GetRequirement(sensorId) == Ok(val)
    ensures other != sensorId ==> p.SetRequirement(sensorId, val).value.GetRequirement(other) == p.GetRequirement(other)
  {
  }

  /** Copying in the array read out of the same record changes nothing. */
  lemma SetRequirementsOwnFlags(p: DiscretePacketInfo)
    ensures p.SetRequirements(p.requirement) == p
  {
  }

  /** The two getters differ exactly at id `NUM_DISCRETE`: on the default
      record, as written it throws `ArrayIndexOutOfBoundsException` where the
      documented getter throws `SensorNotDefinedException`; with a longer
      identifier array it even returns a character for a sensor that is not
      discrete. */
  lemma IdentifierGuardOffByOne(p: DiscretePacketInfo, sensorId: int)
    ensures sensorId != NUM_DISCRETE ==> p.GetSensorIdentifierAsWritten(sensorId) == p.GetSensorIdentifier(sensorId)
    ensures DEFAULT_DISCRETE.GetSensorIdentifierAsWritten(NUM_DISCRETE) == Err(IndexOutOfBounds)
    ensures DEFAULT_DISCRETE.GetSensorIdentifier(NUM_DISCRETE) == Err(SensorNotDefined)
    ensures |p.sensorIdentifier| > NUM_DISCRETE ==> p.GetSensorIdentifierAsWritten(NUM_DISCRETE).Ok?
  {
  }
}

=== FILE: extraction.dfy ===
/** Field extraction: parsing the text of one sensor's field and checking it
    against the hardware range (`extractTemp`, `extractBP`, `extractPulseRate`,
    `extractSPO2`, `extractGSR` and the four `isValid` overloads). An
    extractor never throws: parse failures, out-of-range values and a null
    range (whose `NullPointerException` it catches) all give `null`. */
module Extraction {
  import opened Lang
  import opened Text
  import opened Sensor
  import opened Ranges
  import opened DataRanges
  import opened Readings

  /** `Float.parseFloat`, left uninterpreted: `None` where it throws
      `NumberFormatException`. A text that parses to NaN may also be mapped to
      `None`: NaN fails every range check, so both are dropped alike. */
  type FloatParser = string -> Option<real>

  /** `isValid(float, RangeOfValues<Float>)`: inclusive at both ends. */
  predicate IsValidFloat(value: real, r: FloatRange) {
    value <= r.UpperLimit() && value >= r.LowerLimit()
  }

  /** `isValid(int, RangeOfValues<Integer>)`: inclusive at both ends. */
  predicate IsValidInt(value: int, r: IntRange) {
    value <= r.UpperLimit() && value >= r.LowerLimit()
  }

  /** `isValid(float, float, r1, r2)`: the second value is checked only when
      the first is valid. */
  function IsValidFloatPair(value1: real, value2: real, r1: FloatRange, r2: FloatRange): (b: bool)
    ensures b <==> IsValidFloat(value1, r1) && IsValidFloat(value2, r2)
  {
    if value1 <= r1.UpperLimit() && value1 >= r1.LowerLimit() then
      value2 <= r2.UpperLimit() && value2 >= r2.LowerLimit()
    else false
  }

  /** `isValid(int, int, r1, r2)`. */
  function IsValidIntPair(value1: int, value2: int, r1: IntRange, r2: IntRange): (b: bool)
    ensures b <==> IsValidInt(value1, r1) && IsValidInt(value2, r2)
  {
    if value1 <= r1.UpperLimit() && value1 >= r1.LowerLimit() then
      value2 <= r2.UpperLimit() && value2 >= r2.LowerLimit()
    else false
  }

  /** A hardware range that is set and contains `v`. */
  predicate AdmitsFloat(r: Option<FloatRange>, v: real) {
    r.Some? && IsValidFloat(v, r.value)
  }

  predicate AdmitsInt(r: Option<IntRange>, v: int) {
    r.Some? && IsValidInt(v, r.value)
  }

  /** A hardware range that admits no value: unset (`null`, whose
      `NullPointerException` the extractors catch) or inverted. */
  predicate AdmitsNoFloat(r: Option<FloatRange>) {
    r.None? || r.value.LowerLimit() > r.value.UpperLimit()
  }

  predicate AdmitsNoInt(r: Option<IntRange>) {
    r.None? || r.value.LowerLimit() > r.value.UpperLimit()
  }

  /** An unset or inverted range is exactly one that admits no value; a set,
      ordered range admits at least its lower limit. */
  lemma AdmitsNoneIff(f: Option<FloatRange>, i: Option<IntRange>)
    ensures AdmitsNoFloat(f) <==> forall v :: !AdmitsFloat(f, v)
    ensures AdmitsNoInt(i) <==> forall v :: !AdmitsInt(i, v)
  {
    if !AdmitsNoFloat(f) {
      assert AdmitsFloat(f, f.value.LowerLimit());
    }
    if !AdmitsNoInt(i) {
      assert AdmitsInt(i, i.value.LowerLimit());
    }
  }

  /** `extractTemp`. */
  function ExtractTemp(text: string, hw: SensorDataRange, parseFloat: FloatParser): (r: Option<Temperature>)
    ensures r.Some? <==> parseFloat(text).Some? && AdmitsFloat(hw.temperature, parseFloat(text).value)
    ensures r.Some? ==> r.value.value == parseFloat(text).value
  {
    match parseFloat(text)
    case None => None
    case Some(v) =>
      if hw.temperature.Some? && IsValidFloat(v, hw.temperature.value) then Some(Temperature(v)) else None
  }

  /** `extractSPO2`. */
  function ExtractSPO2(text: string, hw: SensorDataRange, parseFloat: FloatParser): (r: Option<Oximeter>)
    ensures r.Some? <==> parseFloat(text).Some? && AdmitsFloat(hw.oximeter, parseFloat(text).value)
    ensures r.Some? ==> r.value.value == parseFloat(text).value
  {
    match parseFloat(text)
    case None => None
    case Some(v) =>
      if hw.oximeter.Some? && IsValidFloat(v, hw.oximeter.value) then Some(Oximeter(v)) else None
  }

  /** `extractPulseRate`. */
  function ExtractPulseRate(text: string, hw: SensorDataRange): (r: Option<PulseRate>)
    ensures r.Some? <==> ParseInt(text).Some? && AdmitsInt(hw.pulseRate, ParseInt(text).value)
    ensures r.Some? ==> r.value.value == ParseInt(text).value
  {
    match ParseInt(text)
    case None => None
    case Some(v) =>
      if hw.pulseRate.Some? && IsValidInt(v, hw.pulseRate.value) then Some(PulseRate(v)) else None
  }

  /** `extractBP`: systolic and diastolic are the first two parts of the
      field; further parts are ignored. Both must parse and both must lie in
      their ranges. */
  function ExtractBP(text: string, delimiter: string, hw: SensorDataRange): (r: Option<BloodPressure>)
    ensures var parts := JavaSplit(text, delimiter);
            r.Some? <==> |parts| >= 2 && ParseInt(parts[0]).Some? && ParseInt(parts[1]).Some?
                         && AdmitsInt(hw.systolic, ParseInt(parts[0]).value)
                         && AdmitsInt(hw.diastolic, ParseInt(parts[1]).value)
    ensures var parts := JavaSplit(text, delimiter);
            r.Some? ==> r.value == BloodPressure(ParseInt(parts[0]).value, ParseInt(parts[1]).value)
  {
    var parts := JavaSplit(text, delimiter);
    if |parts| >= 2 then
      match (ParseInt(parts[0]), ParseInt(parts[1]))
      case (Some(sys), Some(dia)) =>
        if hw.systolic.Some? && hw.diastolic.Some? && IsValidIntPair(sys, dia, hw.systolic.value, hw.diastolic.value)
        then Some(BloodPressure(sys, dia)) else None
      case _ => None
    else None
  }

  /** `extractGSR`: conductance and resistance, as for blood pressure. */
  function ExtractGSR(text: string, delimiter: string, hw: SensorDataRange, parseFloat: FloatParser): (r: Option<GSR>)
    ensures var parts := JavaSplit(text, delimiter);
            r.Some? <==> |parts| >= 2 && parseFloat(parts[0]).Some? && parseFloat(parts[1]).Some?
                         && AdmitsFloat(hw.gsrConductance, parseFloat(parts[0]).value)
                         && AdmitsFloat(hw.gsrResistance, parseFloat(parts[1]).value)
    ensures var parts := JavaSplit(text, delimiter);
            r.Some? ==> r.value == GSR(parseFloat(parts[0]).value, parseFloat(parts[1]).value)
  {
    var parts := JavaSplit(text, delimiter);
    if |parts| >= 2 then
      match (parseFloat(parts[0]), parseFloat(parts[1]))
      case (Some(c), Some(res)) =>
        if hw.gsrConductance.Some? && hw.gsrResistance.Some?
           && IsValidFloatPair(c, res, hw.gsrConductance.value, hw.gsrResistance.value)
        then Some(GSR(c, res)) else None
      case _ => None
    else None
  }

  /** The `switch` over the sensor id: the extractor of sensor `kind`. */
  function Extract(kind: int, text: string, delimiter: string, hw: SensorDataRange, parseFloat: FloatParser): (r: Option<Reading>)
    requires IsDiscrete(kind)
    ensures r.Some? ==> r.value.SensorId() == kind
    ensures kind == TEMPERATURE ==> (r.Some? <==> ExtractTemp(text, hw, parseFloat).Some?)
    ensures kind == BLOOD_PRESSURE ==> (r.Some? <==> ExtractBP(text, delimiter, hw).Some?)
    ensures kind == PULSE_RATE ==> (r.Some? <==> ExtractPulseRate(text, hw).Some?)
    ensures kind == OXIMETER ==> (r.Some? <==> ExtractSPO2(text, hw, parseFloat).Some?)
    ensures kind == Sensor.GSR ==> (r.Some? <==> ExtractGSR(text, delimiter, hw, parseFloat).Some?)
    ensures kind == TEMPERATURE && r.Some? ==> r.value == TemperatureReading(ExtractTemp(text, hw, parseFloat).value)
    ensures kind == BLOOD_PRESSURE && r.Some? ==> r.value == BloodPressureReading(ExtractBP(text, delimiter, hw).value)
    ensures kind == PULSE_RATE && r.Some? ==> r.value == PulseRateReading(ExtractPulseRate(text, hw).value)
    ensures kind == OXIMETER && r.Some? ==> r.value == OximeterReading(ExtractSPO2(text, hw, parseFloat).value)
    ensures kind == Sensor.GSR && r.Some? ==> r.value == GsrReading(ExtractGSR(text, delimiter, hw, parseFloat).value)
  {
    if kind == TEMPERATURE then
      (match ExtractTemp(text, hw, parseFloat) case Some(t) => Some(TemperatureReading(t)) case None => None)
    else if kind == BLOOD_PRESSURE then
      (match ExtractBP(text, delimiter, hw) case Some(b) => Some(BloodPressureReading(b)) case None => None)
    else if kind == PULSE_RATE then
      (match ExtractPulseRate(text, hw) case Some(p) => Some(PulseRateReading(p)) case None => None)
    else if kind == OXIMETER then
      (match ExtractSPO2(text, hw, parseFloat) case Some(o) => Some(OximeterReading(o)) case None => None)
    else
      (match ExtractGSR(text, delimiter, hw, parseFloat) case Some(g) => Some(GsrReading(g)) case None => None)
  }

  /** A sensor whose hardware range (either range, for the paired sensors)
      admits no value never yields a reading, whatever the device sends. */
  lemma NoRangeNoReading(kind: int, text: string, delimiter: string, hw: SensorDataRange, parseFloat: FloatParser)
    requires IsDiscrete(kind)
    ensures kind == TEMPERATURE && AdmitsNoFloat(hw.temperature) ==> Extract(kind, text, delimiter, hw, parseFloat).None?
    ensures kind == BLOOD_PRESSURE && (AdmitsNoInt(hw.systolic) || AdmitsNoInt(hw.diastolic)) ==>
              Extract(kind, text, delimiter, hw, parseFloat).None?
    ensures kind == PULSE_RATE && AdmitsNoInt(hw.pulseRate) ==> Extract(kind, text, delimiter, hw, parseFloat).None?
    ensures kind == OXIMETER && AdmitsNoFloat(hw.oximeter) ==> Extract(kind, text, delimiter, hw, parseFloat).None?
    ensures kind == Sensor.GSR && (AdmitsNoFloat(hw.gsrConductance) || AdmitsNoFloat(hw.gsrResistance)) ==>
              Extract(kind, text, delimiter, hw, parseFloat).None?
  {
  }

  // ---------------------------------------------------------------------
  // Round trips: the text a device sends for a reading extracts back to it

  /** A pulse rate written in decimal extracts to itself exactly when the
      range admits it. */
  lemma PulseRateRoundTrip(v: int, hw: SensorDataRange)
    requires IsInt32(v)
    ensures ExtractPulseRate(ShowInt(v), hw) == if AdmitsInt(hw.pulseRate, v) then Some(PulseRate(v)) else None
  {
    ParseShowInt(v);
  }

  /** `systolic <c> diastolic` extracts to the pair exactly when both values
      are admitted: a half-valid pair is rejected whole. */
  lemma BloodPressureRoundTrip(sys: int, dia: int, c: char, hw: SensorDataRange)
    requires IsInt32(sys) && IsInt32(dia)
    requires !IsDigit(c) && c != '-'
    ensures ExtractBP(ShowInt(sys) + [c] + ShowInt(dia), [c], hw)
         == if AdmitsInt(hw.systolic, sys) && AdmitsInt(hw.diastolic, dia) then Some(BloodPressure(sys, dia)) else None
  {
    ShowIntAlphabet(sys, c);
    ShowIntAlphabet(dia, c);
    SplitPair(ShowInt(sys), ShowInt(dia), c);
    ParseShowInt(sys);
    ParseShowInt(dia);
  }

  /** The same for GSR, whose values are floats: two texts the float parser
      reads as `x` and `y`, joined by a delimiter neither contains. */
  lemma GsrRoundTrip(a: string, b: string, c: char, x: real, y: real, hw: SensorDataRange, parseFloat: FloatParser)
    requires c !in a && c !in b && b != ""
    requires parseFloat(a) == Some(x) && parseFloat(b) == Some(y)
    ensures ExtractGSR(a + [c] + b, [c], hw, parseFloat)
         == if AdmitsFloat(hw.gsrConductance, x) && AdmitsFloat(hw.gsrResistance, y) then Some(GSR(x, y)) else None
  {
    SplitPair(a, b, c);
  }

  /** Through the dispatcher: a pulse rate written in decimal extracts back
      to that reading when admitted, to nothing otherwise. */
  lemma PulseRateExtracts(v: int, delimiter: string, hw: SensorDataRange, parseFloat: FloatParser)
    requires IsInt32(v)
    ensures Extract(PULSE_RATE, ShowInt(v), delimiter, hw, parseFloat)
         == if AdmitsInt(hw.pulseRate, v) then Some(PulseRateReading(PulseRate(v))) else None
  {
    PulseRateRoundTrip(v, hw);
  }

  /** Through the dispatcher, the same for a blood-pressure pair. */
  lemma BloodPressureExtracts(sys: int, dia: int, c: char, hw: SensorDataRange, parseFloat: FloatParser)
    requires IsInt32(sys) && IsInt32(dia)
    requires !IsDigit(c) && c != '-'
    ensures Extract(BLOOD_PRESSURE, ShowInt(sys) + [c] + ShowInt(dia), [c], hw, parseFloat)
         == if AdmitsInt(hw.systolic, sys) && AdmitsInt(hw.diastolic, dia) then Some(BloodPressureReading(BloodPressure(sys, dia))) else None
  {
    BloodPressureRoundTrip(sys, dia, c, hw);
  }
}

=== FILE: facade.dfy ===
/** `AALayerII`: the application-facing layer. It keeps the hardware ranges
    and both packet configurations as long-lived state, fetches through
    `AALayerI`, and rescales every reading whose hardware range is not the
    standard range object onto that standard range. */
module Facade {
  import opened Lang
  import opened Sensor
  import opened Ranges
  import opened DataRanges
  import opened Readings
  import opened DiscreteConfig
  import opened StreamConfig
  import opened Buffers
  import opened Text
  import opened Extraction
  import opened Unpacking
  import opened Requests
  import opened Assurance
  import opened Queries
  import opened Streams
  import opened Normalise

  // ---------------------------------------------------------------------
  // Standard ranges

  /** The standard ranges are built once, when the class is loaded; their
      boxed limits take allocation numbers 1 to 16, which no other range
      shares. Limits in the `Integer` cache (50 and 20) are shared objects. */
  const STANDARD_TEMPERATURE_RANGE: FloatRange := RangeOfValues(BoxFloat(0.0, 1), BoxFloat(100.0, 2))
  const STANDARD_SYSTOLIC_RANGE: IntRange := RangeOfValues(BoxInteger(50, 3), BoxInteger(250, 4))
  const STANDARD_DIASTOLIC_RANGE: IntRange := RangeOfValues(BoxInteger(20, 5), BoxInteger(150, 6))
  const STANDARD_PULSERATE_RANGE: IntRange := RangeOfValues(BoxInteger(20, 7), BoxInteger(200, 8))
  const STANDARD_OXIMETER_RANGE: FloatRange := RangeOfValues(BoxFloat(0.0, 9), BoxFloat(100.0, 10))
  const STANDARD_GSR_CONDUCTANCE_RANGE: FloatRange := RangeOfValues(BoxFloat(0.0, 11), BoxFloat(5.0, 12))
  const STANDARD_GSR_RESISTANCE_RANGE: FloatRange := RangeOfValues(BoxFloat(-100000.0, 13), BoxFloat(1000000.0, 14))
  const STANDARD_ECG_RANGE: FloatRange := RangeOfValues(BoxFloat(0.0, 15), BoxFloat(5.0, 16))

  /** The initial hardware table holds the standard range objects
      themselves. */
  const STANDARD_HARDWARE: SensorDataRange := SensorDataRange(
    Some(STANDARD_TEMPERATURE_RANGE), Some(STANDARD_SYSTOLIC_RANGE), Some(STANDARD_DIASTOLIC_RANGE),
    Some(STANDARD_PULSERATE_RANGE), Some(STANDARD_OXIMETER_RANGE), Some(STANDARD_GSR_CONDUCTANCE_RANGE),
    Some(STANDARD_GSR_RESISTANCE_RANGE), Some(STANDARD_ECG_RANGE))

  /** The static state of `AALayerII`. */
  datatype Layer = Layer(hardware: SensorDataRange, discrete: DiscretePacketInfo, continuous: ContinuousStreamInfo)

  const INITIAL_LAYER: Layer := Layer(STANDARD_HARDWARE, DEFAULT_DISCRETE, DEFAULT_STREAM)

  /** A call on the layer: the state it leaves behind, and what it returned
      or threw. */
  datatype Outcome<T> = Outcome(layer: Layer, result: Result<T>)

  // ---------------------------------------------------------------------
  // Hardware ranges

  function Overlay<T>(current: Option<T>, given: Option<T>): (r: Option<T>)
    ensures r == (if given.Some? then given else current)
  {
    if given.Some? then given else current
  }

  /** `setHardwareRange`: every range given replaces the one in force; a
      null field keeps it. */
  function SetHardwareRange(hw: SensorDataRange, range: SensorDataRange): (r: SensorDataRange)
    ensures range.temperature.Some? ==> r.temperature == range.temperature
    ensures range.temperature.None? ==> r.temperature == hw.temperature
    ensures range.systolic.Some? ==> r.systolic == range.systolic
    ensures range.systolic.None? ==> r.systolic == hw.systolic
    ensures range.diastolic.Some? ==> r.diastolic == range.diastolic
    ensures range.diastolic.None? ==> r.diastolic == hw.diastolic
    ensures range.pulseRate.Some? ==> r.pulseRate == range.pulseRate
    ensures range.pulseRate.None? ==> r.pulseRate == hw.pulseRate
    ensures range.oximeter.Some? ==> r.oximeter == range.oximeter
    ensures range.oximeter.None? ==> r.oximeter == hw.oximeter
    ensures range.gsrConductance.Some? ==> r.gsrConductance == range.gsrConductance
    ensures range.gsrConductance.None? ==> r.gsrConductance == hw.gsrConductance
    ensures range.gsrResistance.Some? ==> r.gsrResistance == range.gsrResistance
    ensures range.gsrResistance.None? ==> r.gsrResistance == hw.gsrResistance
    ensures range.ecg.Some? ==> r.ecg == range.ecg
    ensures range.ecg.None? ==> r.ecg == hw.ecg
  {
    SensorDataRange(
      Overlay(hw.temperature, range.temperature), Overlay(hw.systolic, range.systolic),
      Overlay(hw.diastolic, range.diastolic), Overlay(hw.pulseRate, range.pulseRate),
      Overlay(hw.oximeter, range.oximeter), Overlay(hw.gsrConductance, range.gsrConductance),
      Overlay(hw.gsrResistance, range.gsrResistance), Overlay(hw.ecg, range.ecg))
  }

  const NO_RANGES: SensorDataRange := SensorDataRange(None, None, None, None, None, None, None, None)

  /** Applying the same ranges twice is applying them once; an all-null
      argument changes nothing; a complete argument replaces the table; and
      a table never loses a range it had. */
  lemma SetHardwareRangeLaws(hw: SensorDataRange, range: SensorDataRange)
    ensures SetHardwareRange(SetHardwareRange(hw, range), range) == SetHardwareRange(hw, range)
    ensures SetHardwareRange(hw, NO_RANGES) == hw
    ensures AllPresent(range) ==> SetHardwareRange(hw, range) == range
    ensures AllPresent(hw) ==> AllPresent(SetHardwareRange(hw, range))
  {
  }

  /** The ranges the `kind` getters with range arguments write, null or
      not: `getTemperature(range)`, `getBloodPressure(sysrange, dirange)`,
      `getPulseRate(range)`, `getOximeter(range)` and
      `getGSR(conductanceRange, resistanceRange)` take theirs from `given`. */
  function OverrideRanges(hw: SensorDataRange, kind: int, given: SensorDataRange): (r: SensorDataRange)
    requires IsDiscrete(kind)
    ensures kind == TEMPERATURE ==> r == hw.(temperature := given.temperature)
    ensures kind == BLOOD_PRESSURE ==> r == hw.(systolic := given.systolic, diastolic := given.diastolic)
    ensures kind == PULSE_RATE ==> r == hw.(pulseRate := given.pulseRate)
    ensures kind == OXIMETER ==> r == hw.(oximeter := given.oximeter)
    ensures kind == Sensor.GSR ==> r == hw.(gsrConductance := given.gsrConductance, gsrResistance := given.gsrResistance)
  {
    if kind == TEMPERATURE then hw.(temperature := given.temperature)
    else if kind == BLOOD_PRESSURE then hw.(systolic := given.systolic, diastolic := given.diastolic)
    else if kind == PULSE_RATE then hw.(pulseRate := given.pulseRate)
    else if kind == OXIMETER then hw.(oximeter := given.oximeter)
    else hw.(gsrConductance := given.gsrConductance, gsrResistance := given.gsrResistance)
  }

  // ---------------------------------------------------------------------
  // Normalising one reading

  /** The guarded rescaling of an `int`: `STANDARD.equals(hw)` first, which
      dereferences the hardware range and so throws on `null`; an `equals`
      range leaves the value alone. */
  function NormaliseInt(v: int, hw: Option<IntRange>, standard: IntRange): (r: Result<int>)
    ensures r.Err? <==> hw.None?
    ensures r.Err? ==> r.error == NullPointer
    ensures hw.Some? && standard.Equals(hw.value) ==> r == Ok(v)
  {
    match hw
    case None => Err(NullPointer)
    case Some(range) => if standard.Equals(range) then Ok(v) else Ok(MapInt(v, range, standard))
  }

  /** The same for a `float`, with the float arithmetic as a parameter. */
  function NormaliseFloat(v: real, hw: Option<FloatRange>, standard: FloatRange, mapFloat: FloatArith): (r: Result<real>)
    ensures r.Err? <==> hw.None?
    ensures r.Err? ==> r.error == NullPointer
    ensures hw.Some? && standard.Equals(hw.value) ==> r == Ok(v)
  {
    match hw
    case None => Err(NullPointer)
    case Some(range) => if standard.Equals(range) then Ok(v) else Ok(mapFloat(v, range, standard))
  }

  /** The ranges of sensor `kind` are all set in `hw`. */
  predicate RangesSet(kind: int, hw: SensorDataRange) {
    if kind == TEMPERATURE then hw.temperature.Some?
    else if kind == BLOOD_PRESSURE then hw.systolic.Some? && hw.diastolic.Some?
    else if kind == PULSE_RATE then hw.pulseRate.Some?
    else if kind == OXIMETER then hw.oximeter.Some?
    else hw.gsrConductance.Some? && hw.gsrResistance.Some?
  }

  /** Every value of the reading lies in its range in `hw`: what the
      extractors check before a reading is kept. */
  predicate Admits(rd: Reading, hw: SensorDataRange) {
    match rd
    case TemperatureReading(t) => AdmitsFloat(hw.temperature, t.value)
    case BloodPressureReading(bp) => AdmitsInt(hw.systolic, bp.systolic) && AdmitsInt(hw.diastolic, bp.diastolic)
    case PulseRateReading(pr) => AdmitsInt(hw.pulseRate, pr.value)
    case OximeterReading(o) => AdmitsFloat(hw.oximeter, o.value)
    case GsrReading(g) => AdmitsFloat(hw.gsrConductance, g.conductance) && AdmitsFloat(hw.gsrResistance, g.resistance)
  }

  /** The normalising block for one reading: temperature, diastolic then
      systolic, pulse rate, oxygen saturation, conductance then resistance. */
  function NormaliseReading(rd: Reading, hw: SensorDataRange, mapFloat: FloatArith): (r: Result<Reading>)
    ensures r.Ok? <==> RangesSet(rd.SensorId(), hw)
    ensures r.Err? ==> r.error == NullPointer
    ensures r.Ok? ==> r.value.SensorId() == rd.SensorId()
  {
    match rd
    case TemperatureReading(t) =>
      var x :- NormaliseFloat(t.value, hw.temperature, STANDARD_TEMPERATURE_RANGE, mapFloat);
      Ok(TemperatureReading(Temperature(x)))
    case BloodPressureReading(bp) =>
      var dia :- NormaliseInt(bp.diastolic, hw.diastolic, STANDARD_DIASTOLIC_RANGE);
      var sys :- NormaliseInt(bp.systolic, hw.systolic, STANDARD_SYSTOLIC_RANGE);
      Ok(BloodPressureReading(BloodPressure(sys, dia)))
    case PulseRateReading(pr) =>
      var x :- NormaliseInt(pr.value, hw.pulseRate, STANDARD_PULSERATE_RANGE);
      Ok(PulseRateReading(PulseRate(x)))
    case OximeterReading(o) =>
      var x :- NormaliseFloat(o.value, hw.oximeter, STANDARD_OXIMETER_RANGE, mapFloat);
      Ok(OximeterReading(Oximeter(x)))
    case GsrReading(g) =>
      var c :- NormaliseFloat(g.conductance, hw.gsrConductance, STANDARD_GSR_CONDUCTANCE_RANGE, mapFloat);
      var res :- NormaliseFloat(g.resistance, hw.gsrResistance, STANDARD_GSR_RESISTANCE_RANGE, mapFloat);
      Ok(GsrReading(GSR(c, res)))
  }

  // What normalisation guarantees

  /** A float range with room in it. */
  predicate ProperFloat(r: FloatRange) {
    r.LowerLimit() < r.UpperLimit()
  }

  /** Each range of `hw` that is set is proper, and its limit objects are
      consistent with the standard limits: a limit object shared with a
      standard range holds the standard number. */
  ghost predicate WellFormed(hw: SensorDataRange) {
    (hw.temperature.Some? ==> ProperFloat(hw.temperature.value) && CoherentRange(hw.temperature.value, STANDARD_TEMPERATURE_RANGE))
    && (hw.systolic.Some? ==> Proper(hw.systolic.value) && CoherentRange(hw.systolic.value, STANDARD_SYSTOLIC_RANGE))
    && (hw.diastolic.Some? ==> Proper(hw.diastolic.value) && CoherentRange(hw.diastolic.value, STANDARD_DIASTOLIC_RANGE))
    && (hw.pulseRate.Some? ==> Proper(hw.pulseRate.value) && CoherentRange(hw.pulseRate.value, STANDARD_PULSERATE_RANGE))
    && (hw.oximeter.Some? ==> ProperFloat(hw.oximeter.value) && CoherentRange(hw.oximeter.value, STANDARD_OXIMETER_RANGE))
    && (hw.gsrConductance.Some? ==> ProperFloat(hw.gsrConductance.value) && CoherentRange(hw.gsrConductance.value, STANDARD_GSR_CONDUCTANCE_RANGE))
    && (hw.gsrResistance.Some? ==> ProperFloat(hw.gsrResistance.value) && CoherentRange(hw.gsrResistance.value, STANDARD_GSR_RESISTANCE_RANGE))
    && (hw.ecg.Some? ==> ProperFloat(hw.ecg.value) && CoherentRange(hw.ecg.value, STANDARD_ECG_RANGE))
  }

  predicate CoherentRange<T(==)>(a: RangeOfValues<T>, b: RangeOfValues<T>) {
    Coherent(a.lower, b.lower) && Coherent(a.upper, b.upper)
  }

  /** An admitted `int` normalises into the standard range, and skipping
      the rescaling for an `equals` range gives what the rescaling would
      have given. */
  lemma NormaliseIntWithin(v: int, hw: IntRange, standard: IntRange)
    requires Proper(hw) && Proper(standard) && CoherentRange(hw, standard) && IsValidInt(v, hw)
    ensures NormaliseInt(v, Some(hw), standard) == Ok(MapInt(v, hw, standard))
    ensures IsValidInt(MapInt(v, hw, standard), standard)
  {
    MapIntWithin(v, hw, standard);
    if standard.Equals(hw) {
      MapIntIdentity(v, hw);
    }
  }

  /** The same for a `float`, under exact arithmetic. */
  lemma NormaliseFloatWithin(v: real, hw: FloatRange, standard: FloatRange, mapFloat: FloatArith)
    requires ProperFloat(hw) && ProperFloat(standard) && CoherentRange(hw, standard) && IsValidFloat(v, hw)
    requires Exact(mapFloat)
    ensures NormaliseFloat(v, Some(hw), standard, mapFloat) == Ok(mapFloat(v, hw, standard))
    ensures IsValidFloat(mapFloat(v, hw, standard), standard)
  {
    ExactMapLimits(v, hw, standard);
    if standard.Equals(hw) {
      ExactMapLimits(v, hw, hw);
      assert ExactMap(v, hw, standard) == ExactMap(v, hw, hw);
    }
  }

  lemma StandardRangesProper()
    ensures ProperFloat(STANDARD_TEMPERATURE_RANGE) && Proper(STANDARD_SYSTOLIC_RANGE) && Proper(STANDARD_DIASTOLIC_RANGE)
    ensures Proper(STANDARD_PULSERATE_RANGE) && ProperFloat(STANDARD_OXIMETER_RANGE)
    ensures ProperFloat(STANDARD_GSR_CONDUCTANCE_RANGE) && ProperFloat(STANDARD_GSR_RESISTANCE_RANGE)
    ensures ProperFloat(STANDARD_ECG_RANGE)
  {
  }

  /** A reading the hardware ranges admit normalises without an exception
      into a reading of the same sensor that the standard ranges admit. */
  lemma NormaliseReadingWithin(rd: Reading, hw: SensorDataRange, mapFloat: FloatArith)
    requires Admits(rd, hw) && WellFormed(hw) && Exact(mapFloat)
    ensures NormaliseReading(rd, hw, mapFloat).Ok?
    ensures Admits(NormaliseReading(rd, hw, mapFloat).value, STANDARD_HARDWARE)
  {
    StandardRangesProper();
    match rd
    case TemperatureReading(t) =>
      NormaliseFloatWithin(t.value, hw.temperature.value, STANDARD_TEMPERATURE_RANGE, mapFloat);
    case BloodPressureReading(bp) =>
      NormaliseIntWithin(bp.diastolic, hw.diastolic.value, STANDARD_DIASTOLIC_RANGE);
      NormaliseIntWithin(bp.systolic, hw.systolic.value, STANDARD_SYSTOLIC_RANGE);
    case PulseRateReading(pr) =>
      NormaliseIntWithin(pr.value, hw.pulseRate.value, STANDARD_PULSERATE_RANGE);
    case OximeterReading(o) =>
      NormaliseFloatWithin(o.value, hw.oximeter.value, STANDARD_OXIMETER_RANGE, mapFloat);
    case GsrReading(g) =>
      NormaliseFloatWithin(g.conductance, hw.gsrConductance.value, STANDARD_GSR_CONDUCTANCE_RANGE, mapFloat);
      NormaliseFloatWithin(g.resistance, hw.gsrResistance.value, STANDARD_GSR_RESISTANCE_RANGE, mapFloat);
  }

  /** With the initial table every reading comes back unchanged. */
  lemma StandardHardwareIsIdentity(rd: Reading, mapFloat: FloatArith)
    ensures NormaliseReading(rd, STANDARD_HARDWARE, mapFloat) == Ok(rd)
  {
  }

  /** The default `SensorDataRange()` is never the standard table: each of
      its ranges is rescaled, including the pulse range, whose limits 0 and
      100 are shared `Integer` objects but not the standard ones. */
  lemma DefaultRangesAreRescaled(alloc: nat)
    requires alloc > 16
    ensures var d := DefaultSensorDataRange(alloc);
      !STANDARD_TEMPERATURE_RANGE.Equals(d.temperature.value) && !STANDARD_SYSTOLIC_RANGE.Equals(d.systolic.value)
      && !STANDARD_DIASTOLIC_RANGE.Equals(d.diastolic.value) && !STANDARD_PULSERATE_RANGE.Equals(d.pulseRate.value)
      && !STANDARD_OXIMETER_RANGE.Equals(d.oximeter.value) && !STANDARD_GSR_CONDUCTANCE_RANGE.Equals(d.gsrConductance.value)
      && !STANDARD_GSR_RESISTANCE_RANGE.Equals(d.gsrResistance.value) && !STANDARD_ECG_RANGE.Equals(d.ecg.value)
  {
  }

  // ---------------------------------------------------------------------
  // Per-sensor getters

  /** Whatever an extractor keeps, the hardware ranges admit. */
  lemma ExtractAdmitted(kind: int, text: string, delimiter: string, hw: SensorDataRange, parseFloat: FloatParser)
    requires IsDiscrete(kind)
    ensures Extract(kind, text, delimiter, hw, parseFloat).Some? ==>
              Admits(Extract(kind, text, delimiter, hw, parseFloat).value, hw) && RangesSet(kind, hw)
  {
  }

  /** `getTemperature(sensorId, delimiter, timeout)`, `getBloodPressure(sensorId,
      dataDelimiter, multiValueDelimiter, timeout)` and their siblings: query
      the device, return `null` as it came, otherwise rescale. */
  function GetReading(layer: Layer, kind: int, sensorId: string, dataDelimiter: string, multiValueDelimiter: string,
                      timeout: int, parseFloat: FloatParser, mapFloat: FloatArith, port: DiscretePort): (r: Result<Option<Reading>>)
    requires IsDiscrete(kind)
    ensures r.Err? <==> port(StartByte(kind), timeout, 0).None?
    ensures r.Err? ==> r.error == NoDeviceConnected
    ensures r.Ok? && r.value.Some? ==> r.value.value.SensorId() == kind
    ensures r.Ok? ==> (r.value.None? <==>
              Query(kind, sensorId, dataDelimiter, multiValueDelimiter, timeout, layer.hardware, parseFloat, port) == Ok(None))
  {
    match Query(kind, sensorId, dataDelimiter, multiValueDelimiter, timeout, layer.hardware, parseFloat, port)
    case Err(e) => Err(e)
    case Ok(None) => Ok(None)
    case Ok(Some(rd)) =>
      ExtractAdmitted(kind, JavaSplit(port(StartByte(kind), timeout, 0).value, sensorId + dataDelimiter)[1],
                      multiValueDelimiter, layer.hardware, parseFloat);
      match NormaliseReading(rd, layer.hardware, mapFloat)
      case Err(e) => Err(e)
      case Ok(n) => Ok(Some(n))
  }

  /** With well-formed hardware ranges and exact arithmetic, every reading a
      getter returns lies in the standard ranges. */
  lemma GetReadingWithin(layer: Layer, kind: int, sensorId: string, dataDelimiter: string, multiValueDelimiter: string,
                         timeout: int, parseFloat: FloatParser, mapFloat: FloatArith, port: DiscretePort)
    requires IsDiscrete(kind) && WellFormed(layer.hardware) && Exact(mapFloat)
    ensures var r := GetReading(layer, kind, sensorId, dataDelimiter, multiValueDelimiter, timeout, parseFloat, mapFloat, port);
            r.Ok? && r.value.Some? ==> Admits(r.value.value, STANDARD_HARDWARE)
  {
    var q := Query(kind, sensorId, dataDelimiter, multiValueDelimiter, timeout, layer.hardware, parseFloat, port);
    if q.Ok? && q.value.Some? {
      var line := port(StartByte(kind), timeout, 0).value;
      ExtractAdmitted(kind, JavaSplit(line, sensorId + dataDelimiter)[1], multiValueDelimiter, layer.hardware, parseFloat);
      NormaliseReadingWithin(q.value.value, layer.hardware, mapFloat);
      GetReadingFrom(layer, kind, sensorId, dataDelimiter, multiValueDelimiter, timeout, parseFloat, mapFloat, port, q.value.value);
    }
  }

  /** A pulse of 50 from a sensor registered as 0..100 reaches the
      application as 110 on the standard 20..200 scale; with the initial
      table it is passed through. */
  lemma PulseReadingExample(layer: Layer, parseFloat: FloatParser, mapFloat: FloatArith, port: DiscretePort, i: nat, j: nat)
    requires i > 16 && j > 16
    requires layer.hardware.pulseRate == Some(RangeOfValues(BoxInteger(0, i), BoxInteger(100, j)))
    requires port(StartByte(PULSE_RATE), 1000, 0) == Some("P@50")
    ensures GetReading(layer, PULSE_RATE, "P", "@", "%", 1000, parseFloat, mapFloat, port) == Ok(Some(PulseRateReading(PulseRate(110))))
    ensures GetReading(INITIAL_LAYER, PULSE_RATE, "P", "@", "%", 1000, parseFloat, mapFloat, port) == Ok(Some(PulseRateReading(PulseRate(50))))
  {
    var rd := PulseRateReading(PulseRate(50));
    PulseQueryExample(layer.hardware, parseFloat, port, 1000);
    PulseQueryExample(INITIAL_LAYER.hardware, parseFloat, port, 1000);
    PulseRescaled(i, j, layer.hardware, mapFloat);
    assert NormaliseReading(rd, INITIAL_LAYER.hardware, mapFloat) == Ok(rd);
    GetReadingFrom(layer, PULSE_RATE, "P", "@", "%", 1000, parseFloat, mapFloat, port, rd);
    GetReadingFrom(INITIAL_LAYER, PULSE_RATE, "P", "@", "%", 1000, parseFloat, mapFloat, port, rd);
  }

  lemma PulseRescaled(i: nat, j: nat, hw: SensorDataRange, mapFloat: FloatArith)
    requires i > 16 && j > 16
    requires hw.pulseRate == Some(RangeOfValues(BoxInteger(0, i), BoxInteger(100, j)))
    ensures NormaliseReading(PulseRateReading(PulseRate(50)), hw, mapFloat) == Ok(PulseRateReading(PulseRate(110)))
  {
    PulseExample(i, j, 7, 8);
    assert NormaliseInt(50, hw.pulseRate, STANDARD_PULSERATE_RANGE) == Ok(110);
  }

  /** A getter whose query yields a reading returns that reading normalised. */
  lemma GetReadingFrom(layer: Layer, kind: int, sensorId: string, dataDelimiter: string, multiValueDelimiter: string,
                       timeout: int, parseFloat: FloatParser, mapFloat: FloatArith, port: DiscretePort, rd: Reading)
    requires IsDiscrete(kind)
    requires Query(kind, sensorId, dataDelimiter, multiValueDelimiter, timeout, layer.hardware, parseFloat, port) == Ok(Some(rd))
    requires NormaliseReading(rd, layer.hardware, mapFloat).Ok?
    ensures GetReading(layer, kind, sensorId, dataDelimiter, multiValueDelimiter, timeout, parseFloat, mapFloat, port)
            == Ok(Some(NormaliseReading(rd, layer.hardware, mapFloat).value))
  {
  }

  /** `getTemperature()`, `getBloodPressure()`, ...: the identifier, the
      delimiters and the timeout come from the discrete configuration. A
      `SensorNotDefinedException` is caught and turns into `null`. */
  function GetConfiguredReading(layer: Layer, kind: int, parseFloat: FloatParser, mapFloat: FloatArith, port: DiscretePort): (r: Result<Option<Reading>>)
    requires IsDiscrete(kind)
    ensures layer.discrete.GetSensorIdentifier(kind).Err? ==> r == Err(IndexOutOfBounds)
    ensures layer.discrete.GetSensorIdentifier(kind).Ok? ==>
              r == GetReading(layer, kind, [layer.discrete.GetSensorIdentifier(kind).value], [layer.discrete.sensorDataDelimiter],
                              [layer.discrete.multiValueDelimiter], layer.discrete.timeout, parseFloat, mapFloat, port)
  {
    var p := layer.discrete;
    match p.GetSensorIdentifier(kind)
    case Err(e) => if e == SensorNotDefined then Ok(None) else Err(e)
    case Ok(id) => GetReading(layer, kind, [id], [p.sensorDataDelimiter], [p.multiValueDelimiter], p.timeout, parseFloat, mapFloat, port)
  }

  /** `getTemperature(range)`, `getBloodPressure(sysrange, dirange)`, ...:
      the given ranges are written into the hardware table, `null` included,
      and stay there after the call. */
  function GetReadingOverriding(layer: Layer, kind: int, given: SensorDataRange, parseFloat: FloatParser, mapFloat: FloatArith,
                                port: DiscretePort): (r: Outcome<Option<Reading>>)
    requires IsDiscrete(kind)
    ensures r.layer == layer.(hardware := OverrideRanges(layer.hardware, kind, given))
  {
    var after := layer.(hardware := OverrideRanges(layer.hardware, kind, given));
    Outcome(after, GetConfiguredReading(after, kind, parseFloat, mapFloat, port))
  }

  /** An override persists: a later call without ranges validates with the
      ranges given earlier; and a `null` range makes the getter return
      `null` whatever the device sends, because the extractor swallows the
      `NullPointerException` of the range check. */
  lemma OverridePersists(layer: Layer, kind: int, given: SensorDataRange, parseFloat: FloatParser, mapFloat: FloatArith, port: DiscretePort)
    requires IsDiscrete(kind)
    ensures var first := GetReadingOverriding(layer, kind, given, parseFloat, mapFloat, port);
            GetConfiguredReading(first.layer, kind, parseFloat, mapFloat, port) == first.result
    ensures var first := GetReadingOverriding(layer, kind, given, parseFloat, mapFloat, port);
            !RangesSet(kind, given) ==> first.result.Ok? ==> first.result.value.None?
  {
    var first := GetReadingOverriding(layer, kind, given, parseFloat, mapFloat, port);
    var hw := first.layer.hardware;
    if first.result.Ok? && first.result.value.Some? {
      var p := first.layer.discrete;
      var id := p.GetSensorIdentifier(kind).value;
      var line := port(StartByte(kind), p.timeout, 0).value;
      ExtractAdmitted(kind, JavaSplit(line, [id] + [p.sensorDataDelimiter])[1], [p.multiValueDelimiter], hw, parseFloat);
    }
  }

  // ---------------------------------------------------------------------
  // Aggregate fetch

  /** The normalising blocks of `getDiscrete()` from sensor `k` on, each
      guarded by `flags[k]`. The guarded getter of a sensor that was not
      collected throws `DataNotCollectedException`; a `null` reading is
      skipped. */
  function NormaliseFrom(sd: SensorData, flags: Flags, k: nat, hw: SensorDataRange, mapFloat: FloatArith): (r: Result<SensorData>)
    requires k <= NUM_DISCRETE
    ensures r.Ok? ==> r.value.response == sd.response
    ensures r.Err? ==> r.error == DataNotCollected || r.error == NullPointer
    decreases NUM_DISCRETE - k
  {
    if k == NUM_DISCRETE then Ok(sd)
    else if !flags[k] then NormaliseFrom(sd, flags, k + 1, hw, mapFloat)
    else match sd.Get(k)
      case Err(e) => Err(e)
      case Ok(None) => NormaliseFrom(sd, flags, k + 1, hw, mapFloat)
      case Ok(Some(rd)) =>
        match NormaliseReading(rd, hw, mapFloat)
        case Err(e) => Err(e)
        case Ok(n) => NormaliseFrom(sd.Set(k, Some(n)), flags, k + 1, hw, mapFloat)
  }

  /** `AALayerII.getDiscrete()` as written: run the engine, which clears the
      flags of the configuration it was handed in place, then guard each
      normalising block with those same, now cleared, flags. */
  function GetDiscreteAsWritten(layer: Layer, parseFloat: FloatParser, mapFloat: FloatArith, port: DiscretePort): (r: Outcome<SensorData>)
    ensures var run := Assure(AsWritten, layer.discrete, layer.hardware, parseFloat, port);
            r.layer == layer.(discrete := layer.discrete.(requirement := run.requirement))
            && (run.thrown.Some? ==> r.result == Err(run.thrown.value))
  {
    var run := Assure(AsWritten, layer.discrete, layer.hardware, parseFloat, port);
    var after := layer.(discrete := layer.discrete.(requirement := run.requirement));
    if run.thrown.Some? then Outcome(after, Err(run.thrown.value))
    else Outcome(after, NormaliseFrom(run.data, run.requirement, 0, layer.hardware, mapFloat))
  }

  /** `AALayerII.getDiscrete()` with the guards read before the run: every
      required sensor is normalised. The engine's clearing of the
      configuration's flags is kept. */
  function GetDiscrete(layer: Layer, parseFloat: FloatParser, mapFloat: FloatArith, port: DiscretePort): (r: Outcome<SensorData>)
    ensures var run := Assure(Corrected, layer.discrete, layer.hardware, parseFloat, port);
            r.layer == layer.(discrete := layer.discrete.(requirement := run.requirement))
            && (run.thrown.Some? ==> r.result == Err(run.thrown.value))
  {
    var run := Assure(Corrected, layer.discrete, layer.hardware, parseFloat, port);
    var after := layer.(discrete := layer.discrete.(requirement := run.requirement));
    if run.thrown.Some? then Outcome(after, Err(run.thrown.value))
    else Outcome(after, NormaliseFrom(run.data, layer.discrete.requirement, 0, layer.hardware, mapFloat))
  }

  lemma {:induction false} NormaliseNothing(sd: SensorData, k: nat, hw: SensorDataRange, mapFloat: FloatArith)
    requires k <= NUM_DISCRETE
    ensures NormaliseFrom(sd, NO_FLAGS, k, hw, mapFloat) == Ok(sd)
    decreases NUM_DISCRETE - k
  {
    if k < NUM_DISCRETE {
      NormaliseNothing(sd, k + 1, hw, mapFloat);
    }
  }

  /** Some guarded sensor from `k` on was not collected, and every guarded
      reading met before it normalises: the blocks end in
      `DataNotCollectedException`. */
  lemma {:induction false} NormaliseMissing(sd: SensorData, flags: Flags, k: nat, hw: SensorDataRange, mapFloat: FloatArith)
    requires k <= NUM_DISCRETE
    requires exists j :: k <= j < NUM_DISCRETE && flags[j] && !sd.response[j]
    requires forall j :: k <= j < NUM_DISCRETE && flags[j] && sd.response[j] && sd.values[j].Some? ==>
               NormaliseReading(sd.values[j].value, hw, mapFloat).Ok?
    ensures NormaliseFrom(sd, flags, k, hw, mapFloat) == Err(DataNotCollected)
    decreases NUM_DISCRETE - k
  {
    if flags[k] && sd.response[k] && sd.values[k].Some? {
      var n := NormaliseReading(sd.values[k].value, hw, mapFloat).value;
      NormaliseMissing(sd.Set(k, Some(n)), flags, k + 1, hw, mapFloat);
    } else if !(flags[k] && !sd.response[k]) {
      NormaliseMissing(sd, flags, k + 1, hw, mapFloat);
    }
  }

  /** `out` holds the readings of `sd`, with every guarded present reading
      from `k` on replaced by its normalised form. */
  ghost predicate Rescaled(sd: SensorData, out: SensorData, flags: Flags, k: nat, hw: SensorDataRange, mapFloat: FloatArith) {
    forall j :: 0 <= j < NUM_DISCRETE ==>
      if k <= j && flags[j] && sd.values[j].Some?
      then out.values[j].Some? && NormaliseReading(sd.values[j].value, hw, mapFloat) == Ok(out.values[j].value)
      else out.values[j] == sd.values[j]
  }

  lemma RescaledStep(sd: SensorData, sd': SensorData, out: SensorData, flags: Flags, k: nat, hw: SensorDataRange, mapFloat: FloatArith)
    requires k < NUM_DISCRETE
    requires (sd' == sd && !(flags[k] && sd.values[k].Some?))
             || (flags[k] && sd.values[k].Some? && sd'.values[k].Some?
                 && NormaliseReading(sd.values[k].value, hw, mapFloat) == Ok(sd'.values[k].value)
                 && forall j :: 0 <= j < NUM_DISCRETE && j != k ==> sd'.values[j] == sd.values[j])
    requires Rescaled(sd', out, flags, k + 1, hw, mapFloat)
    ensures Rescaled(sd, out, flags, k, hw, mapFloat)
  {
  }

  /** When every guarded sensor from `k` on was collected and its reading
      normalises, the blocks succeed: guarded present readings are replaced
      by their normalised forms and everything else is left as it was. */
  lemma {:induction false} NormaliseCollected(sd: SensorData, flags: Flags, k: nat, hw: SensorDataRange, mapFloat: FloatArith)
    requires k <= NUM_DISCRETE
    requires forall j :: k <= j < NUM_DISCRETE && flags[j] ==>
               sd.response[j] && (sd.values[j].Some? ==> NormaliseReading(sd.values[j].value, hw, mapFloat).Ok?)
    ensures NormaliseFrom(sd, flags, k, hw, mapFloat).Ok?
    ensures Rescaled(sd, NormaliseFrom(sd, flags, k, hw, mapFloat).value, flags, k, hw, mapFloat)
    decreases NUM_DISCRETE - k
  {
    if k < NUM_DISCRETE {
      var sd' := sd;
      if flags[k] && sd.values[k].Some? {
        var n := NormaliseReading(sd.values[k].value, hw, mapFloat).value;
        sd' := sd.Set(k, Some(n));
        assert sd.Get(k) == Ok(sd.values[k]);
      }
      assert NormaliseFrom(sd, flags, k, hw, mapFloat) == NormaliseFrom(sd', flags, k + 1, hw, mapFloat);
      NormaliseCollected(sd', flags, k + 1, hw, mapFloat);
      RescaledStep(sd, sd', NormaliseFrom(sd', flags, k + 1, hw, mapFloat).value, flags, k, hw, mapFloat);
    }
  }

  // Readings a run stores are admitted by the hardware ranges

  ghost predicate AllAdmitted(sd: SensorData, hw: SensorDataRange) {
    forall k :: 0 <= k < NUM_DISCRETE && sd.values[k].Some? ==> Admits(sd.values[k].value, hw)
  }

  lemma OfferedAdmitted(k: int, response: string, p: DiscretePacketInfo, hw: SensorDataRange, parseFloat: FloatParser)
    requires IsDiscrete(k) && HasIdentifier(p, k)
    ensures Offered(k, response, p, hw, parseFloat).Some? ==> Admits(Offered(k, response, p, hw, parseFloat).value, hw)
  {
    var r := Offered(k, response, p, hw, parseFloat);
    if r.Some? {
      var fragments := Fragments(response, p.sensorIdentifier[k], p.sensorDataDelimiter);
      var extract := ExtractorFor(k, p.multiValueDelimiter, hw, parseFloat);
      SelectLatestSpec(fragments, p.sensorDelimiter, extract);
      var j :| 1 <= j < |fragments| && r == Candidate(fragments[j], p.sensorDelimiter, extract);
      ExtractAdmitted(k, Before(fragments[j], p.sensorDelimiter), [p.multiValueDelimiter], hw, parseFloat);
    }
  }

  lemma PassKeepsAdmitted(cut: Cut, sd: SensorData, line: string, p: DiscretePacketInfo, hw: SensorDataRange, parseFloat: FloatParser)
    requires AllAdmitted(sd, hw)
    ensures AllAdmitted(PopulateFrom(cut, sd, line, p, p.requirement, 0, hw, parseFloat).data, hw)
  {
    PopulateFrame(cut, sd, line, p, p.requirement, 0, hw, parseFloat);
    PopulateStores(cut, sd, line, p, p.requirement, 0, hw, parseFloat);
    forall k | 0 <= k < NUM_DISCRETE && HasIdentifier(p, k) {
      OfferedAdmitted(k, line, p, hw, parseFloat);
    }
  }

  lemma {:induction false} AssureKeepsAdmitted(cut: Cut, sd: SensorData, p: DiscretePacketInfo, remaining: int, asked: seq<Flags>,
                                               hw: SensorDataRange, parseFloat: FloatParser, port: DiscretePort)
    requires AllAdmitted(sd, hw)
    ensures AllAdmitted(AssureFrom(cut, sd, p, remaining, asked, hw, parseFloat, port).data, hw)
    decreases if remaining > 0 then remaining else 0
  {
    if remaining > 0 && RequestByte(p.requirement) != 0 {
      var line := port(RequestByte(p.requirement), p.timeout, |asked|);
      if line.Some? {
        var pass := PopulateFrom(cut, sd, line.value, p, p.requirement, 0, hw, parseFloat);
        PassKeepsAdmitted(cut, sd, line.value, p, hw, parseFloat);
        if pass.thrown.None? {
          AssureKeepsAdmitted(cut, pass.data, p.(requirement := pass.requirement), remaining - 1, asked + [p.requirement], hw, parseFloat, port);
        }
        KeepsAdmittedStep(cut, sd, p, remaining, asked, hw, parseFloat, port, line.value);
      }
    }
  }

  lemma KeepsAdmittedStep(cut: Cut, sd: SensorData, p: DiscretePacketInfo, remaining: int, asked: seq<Flags>,
                          hw: SensorDataRange, parseFloat: FloatParser, port: DiscretePort, line: string)
    requires remaining > 0 && RequestByte(p.requirement) != 0
    requires port(RequestByte(p.requirement), p.timeout, |asked|) == Some(line)
    requires AllAdmitted(PopulateFrom(cut, sd, line, p, p.requirement, 0, hw, parseFloat).data, hw)
    requires var pass := PopulateFrom(cut, sd, line, p, p.requirement, 0, hw, parseFloat);
             pass.thrown.None? ==>
               AllAdmitted(AssureFrom(cut, pass.data, p.(requirement := pass.requirement), remaining - 1, asked + [p.requirement], hw, parseFloat, port).data, hw)
    ensures AllAdmitted(AssureFrom(cut, sd, p, remaining, asked, hw, parseFloat, port).data, hw)
  {
  }

  /** Every reading a run stores lies in its hardware range. */
  lemma RunAdmitted(cut: Cut, p: DiscretePacketInfo, hw: SensorDataRange, parseFloat: FloatParser, port: DiscretePort)
    ensures AllAdmitted(Assure(cut, p, hw, parseFloat, port).data, hw)
  {
    AssureKeepsAdmitted(cut, NewSensorData(), p, p.numAttempts, [], hw, parseFloat, port);
  }

  // What the aggregate fetch returns

  /** As written, the guards see the cleared flags: a run that collected
      everything returns its readings without rescaling them, and a run
      that left a sensor uncollected throws `DataNotCollectedException`. */
  lemma GetDiscreteAsWrittenSkips(layer: Layer, parseFloat: FloatParser, mapFloat: FloatArith, port: DiscretePort)
    ensures var run := Assure(AsWritten, layer.discrete, layer.hardware, parseFloat, port);
            run.thrown.None? && run.requirement == NO_FLAGS ==>
              GetDiscreteAsWritten(layer, parseFloat, mapFloat, port).result == Ok(run.data)
    ensures var run := Assure(AsWritten, layer.discrete, layer.hardware, parseFloat, port);
            run.thrown.None? && run.requirement != NO_FLAGS ==>
              GetDiscreteAsWritten(layer, parseFloat, mapFloat, port).result == Err(DataNotCollected)
  {
    var run := Assure(AsWritten, layer.discrete, layer.hardware, parseFloat, port);
    if run.thrown.None? {
      if run.requirement == NO_FLAGS {
        NormaliseNothing(run.data, 0, layer.hardware, mapFloat);
      } else {
        AssurePresence(AsWritten, layer.discrete, layer.hardware, parseFloat, port);
        var j :| 0 <= j < NUM_DISCRETE && run.requirement[j] != NO_FLAGS[j];
        NormaliseMissing(run.data, run.requirement, 0, layer.hardware, mapFloat);
      }
    }
  }

  /** With the guards read before the run, a run that collected everything
      returns every required reading rescaled into the standard ranges, and
      a run that left a sensor uncollected throws
      `DataNotCollectedException`. */
  lemma GetDiscreteNormalises(layer: Layer, parseFloat: FloatParser, mapFloat: FloatArith, port: DiscretePort)
    requires WellFormed(layer.hardware) && Exact(mapFloat)
    ensures var run := Assure(Corrected, layer.discrete, layer.hardware, parseFloat, port);
            var r := GetDiscrete(layer, parseFloat, mapFloat, port).result;
            run.thrown.None? && run.requirement == NO_FLAGS ==>
              r.Ok? && r.value.response == run.data.response
              && forall k :: 0 <= k < NUM_DISCRETE && layer.discrete.requirement[k] ==>
                   r.value.values[k].Some? && run.data.values[k].Some?
                   && NormaliseReading(run.data.values[k].value, layer.hardware, mapFloat) == Ok(r.value.values[k].value)
                   && Admits(r.value.values[k].value, STANDARD_HARDWARE)
    ensures var run := Assure(Corrected, layer.discrete, layer.hardware, parseFloat, port);
            run.thrown.None? && run.requirement != NO_FLAGS ==>
              GetDiscrete(layer, parseFloat, mapFloat, port).result == Err(DataNotCollected)
  {
    var run := Assure(Corrected, layer.discrete, layer.hardware, parseFloat, port);
    if run.thrown.None? {
      AssurePresence(Corrected, layer.discrete, layer.hardware, parseFloat, port);
      RunAdmitted(Corrected, layer.discrete, layer.hardware, parseFloat, port);
      NormaliseRun(run.data, layer.discrete.requirement, run.requirement, layer.hardware, mapFloat);
      assert GetDiscrete(layer, parseFloat, mapFloat, port).result
          == NormaliseFrom(run.data, layer.discrete.requirement, 0, layer.hardware, mapFloat);
    }
  }

  /** The blocks guarded by the initial flags, over the readings of a run
      that ended with flags `final`. */
  lemma NormaliseRun(sd: SensorData, start: Flags, final: Flags, hw: SensorDataRange, mapFloat: FloatArith)
    requires AllAdmitted(sd, hw) && WellFormed(hw) && Exact(mapFloat)
    requires Within(final, start)
    requires forall k :: 0 <= k < NUM_DISCRETE ==>
               (sd.response[k] <==> start[k] && !final[k]) && (sd.response[k] ==> sd.values[k].Some?)
    ensures var r := NormaliseFrom(sd, start, 0, hw, mapFloat);
            final == NO_FLAGS ==>
              r.Ok? && r.value.response == sd.response
              && forall k :: 0 <= k < NUM_DISCRETE && start[k] ==>
                   r.value.values[k].Some? && sd.values[k].Some?
                   && NormaliseReading(sd.values[k].value, hw, mapFloat) == Ok(r.value.values[k].value)
                   && Admits(r.value.values[k].value, STANDARD_HARDWARE)
    ensures final != NO_FLAGS ==> NormaliseFrom(sd, start, 0, hw, mapFloat) == Err(DataNotCollected)
  {
    AdmittedNormalise(sd, hw, mapFloat);
    if final == NO_FLAGS {
      NormaliseCollected(sd, start, 0, hw, mapFloat);
    } else {
      var j :| 0 <= j < NUM_DISCRETE && final[j] != NO_FLAGS[j];
      assert start[j] && !sd.response[j];
      NormaliseMissing(sd, start, 0, hw, mapFloat);
    }
  }

  /** Readings admitted by well-formed hardware ranges all normalise into
      the standard ranges. */
  lemma AdmittedNormalise(sd: SensorData, hw: SensorDataRange, mapFloat: FloatArith)
    requires AllAdmitted(sd, hw) && WellFormed(hw) && Exact(mapFloat)
    ensures forall k :: 0 <= k < NUM_DISCRETE && sd.values[k].Some? ==>
              NormaliseReading(sd.values[k].value, hw, mapFloat).Ok?
              && Admits(NormaliseReading(sd.values[k].value, hw, mapFloat).value, STANDARD_HARDWARE)
  {
    forall k | 0 <= k < NUM_DISCRETE && sd.values[k].Some?
      ensures NormaliseReading(sd.values[k].value, hw, mapFloat).Ok?
      ensures Admits(NormaliseReading(sd.values[k].value, hw, mapFloat).value, STANDARD_HARDWARE)
    {
      NormaliseReadingWithin(sd.values[k].value, hw, mapFloat);
    }
  }

  /** The engine clears the configuration's flags for good: after a run
      that collected everything, the next aggregate fetch sends no request
      and returns an empty `SensorData`. */
  lemma SecondFetchIsEmpty(layer: Layer, parseFloat: FloatParser, mapFloat: FloatArith, port: DiscretePort)
    ensures var first := GetDiscrete(layer, parseFloat, mapFloat, port);
            var run := Assure(Corrected, layer.discrete, layer.hardware, parseFloat, port);
            run.thrown.None? && run.requirement == NO_FLAGS ==>
              |Assure(Corrected, first.layer.discrete, first.layer.hardware, parseFloat, port).asked| == 0
              && GetDiscrete(first.layer, parseFloat, mapFloat, port).result == Ok(NewSensorData())
  {
    var first := GetDiscrete(layer, parseFloat, mapFloat, port);
    var run := Assure(Corrected, layer.discrete, layer.hardware, parseFloat, port);
    if run.thrown.None? && run.requirement == NO_FLAGS {
      NormaliseNothing(NewSensorData(), 0, first.layer.hardware, mapFloat);
    }
  }

  // ---------------------------------------------------------------------
  // ECG stream

  /** `AALayerII.getECG()`: fetch the stream with the configured stream
      information and the hardware ECG range, then, unless that range is
      `equals` to the standard one, rescale every sample into the standard
      range. `STANDARD_ECG_RANGE.equals(null)` dereferences the missing
      range. */
  function GetNormalisedECG(layer: Layer, parseFloat: FloatParser, mapFloat: FloatArith, port: StreamPort): (r: Result<ECG>)
    ensures var fetched := GetECG(layer.continuous, layer.hardware, parseFloat, port);
            fetched.Err? ==> r == fetched
    ensures var fetched := GetECG(layer.continuous, layer.hardware, parseFloat, port);
            fetched.Ok? && layer.hardware.ecg.None? ==> r == Err(NullPointer)
    ensures var fetched := GetECG(layer.continuous, layer.hardware, parseFloat, port);
            fetched.Ok? && layer.hardware.ecg.Some? ==>
              r.Ok? && r.value.length == fetched.value.length == |r.value.valueArray|
              && forall i :: 0 <= i < |r.value.valueArray| ==>
                   fetched.value.valueArray[i].Some? && r.value.valueArray[i].Some?
                   && NormaliseFloat(fetched.value.valueArray[i].value, layer.hardware.ecg, STANDARD_ECG_RANGE, mapFloat)
                      == Ok(r.value.valueArray[i].value)
  {
    match GetECG(layer.continuous, layer.hardware, parseFloat, port)
    case Err(e) => Err(e)
    case Ok(ecg) =>
      match layer.hardware.ecg
      case None => Err(NullPointer)
      case Some(range) =>
        if STANDARD_ECG_RANGE.Equals(range) then Ok(ecg)
        else
          match MappedSamples(ecg.valueArray, range, STANDARD_ECG_RANGE, mapFloat)
          case Err(e) => Err(e)
          case Ok(mapped) =>
            SetValueArrayExact(ecg, mapped);
            Ok(SetValueArray(ecg, mapped).buffer)
  }

  /** Every sample of a normalised ECG lies in the standard ECG range. */
  lemma GetNormalisedECGWithin(layer: Layer, parseFloat: FloatParser, mapFloat: FloatArith, port: StreamPort)
    requires WellFormed(layer.hardware) && Exact(mapFloat)
    ensures var r := GetNormalisedECG(layer, parseFloat, mapFloat, port);
            r.Ok? ==> forall i :: 0 <= i < |r.value.valueArray| ==>
                        r.value.valueArray[i].Some? && IsValidFloat(r.value.valueArray[i].value, STANDARD_ECG_RANGE)
  {
    var r := GetNormalisedECG(layer, parseFloat, mapFloat, port);
    var fetched := GetECG(layer.continuous, layer.hardware, parseFloat, port);
    if r.Ok? {
      StandardRangesProper();
      forall i | 0 <= i < |r.value.valueArray|
        ensures r.value.valueArray[i].Some? && IsValidFloat(r.value.valueArray[i].value, STANDARD_ECG_RANGE)
      {
        NormaliseFloatWithin(fetched.value.valueArray[i].value, layer.hardware.ecg.value, STANDARD_ECG_RANGE, mapFloat);
      }
    }
  }

  /** `getECG(RangeOfValues<Float>)`: store the range, `null` included, as
      the hardware ECG range, then fetch. Errors of the fetch itself pass
      through. After a fetch, a `null` range always ends in
      `NullPointerException`, from the float loop or from
      `STANDARD_ECG_RANGE.equals(null)`; with a range given, that exception
      can only come from a null line of the stream. */
  function GetECGWithRange(layer: Layer, range: Option<FloatRange>, parseFloat: FloatParser, mapFloat: FloatArith, port: StreamPort): (r: Outcome<ECG>)
    ensures r.layer.hardware.ecg == range && r.layer.continuous == layer.continuous && r.layer.discrete == layer.discrete
    ensures Fetch(layer.continuous, port).Err? ==> r.result == Err(Fetch(layer.continuous, port).error)
    ensures range.None? && Fetch(layer.continuous, port).Ok? ==> r.result == Err(NullPointer)
    ensures range.Some? && r.result == Err(NullPointer) ==>
              var fetched := Fetch(layer.continuous, port);
              fetched.Ok? && exists i :: 0 <= i < |fetched.value.1| && fetched.value.1[i].None?
  {
    var after := layer.(hardware := layer.hardware.(ecg := range));
    Outcome(after, GetNormalisedECG(after, parseFloat, mapFloat, port))
  }

  // ---------------------------------------------------------------------
  // Metadata

  /** `AALayerII.getMetadata`: a discrete sensor's metadata is requested
      with that sensor's identifier, delimiters and timeout from the discrete
      configuration; any other sensor number uses the stream configuration
      and a timeout of 1000 ms. A negative sensor number has no identifier. */
  function GetSensorMetadata(layer: Layer, sensorNum: int, entries: Entries, port: DiscretePort): (r: Result<Entries>)
    ensures sensorNum < 0 ==> r == Err(SensorNotDefined)
    ensures r.Err? ==> r.error == SensorNotDefined || r.error == IndexOutOfBounds || r.error == NoDeviceConnected
    ensures r.Ok? ==> |r.value| == |entries| && forall i :: 0 <= i < |entries| ==> r.value[i].0 == entries[i].0
    ensures sensorNum >= NUM_DISCRETE ==> (r.Err? <==> port(MetadataByte(sensorNum), 1000, 0).None?)
  {
    if sensorNum < NUM_DISCRETE then
      var p := layer.discrete;
      match p.GetSensorIdentifier(sensorNum)
      case Err(e) => Err(e)
      case Ok(id) => GetMetadata(sensorNum, entries, [id], [p.sensorDataDelimiter], [p.multiValueDelimiter], p.timeout, port)
    else
      var c := layer.continuous;
      GetMetadata(sensorNum, entries, [c.sensorIdentifier], [c.sensorDataDelimiter], [c.multiValueDelimiter], 1000, port)
  }

  /** The marker a metadata answer for `sensorNum` is searched for. */
  function MetadataMarker(layer: Layer, sensorNum: int): string
    requires 0 <= sensorNum && (sensorNum < NUM_DISCRETE ==> sensorNum < |layer.discrete.sensorIdentifier|)
  {
    if sensorNum < NUM_DISCRETE then [layer.discrete.sensorIdentifier[sensorNum], layer.discrete.sensorDataDelimiter]
    else [layer.continuous.sensorIdentifier, layer.continuous.sensorDataDelimiter]
  }

  /** An answer made of anything, the sensor's marker, and one value per
      entry joined by the configured multi-value delimiter fills the entries
      with those values, in order. */
  lemma GetSensorMetadataRoundTrip(layer: Layer, sensorNum: int, entries: Entries, port: DiscretePort, prefix: string, values: seq<string>)
    requires 0 <= sensorNum && (sensorNum < NUM_DISCRETE ==> sensorNum < |layer.discrete.sensorIdentifier|)
    requires var c := if sensorNum < NUM_DISCRETE then layer.discrete.multiValueDelimiter else layer.continuous.multiValueDelimiter;
             forall k :: 0 <= k < |values| ==> c !in values[k]
    requires |values| == |entries| >= 1 && values[|values| - 1] != ""
    requires var c := if sensorNum < NUM_DISCRETE then layer.discrete.multiValueDelimiter else layer.continuous.multiValueDelimiter;
             var marker := MetadataMarker(layer, sensorNum);
             Free(Join(values, [c]), marker)
             && (forall j :: 0 <= j < |prefix| ==> !OccursAt(prefix + marker + Join(values, [c]), marker, j))
             && port(MetadataByte(sensorNum), if sensorNum < NUM_DISCRETE then layer.discrete.timeout else 1000, 0)
                == Some(prefix + marker + Join(values, [c]))
    ensures GetSensorMetadata(layer, sensorNum, entries, port)
            == Ok(seq(|entries|, i requires 0 <= i < |entries| => (entries[i].0, values[i])))
  {
    if sensorNum < NUM_DISCRETE {
      var p := layer.discrete;
      var id := p.sensorIdentifier[sensorNum];
      assert [id] + [p.sensorDataDelimiter] == MetadataMarker(layer, sensorNum);
      GetMetadataRoundTrip(sensorNum, entries, [id], [p.sensorDataDelimiter], p.multiValueDelimiter, p.timeout, port, prefix, values);
    } else {
      var c := layer.continuous;
      assert [c.sensorIdentifier] + [c.sensorDataDelimiter] == MetadataMarker(layer, sensorNum);
      GetMetadataRoundTrip(sensorNum, entries, [c.sensorIdentifier], [c.sensorDataDelimiter], c.multiValueDelimiter, 1000, port, prefix, values);
    }
  }
}

=== FILE: lang.dfy ===
/** The Java runtime behaviour the SensorStack core leans on: nullable
    references, the exceptions it throws, 32-bit `int` arithmetic and the
    `byte` casts used to build request bytes. */
module Lang {

  /** A Java reference that may be `null`. */
  datatype Option<+T> = None | Some(value: T)

  /** The exceptions that escape (or are caught by) the core. */
  datatype Exception =
    | SensorNotDefined    // SensorNotDefinedException
    | DataNotCollected    // DataNotCollectedException
    | NoDeviceConnected   // NoDeviceConnectedException
    | IndexOutOfBounds    // ArrayIndexOutOfBoundsException
    | NullPointer         // NullPointerException
    | NegativeArraySize   // NegativeArraySizeException

  /** A call that either returns a value or throws; `:-` propagates the
      exception. */
  datatype Result<+T> = Ok(value: T) | Err(error: Exception) {
    predicate IsFailure() {
      Err?
    }

    function PropagateFailure<U>(): Result<U>
      requires Err?
    {
      Err(error)
    }

    function Extract(): T
      requires Ok?
    {
      value
    }
  }

  const INT_MIN: int := -0x8000_0000
  const INT_MAX: int := 0x7fff_ffff
  const TWO_TO_32: int := 0x1_0000_0000

  predicate IsInt32(x: int) {
    INT_MIN <= x <= INT_MAX
  }

  /** Java `int` arithmetic: the exact result reduced into 32 bits. */
  function Wrap32(x: int): (r: int)
    ensures IsInt32(r)
    ensures (x - r) % TWO_TO_32 == 0
    ensures IsInt32(x) ==> r == x
  {
    (x - INT_MIN) % TWO_TO_32 + INT_MIN
  }

  /** A Java `byte`, as its 8-bit pattern. */
  type Byte = bv8

  /** The byte with only bit `i` set: the low byte of `1 << i`. */
  function Mask(i: nat): (m: Byte)
    requires i < 8
  {
    if i == 0 then 0x01 else if i == 1 then 0x02 else if i == 2 then 0x04 else if i == 3 then 0x08
    else if i == 4 then 0x10 else if i == 5 then 0x20 else if i == 6 then 0x40 else 0x80
  }

  /** Is bit `i` of `b` set? */
  predicate HasBit(b: Byte, i: nat)
    requires i < 8
  {
    b & Mask(i) != 0
  }

  /** `(byte) (1 << n)` for a Java `int` n: the shift distance is `n & 31`,
      and the cast keeps the low eight bits, which are all clear once the
      distance reaches 8. */
  function ShiftedBit(n: int): (r: Byte)
    ensures 0 <= n < 8 ==> forall i :: 0 <= i < 8 ==> (HasBit(r, i) <==> i == n)
    ensures (n % 32) >= 8 ==> r == 0
  {
    var s := n % 32;
    if s < 8 then Mask(s) else 0
  }
}

=== FILE: normalise.dfy ===
/** `AALayerII.mapValue`: the linear rescaling of a reading from the
    hardware's range onto the library's standard range. The `int` version
    does its division in `float` and casts back, so a zero-width input range
    saturates instead of throwing; the `float` versions are left to an
    arithmetic oracle and compared with exact rational arithmetic. */
module Normalise {
  import opened Lang
  import opened Ranges

  /** Java's `/` on `int`: the quotient rounded toward zero. */
  function TruncDiv(n: int, m: int): int
    requires m != 0
  {
    if n >= 0 && m > 0 then n / m
    else if n >= 0 then -(n / -m)
    else if m > 0 then -(-n / m)
    else -n / -m
  }

  /** What rounding toward zero means: the remainder is smaller than the
      divisor and never has the opposite sign of the dividend. */
  lemma TruncDivRemainder(n: int, m: int)
    requires m != 0
    ensures var rem := n - TruncDiv(n, m) * m;
      (if n >= 0 then 0 <= rem else rem <= 0) && (if m > 0 then -m < rem < m else m < rem < -m)
  {
    var q := TruncDiv(n, m);
    if n >= 0 && m > 0 {
      assert n == q * m + n % m;
    } else if n >= 0 {
      var a := n / -m;
      assert n == a * -m + n % -m;
      assert q * m == a * -m;
    } else if m > 0 {
      var a := -n / m;
      assert -n == a * m + (-n) % m;
      assert q * m == -(a * m);
    } else {
      var a := -n / -m;
      assert -n == a * -m + (-n) % -m;
      assert q * m == -(a * -m);
    }
  }

  lemma MulMonotone(a: int, b: int, c: int)
    requires a <= b && c >= 0
    ensures a * c <= b * c
  {
    var d := b - a;
    assert d * c >= 0;
    assert b * c == a * c + d * c;
  }

  lemma DivOfMultiple(k: int, m: int)
    requires m > 0
    ensures (k * m) / m == k
  {
    var q, r := (k * m) / m, (k * m) % m;
    assert k * m == q * m + r && 0 <= r < m;
    assert (k - q) * m == r;
    if k - q >= 1 { MulMonotone(1, k - q, m); }
    else if k - q <= -1 { MulMonotone(k - q, -1, m); }
  }

  lemma DivMonotone(a: int, b: int, m: int)
    requires a <= b && m > 0
    ensures a / m <= b / m
  {
    var qa, qb := a / m, b / m;
    assert a == qa * m + a % m && b == qb * m + b % m;
    if qa > qb {
      MulMonotone(qb + 1, qa, m);
    }
  }

  /** Dividing an exact multiple rounds nothing away. */
  lemma TruncDivOfMultiple(k: int, m: int)
    requires m != 0
    ensures TruncDiv(k * m, m) == k
  {
    if m > 0 {
      if k * m >= 0 {
        DivOfMultiple(k, m);
      } else {
        assert -(k * m) == (-k) * m;
        DivOfMultiple(-k, m);
      }
    } else {
      if k * m >= 0 {
        assert k * m == (-k) * (-m);
        DivOfMultiple(-k, -m);
      } else {
        assert -(k * m) == k * (-m);
        DivOfMultiple(k, -m);
      }
    }
  }

  /** `(int) ((float) n / m)` on exact numbers: a quotient beyond the `int`
      range saturates, `n / 0` is an infinity with the sign of `n` and
      saturates too, and `0 / 0` is NaN, which casts to 0. */
  function CastQuotient(n: int, m: int): (r: int)
    ensures IsInt32(r)
    ensures m == 0 ==> r == (if n > 0 then INT_MAX else if n < 0 then INT_MIN else 0)
    ensures m != 0 && IsInt32(TruncDiv(n, m)) ==> r == TruncDiv(n, m)
  {
    if m == 0 then (if n > 0 then INT_MAX else if n < 0 then INT_MIN else 0)
    else
      var t := TruncDiv(n, m);
      if t > INT_MAX then INT_MAX else if t < INT_MIN then INT_MIN else t
  }

  function Width(r: IntRange): int {
    Wrap32(r.UpperLimit() - r.LowerLimit())
  }

  /** `mapValue(int, RangeOfValues<Integer>, RangeOfValues<Integer>)`:
      `outLL + (int) ((v - inLL) * (float) outW / inW)`, every `int`
      operation wrapping. */
  function MapInt(v: int, input: IntRange, output: IntRange): (r: int)
    ensures IsInt32(r)
  {
    Wrap32(output.LowerLimit() + CastQuotient(Wrap32(v - input.LowerLimit()) * Width(output), Width(input)))
  }

  /** A range whose limits are Java `int`s, in order, whose width fits an
      `int` and is not zero. */
  predicate Proper(r: IntRange) {
    IsInt32(r.LowerLimit()) && IsInt32(r.UpperLimit()) && r.LowerLimit() < r.UpperLimit()
    && IsInt32(r.UpperLimit() - r.LowerLimit())
  }

  /** The lower limit of the hardware range maps onto the lower limit of
      the standard range. */
  lemma MapIntLowerLimit(input: IntRange, output: IntRange)
    requires IsInt32(input.LowerLimit()) && IsInt32(output.LowerLimit())
    ensures MapInt(input.LowerLimit(), input, output) == output.LowerLimit()
  {
    assert Wrap32(input.LowerLimit() - input.LowerLimit()) == 0;
    assert 0 * Width(output) == 0;
    if Width(input) != 0 {
      TruncDivOfMultiple(0, Width(input));
    }
  }

  /** The upper limit maps onto the upper limit when neither width
      overflows. */
  lemma MapIntUpperLimit(input: IntRange, output: IntRange)
    requires Proper(input) && Proper(output)
    ensures MapInt(input.UpperLimit(), input, output) == output.UpperLimit()
  {
    var inW, outW := Width(input), Width(output);
    assert Wrap32(input.UpperLimit() - input.LowerLimit()) == inW;
    assert inW * outW == outW * inW;
    TruncDivOfMultiple(outW, inW);
  }

  /** Mapping a range onto itself changes nothing inside it. */
  lemma MapIntIdentity(v: int, r: IntRange)
    requires Proper(r) && r.LowerLimit() <= v <= r.UpperLimit()
    ensures MapInt(v, r, r) == v
  {
    var d := v - r.LowerLimit();
    assert Wrap32(d) == d;
    TruncDivOfMultiple(d, Width(r));
  }

  /** Inside a proper hardware range nothing wraps or saturates: the
      result is the standard lower limit plus the floor of the scaled
      offset. */
  lemma MapIntInside(v: int, input: IntRange, output: IntRange)
    requires Proper(input) && Proper(output) && input.LowerLimit() <= v <= input.UpperLimit()
    ensures var d := v - input.LowerLimit();
      0 <= (d * Width(output)) / Width(input) <= Width(output) &&
      MapInt(v, input, output) == output.LowerLimit() + (d * Width(output)) / Width(input)
  {
    var inW, outW := Width(input), Width(output);
    var d := v - input.LowerLimit();
    assert Wrap32(d) == d;
    var n := d * outW;
    MulMonotone(0, d, outW);
    MulMonotone(d, inW, outW);
    DivMonotone(0, n, inW);
    DivMonotone(n, inW * outW, inW);
    assert inW * outW == outW * inW;
    DivOfMultiple(outW, inW);
    assert CastQuotient(n, inW) == n / inW;
  }

  /** A value inside a proper hardware range lands inside the standard
      range. */
  lemma MapIntWithin(v: int, input: IntRange, output: IntRange)
    requires Proper(input) && Proper(output) && input.LowerLimit() <= v <= input.UpperLimit()
    ensures output.LowerLimit() <= MapInt(v, input, output) <= output.UpperLimit()
  {
    MapIntInside(v, input, output);
  }

  /** Normalisation keeps the order of readings. */
  lemma MapIntMonotone(v: int, w: int, input: IntRange, output: IntRange)
    requires Proper(input) && Proper(output) && input.LowerLimit() <= v <= w <= input.UpperLimit()
    ensures MapInt(v, input, output) <= MapInt(w, input, output)
  {
    var inW, outW := Width(input), Width(output);
    var dv, dw := v - input.LowerLimit(), w - input.LowerLimit();
    MapIntInside(v, input, output);
    MapIntInside(w, input, output);
    MulMonotone(dv, dw, outW);
    DivMonotone(dv * outW, dw * outW, inW);
  }

  /** `mapValue(int[], RangeOfValues<Integer>, RangeOfValues<Integer>)`: a
      new array with every element mapped as the scalar overload maps it. */
  function MappedInts(values: seq<int>, input: IntRange, output: IntRange): (r: seq<int>)
    ensures |r| == |values|
  {
    seq(|values|, i requires 0 <= i < |values| => MapInt(values[i], input, output))
  }

  /** The loop of the array overload. */
  method MapInts(values: seq<int>, input: IntRange, output: IntRange) returns (r: seq<int>)
    ensures r == MappedInts(values, input, output)
  {
    r := [];
    var i := 0;
    while i < |values|
      invariant 0 <= i <= |values|
      invariant r == MappedInts(values[..i], input, output)
    {
      r := r + [MapInt(values[i], input, output)];
      i := i + 1;
    }
    assert values[..i] == values;
  }

  /** Mapping an array of admitted readings lands every element in the
      output range and keeps their order. */
  lemma MappedIntsWithin(values: seq<int>, input: IntRange, output: IntRange)
    requires Proper(input) && Proper(output)
    requires forall i :: 0 <= i < |values| ==> input.LowerLimit() <= values[i] <= input.UpperLimit()
    ensures forall i :: 0 <= i < |values| ==>
              output.LowerLimit() <= MappedInts(values, input, output)[i] <= output.UpperLimit()
    ensures forall i, j :: 0 <= i < |values| && 0 <= j < |values| && values[i] <= values[j] ==>
              MappedInts(values, input, output)[i] <= MappedInts(values, input, output)[j]
  {
    var r := MappedInts(values, input, output);
    forall i | 0 <= i < |values|
      ensures output.LowerLimit() <= r[i] <= output.UpperLimit()
    {
      MapIntWithin(values[i], input, output);
    }
    forall i, j | 0 <= i < |values| && 0 <= j < |values| && values[i] <= values[j]
      ensures r[i] <= r[j]
    {
      MapIntMonotone(values[i], values[j], input, output);
    }
  }

  /** A pulse of 50 from a 0..100 sensor reads 110 on the 20..200 scale,
      and 110 maps back to 50. */
  lemma PulseExample(i: nat, j: nat, k: nat, l: nat)
    ensures MapInt(50, RangeOfValues(BoxInteger(0, i), BoxInteger(100, j)), RangeOfValues(BoxInteger(20, k), BoxInteger(200, l))) == 110
    ensures MapInt(110, RangeOfValues(BoxInteger(20, k), BoxInteger(200, l)), RangeOfValues(BoxInteger(0, i), BoxInteger(100, j))) == 50
  {
    TruncDivOfMultiple(90, 100);
    assert 50 * 180 == 90 * 100;
    TruncDivOfMultiple(50, 180);
    assert 90 * 100 == 50 * 180;
  }

  /** Truncation loses information: 1 on a 0..100 sensor becomes 21 on the
      20..200 scale, which maps back to 0, not 1. */
  lemma MapIntLossy(i: nat, j: nat, k: nat, l: nat)
    ensures var hw, std := RangeOfValues(BoxInteger(0, i), BoxInteger(100, j)), RangeOfValues(BoxInteger(20, k), BoxInteger(200, l));
            MapInt(1, hw, std) == 21 && MapInt(21, std, hw) == 0
  {
    assert TruncDiv(180, 100) == 1;
    assert TruncDiv(100, 180) == 0;
  }

  /** A hardware range of width zero does not throw: every value above its
      limit saturates to `INT_MAX`, and adding the standard lower limit
      then wraps round to a large negative reading. */
  lemma ZeroWidthWrapsRound(v: int, input: IntRange, output: IntRange)
    requires input.LowerLimit() == input.UpperLimit() && IsInt32(input.LowerLimit()) && IsInt32(v)
    requires v > input.LowerLimit() && IsInt32(v - input.LowerLimit())
    requires Proper(output) && output.LowerLimit() > 0
    ensures MapInt(v, input, output) == output.LowerLimit() + INT_MIN - 1
    ensures MapInt(v, input, output) < 0
  {
    var d := v - input.LowerLimit();
    assert Wrap32(d) == d && d > 0;
    assert Width(input) == 0;
    assert d * Width(output) > 0;
  }

  // ---------------------------------------------------------------------
  // Float ranges

  /** `mapValue(float, ...)`, the `Float[]` overload and the float helpers
      compute `outLL + (v - inLL) * outW / inW` in single precision; the
      model takes that computation as a parameter. */
  type FloatArith = (real, FloatRange, FloatRange) -> real

  /** `d * outW / inW` in exact arithmetic. */
  function Scaled(d: real, outW: real, inW: real): real
    requires inW != 0.0
  {
    d * outW / inW
  }

  /** The rescaling in exact arithmetic, defined where the float result is
      finite for every `v`: when the input range is not empty. */
  function ExactMap(v: real, input: FloatRange, output: FloatRange): real
    requires input.UpperLimit() != input.LowerLimit()
  {
    output.LowerLimit() + Scaled(v - input.LowerLimit(), output.UpperLimit() - output.LowerLimit(), input.UpperLimit() - input.LowerLimit())
  }

  /** An arithmetic that agrees with exact arithmetic wherever the latter
      is defined: the idealisation under which the float properties hold. */
  ghost predicate Exact(mapFloat: FloatArith) {
    forall v, input: FloatRange, output: FloatRange {:trigger mapFloat(v, input, output)} ::
      input.UpperLimit() != input.LowerLimit() ==> mapFloat(v, input, output) == ExactMap(v, input, output)
  }

  /** In exact arithmetic the rescaling sends the hardware limits onto the
      standard limits, is the identity from a range onto itself, and keeps
      values of an ordered range inside the target range. */
  lemma ExactMapLimits(v: real, input: FloatRange, output: FloatRange)
    requires input.LowerLimit() < input.UpperLimit()
    ensures ExactMap(input.LowerLimit(), input, output) == output.LowerLimit()
    ensures ExactMap(input.UpperLimit(), input, output) == output.UpperLimit()
    ensures ExactMap(v, input, input) == v
    ensures output.LowerLimit() <= output.UpperLimit() && input.LowerLimit() <= v <= input.UpperLimit() ==>
              output.LowerLimit() <= ExactMap(v, input, output) <= output.UpperLimit()
  {
    var inW, outW := input.UpperLimit() - input.LowerLimit(), output.UpperLimit() - output.LowerLimit();
    var d := v - input.LowerLimit();
    ScaledCancels(d, inW);
    ScaledCancels(outW, inW);
    assert Scaled(0.0, outW, inW) == 0.0;
    if output.LowerLimit() <= output.UpperLimit() && 0.0 <= d <= inW {
      ScaledBounds(d, outW, inW);
    }
  }

  lemma ScaledBounds(d: real, outW: real, inW: real)
    requires 0.0 <= d <= inW && 0.0 < inW && 0.0 <= outW
    ensures 0.0 <= Scaled(d, outW, inW) <= outW
  {
    assert 0.0 <= d * outW <= inW * outW by {
      assert inW * outW - d * outW == (inW - d) * outW;
    }
    var t := d * outW / inW;
    assert t * inW == d * outW;
    if t > outW {
      assert t * inW > outW * inW;
    }
  }

  lemma ScaledCancels(x: real, y: real)
    requires y != 0.0
    ensures Scaled(x, y, y) == x && Scaled(y, x, y) == x
  {
  }

  /** The `Float[]` overload: maps every sample; unboxing a null sample
      throws `NullPointerException`. */
  function MappedSamples(values: seq<Option<real>>, input: FloatRange, output: FloatRange, mapFloat: FloatArith): (r: Result<seq<Option<real>>>)
    ensures r.Err? <==> exists i :: 0 <= i < |values| && values[i].None?
    ensures r.Err? ==> r.error == NullPointer
    ensures r.Ok? ==> |r.value| == |values|
    ensures r.Ok? ==> forall i :: 0 <= i < |values| ==> r.value[i] == Some(mapFloat(values[i].value, input, output))
  {
    if exists i :: 0 <= i < |values| && values[i].None? then Err(NullPointer)
    else Ok(seq(|values|, i requires 0 <= i < |values| => Some(mapFloat(values[i].value, input, output))))
  }

  /** The loop of the `Float[]` overload, sample by sample. */
  method MapSamples(values: seq<Option<real>>, input: FloatRange, output: FloatRange, mapFloat: FloatArith)
    returns (r: Result<seq<Option<real>>>)
    ensures r == MappedSamples(values, input, output, mapFloat)
  {
    var mapped: seq<Option<real>> := [];
    var i := 0;
    while i < |values|
      invariant 0 <= i <= |values|
      invariant |mapped| == i
      invariant forall j :: 0 <= j < i ==> values[j].Some? && mapped[j] == Some(mapFloat(values[j].value, input, output))
    {
      if values[i].None? {
        return Err(NullPointer);
      }
      mapped := mapped + [Some(mapFloat(values[i].value, input, output))];
      i := i + 1;
    }
    assert mapped == seq(|values|, j requires 0 <= j < |values| => Some(mapFloat(values[j].value, input, output)));
    r := Ok(mapped);
  }
}

=== FILE: queries.dfy ===
/** Single-sensor queries and metadata (`AALayerI.getTemperature`, ...,
    `getMetadata`, `extractMetada`): one request, one answer, no retry and
    no fragment selection — the text after the first `sensorId +
    dataDelimiter` is handed to the extractor as it stands. */
module Queries {
  import opened Lang
  import opened Sensor
  import opened DataRanges
  import opened Readings
  import opened Text
  import opened Extraction
  import opened Requests
  import opened Assurance

  /** `getTemperature`, `getBloodPressure`, `getPulseRate`, `getOximeter`
      and `getGSR` of `AALayerI`, for sensor `kind`: send the sensor's start
      byte, split the answer on `sensorId + dataDelimiter` and extract the
      second piece, if there is one. The extractors of single-valued
      sensors ignore `multiValueDelimiter`. */
  function Query(kind: int, sensorId: string, dataDelimiter: string, multiValueDelimiter: string, timeout: int,
                 hw: SensorDataRange, parseFloat: FloatParser, port: DiscretePort): (r: Result<Option<Reading>>)
    requires IsDiscrete(kind)
    ensures r.Err? <==> port(StartByte(kind), timeout, 0).None?
    ensures r.Err? ==> r.error == NoDeviceConnected
    ensures r.Ok? && r.value.Some? ==> r.value.value.SensorId() == kind
    ensures r.Ok? && |JavaSplit(port(StartByte(kind), timeout, 0).value, sensorId + dataDelimiter)| <= 1 ==> r.value.None?
  {
    match port(StartByte(kind), timeout, 0)
    case None => Err(NoDeviceConnected)
    case Some(line) =>
      var parts := JavaSplit(line, sensorId + dataDelimiter);
      if |parts| > 1 then Ok(Extract(kind, parts[1], multiValueDelimiter, hw, parseFloat)) else Ok(None)
  }

  /** An answer `prefix + sensorId + dataDelimiter + text`, in which that
      marker first occurs after `prefix` and never in `text`, yields what
      `text` extracts to. */
  lemma QueryRoundTrip(kind: int, sensorId: string, dataDelimiter: string, multiValueDelimiter: string, timeout: int,
                       hw: SensorDataRange, parseFloat: FloatParser, port: DiscretePort, prefix: string, text: string)
    requires IsDiscrete(kind)
    requires |sensorId + dataDelimiter| > 0 && text != "" && Free(text, sensorId + dataDelimiter)
    requires forall j :: 0 <= j < |prefix| ==> !OccursAt(prefix + (sensorId + dataDelimiter) + text, sensorId + dataDelimiter, j)
    requires port(StartByte(kind), timeout, 0) == Some(prefix + (sensorId + dataDelimiter) + text)
    ensures Query(kind, sensorId, dataDelimiter, multiValueDelimiter, timeout, hw, parseFloat, port)
            == Ok(Extract(kind, text, multiValueDelimiter, hw, parseFloat))
  {
    SplitAround(prefix, sensorId + dataDelimiter, text);
  }

  /** A pulse rate answered as `P@50` reads back as 50 when the range admits
      it. */
  lemma PulseQueryExample(hw: SensorDataRange, parseFloat: FloatParser, port: DiscretePort, timeout: int)
    requires AdmitsInt(hw.pulseRate, 50)
    requires port(StartByte(PULSE_RATE), timeout, 0) == Some("P@50")
    ensures Query(PULSE_RATE, "P", "@", "%", timeout, hw, parseFloat, port) == Ok(Some(PulseRateReading(PulseRate(50))))
  {
    assert "P@50" == "" + ("P" + "@") + "50";
    assert ShowInt(50) == "50";
    var marker := "P" + "@";
    assert marker == "P@";
    forall j ensures !OccursAt("50", marker, j) {
      if 0 <= j && j + 2 <= 2 {
        assert "50"[j..j + 2] == "50";
      }
    }
    QueryRoundTrip(PULSE_RATE, "P", "@", "%", timeout, hw, parseFloat, port, "", "50");
    PulseRateRoundTrip(50, hw);
  }

  // ---------------------------------------------------------------------
  // Metadata

  /** The caller's `HashMap<String, String>` as its entries in iteration
      order. */
  type Entries = seq<(string, string)>

  /** `extractMetada`: when the answer splits on `delimiter` into exactly as
      many values as there are entries, the i-th entry takes the i-th value
      and the result is `true`; otherwise nothing changes. */
  function ExtractMetadata(response: string, delimiter: string, entries: Entries): (r: (bool, Entries))
    ensures |r.1| == |entries| && forall i :: 0 <= i < |entries| ==> r.1[i].0 == entries[i].0
    ensures r.0 <==> |JavaSplit(response, delimiter)| == |entries|
    ensures r.0 ==> forall i :: 0 <= i < |entries| ==> r.1[i].1 == JavaSplit(response, delimiter)[i]
    ensures !r.0 ==> r.1 == entries
  {
    var values := JavaSplit(response, delimiter);
    if |values| == |entries| then (true, seq(|entries|, i requires 0 <= i < |entries| => (entries[i].0, values[i])))
    else (false, entries)
  }

  /** Values sent joined by `c`, none containing it and the last not empty,
      fill the entries in order. */
  lemma ExtractMetadataRoundTrip(values: seq<string>, c: char, entries: Entries)
    requires |values| == |entries| >= 1 && values[|values| - 1] != ""
    requires forall k :: 0 <= k < |values| ==> c !in values[k]
    ensures ExtractMetadata(Join(values, [c]), [c], entries)
            == (true, seq(|entries|, i requires 0 <= i < |entries| => (entries[i].0, values[i])))
  {
    SplitJoin(values, c);
  }

  /** `AALayerI.getMetadata`: request the sensor's metadata (bit 7 and the
      sensor's bit) and, if the answer carries the marker, fill the entries.
      An answer that does not fit leaves them as they were; there is no
      second attempt. */
  function GetMetadata(sensorNum: int, entries: Entries, sensorId: string, dataDelimiter: string, multiValueDelimiter: string,
                       timeout: int, port: DiscretePort): (r: Result<Entries>)
    ensures r.Err? <==> port(MetadataByte(sensorNum), timeout, 0).None?
    ensures r.Err? ==> r.error == NoDeviceConnected
    ensures r.Ok? ==> |r.value| == |entries| && forall i :: 0 <= i < |entries| ==> r.value[i].0 == entries[i].0
  {
    match port(MetadataByte(sensorNum), timeout, 0)
    case None => Err(NoDeviceConnected)
    case Some(line) =>
      var parts := JavaSplit(line, sensorId + dataDelimiter);
      if |parts| > 1 then Ok(ExtractMetadata(parts[1], multiValueDelimiter, entries).1) else Ok(entries)
  }

  /** A metadata answer `prefix + marker + values joined by c` fills the
      entries with the values. */
  lemma GetMetadataRoundTrip(sensorNum: int, entries: Entries, sensorId: string, dataDelimiter: string, c: char,
                             timeout: int, port: DiscretePort, prefix: string, values: seq<string>)
    requires |sensorId + dataDelimiter| > 0
    requires |values| == |entries| >= 1 && values[|values| - 1] != ""
    requires forall k :: 0 <= k < |values| ==> c !in values[k]
    requires Free(Join(values, [c]), sensorId + dataDelimiter)
    requires forall j :: 0 <= j < |prefix| ==> !OccursAt(prefix + (sensorId + dataDelimiter) + Join(values, [c]), sensorId + dataDelimiter, j)
    requires port(MetadataByte(sensorNum), timeout, 0) == Some(prefix + (sensorId + dataDelimiter) + Join(values, [c]))
    ensures GetMetadata(sensorNum, entries, sensorId, dataDelimiter, [c], timeout, port)
            == Ok(seq(|entries|, i requires 0 <= i < |entries| => (entries[i].0, values[i])))
  {
    JoinContains(values, [c], |values| - 1, values[|values| - 1][0]);
    SplitAround(prefix, sensorId + dataDelimiter, Join(values, [c]));
    ExtractMetadataRoundTrip(values, c, entries);
  }
}

=== FILE: range_of_values.dfy ===
/** `RangeOfValues<T>`: a pair of boxed limits. Its `equals` compares the two
    limit objects with `==`, so it tests object identity, not numeric
    equality; the model therefore keeps the identity of every boxed limit. */
module Ranges {

  /** Identity of a boxed `Integer` or `Float`. `Integer.valueOf` hands out
      one shared object per value in -128..127 (`Cached`); every other
      boxing allocates a new object, told apart by an allocation number. */
  datatype Ref = Cached(v: int) | Fresh(id: nat)

  /** A boxed number: the object's identity and the number it holds. */
  datatype Boxed<T> = Boxed(ref: Ref, value: T)

  /** Autoboxing of an `int` (`Integer.valueOf`); `id` numbers the object in
      case a new one is allocated. */
  function BoxInteger(v: int, id: nat): (b: Boxed<int>)
    ensures b.value == v
    ensures b.ref.Cached? <==> -128 <= v <= 127
    ensures b.ref.Cached? ==> b.ref.v == v
  {
    if -128 <= v <= 127 then Boxed(Cached(v), v) else Boxed(Fresh(id), v)
  }

  /** Autoboxing of a `float` (`Float.valueOf`), which always allocates. */
  function BoxFloat(v: real, id: nat): (b: Boxed<real>)
    ensures b.value == v && b.ref == Fresh(id)
  {
    Boxed(Fresh(id), v)
  }

  /** A closed range. The constructor stores both limits as given and does
      not check their order; the setters are datatype updates of `lower`
      and `upper`. */
  datatype RangeOfValues<T> = RangeOfValues(lower: Boxed<T>, upper: Boxed<T>) {

    function LowerLimit(): T {
      lower.value
    }

    function UpperLimit(): T {
      upper.value
    }

    /** `equals`: both limits are the same objects. */
    predicate Equals(other: RangeOfValues<T>) {
      lower.ref == other.lower.ref && upper.ref == other.upper.ref
    }
  }

  type IntRange = RangeOfValues<int>
  type FloatRange = RangeOfValues<real>

  /** Numeric equality of the limits: what `equals` is meant to decide. */
  predicate SameLimits<T(==)>(a: RangeOfValues<T>, b: RangeOfValues<T>) {
    a.lower.value == b.lower.value && a.upper.value == b.upper.value
  }

  /** One object holds one number: boxes with the same identity agree. */
  predicate Coherent<T(==)>(x: Boxed<T>, y: Boxed<T>) {
    x.ref == y.ref ==> x.value == y.value
  }

  /** `equals` is reflexive, and ranges built from the same limit objects are
      equal. */
  lemma EqualsSharedLimits<T>(a: RangeOfValues<T>, b: RangeOfValues<T>)
    requires a.lower.ref == b.lower.ref && a.upper.ref == b.upper.ref
    ensures a.Equals(b) && a.Equals(a)
  {
  }

  /** On a coherent heap, `equals` implies numerically equal limits. */
  lemma EqualsImpliesSameLimits<T>(a: RangeOfValues<T>, b: RangeOfValues<T>)
    requires Coherent(a.lower, b.lower) && Coherent(a.upper, b.upper)
    requires a.Equals(b)
    ensures SameLimits(a, b)
  {
  }

  /** The converse fails: two ranges boxed separately from the same floats
      are not `equals`. */
  lemma SeparatelyBoxedFloatsDiffer(lo: real, hi: real, i: nat, j: nat, k: nat, l: nat)
    requires i != k
    ensures SameLimits(RangeOfValues(BoxFloat(lo, i), BoxFloat(hi, j)), RangeOfValues(BoxFloat(lo, k), BoxFloat(hi, l)))
    ensures !RangeOfValues(BoxFloat(lo, i), BoxFloat(hi, j)).Equals(RangeOfValues(BoxFloat(lo, k), BoxFloat(hi, l)))
  {
  }

  /** Integer ranges behave differently: the result of `equals` on two
      separately built ranges with the same limits depends on whether the
      limits fall in the `Integer` cache. */
  lemma IntegerCacheDecidesEquals(lo: int, hi: int, i: nat, j: nat, k: nat, l: nat)
    requires i != k && j != l
    ensures RangeOfValues(BoxInteger(lo, i), BoxInteger(hi, j)).Equals(RangeOfValues(BoxInteger(lo, k), BoxInteger(hi, l)))
        <==> -128 <= lo <= 127 && -128 <= hi <= 127
  {
  }
}

=== FILE: requests.dfy ===
/** Request bytes (`generateRequestByte` and the metadata request): bit `i`
    asks for sensor `i`, bit 7 asks for metadata instead of data. */
module Requests {
  import opened Lang
  import opened Sensor

  /** `b | c` has a bit set when either operand has it. */
  lemma HasBitOr(b: Byte, c: Byte, k: nat)
    requires k < 8
    ensures HasBit(b | c, k) <==> HasBit(b, k) || HasBit(c, k)
  {
  }

  /** A byte with no bit set is zero. */
  lemma NoBitIsZero(b: Byte)
    requires forall k :: 0 <= k < 8 ==> !HasBit(b, k)
    ensures b == 0
  {
    assert !HasBit(b, 0) && !HasBit(b, 1) && !HasBit(b, 2) && !HasBit(b, 3);
    assert !HasBit(b, 4) && !HasBit(b, 5) && !HasBit(b, 6) && !HasBit(b, 7);
  }

  /** The loop of `generateRequestByte(boolean[])` after its first `i`
      iterations: `request = (byte) (request | (1 << k))` for each
      requested `k < i`. */
  function RequestBits(req: Flags, i: nat): (b: Byte)
    requires i <= NUM_DISCRETE
    ensures forall k :: 0 <= k < 8 ==> (HasBit(b, k) <==> k < i && req[k])
    decreases i
  {
    if i == 0 then 0
    else
      var prev := RequestBits(req, i - 1);
      var bit := if req[i - 1] then ShiftedBit(i - 1) else 0;
      AddBit(prev, bit, req, i);
      prev | bit
  }

  /** One iteration of the loop sets the bit of sensor `i - 1` if requested. */
  lemma AddBit(prev: Byte, bit: Byte, req: Flags, i: nat)
    requires 1 <= i <= NUM_DISCRETE
    requires bit == if req[i - 1] then ShiftedBit(i - 1) else 0
    requires forall k :: 0 <= k < 8 ==> (HasBit(prev, k) <==> k < i - 1 && req[k])
    ensures forall k :: 0 <= k < 8 ==> (HasBit(prev | bit, k) <==> k < i && req[k])
  {
    forall k | 0 <= k < 8
      ensures HasBit(prev | bit, k) <==> k < i && req[k]
    {
      HasBitOr(prev, bit, k);
      if req[i - 1] {
        assert HasBit(bit, k) <==> k == i - 1;
      } else {
        assert !HasBit(bit, k);
      }
    }
  }

  /** `generateRequestByte(boolean[])`: the byte is 0 exactly when nothing
      is requested. */
  function RequestByte(req: Flags): (b: Byte)
    ensures b == 0 <==> forall k :: 0 <= k < NUM_DISCRETE ==> !req[k]
  {
    var b := RequestBits(req, NUM_DISCRETE);
    if forall k :: 0 <= k < NUM_DISCRETE ==> !req[k] then
      NoBitIsZero(b);
      b
    else
      b
  }

  /** Bit `k` of the request byte is set exactly for the requested discrete
      sensors. */
  lemma RequestByteBits(req: Flags)
    ensures forall k :: 0 <= k < 8 ==> (HasBit(RequestByte(req), k) <==> k < NUM_DISCRETE && req[k])
  {
  }

  /** Different flag sets give different request bytes: the device can tell
      exactly what is being asked for. */
  lemma RequestByteInjective(a: Flags, b: Flags)
    requires RequestByte(a) == RequestByte(b)
    ensures a == b
  {
    RequestByteBits(a);
    RequestByteBits(b);
    forall k | 0 <= k < NUM_DISCRETE
      ensures a[k] == b[k]
    {
      assert HasBit(RequestByte(a), k) <==> HasBit(RequestByte(b), k);
    }
  }

  /** `generateRequestByte(int)`: the start byte of a stream. */
  function StartByte(sensorNum: int): Byte {
    ShiftedBit(sensorNum)
  }

  /** The start byte has only the sensor's own bit set, and is 0 once the
      shift distance reaches 8. */
  lemma StartByteBits(sensorNum: int)
    ensures 0 <= sensorNum < 8 ==> forall k :: 0 <= k < 8 ==> (HasBit(StartByte(sensorNum), k) <==> k == sensorNum)
    ensures sensorNum % 32 >= 8 ==> StartByte(sensorNum) == 0
  {
  }

  /** The request of `getMetadata`: bit 7 together with the sensor's bit. */
  function MetadataByte(sensorNum: int): Byte {
    ShiftedBit(7) | ShiftedBit(sensorNum)
  }

  /** The metadata request has bit 7 set, and otherwise only the sensor's
      own bit. */
  lemma MetadataByteBits(sensorNum: int)
    ensures HasBit(MetadataByte(sensorNum), 7)
    ensures 0 <= sensorNum < 8 ==> forall k :: 0 <= k < 8 ==> (HasBit(MetadataByte(sensorNum), k) <==> k == 7 || k == sensorNum)
  {
    var b := MetadataByte(sensorNum);
    forall k | 0 <= k < 8
      ensures HasBit(b, k) <==> HasBit(ShiftedBit(7), k) || HasBit(ShiftedBit(sensorNum), k)
    {
      HasBitOr(ShiftedBit(7), ShiftedBit(sensorNum), k);
    }
  }

  /** Every sensor id has its own bit below the metadata bit, so a data
      request is never mistaken for a metadata request. */
  lemma DataRequestsLackMetadataBit(req: Flags, sensorNum: int)
    requires 0 <= sensorNum < 7
    ensures !HasBit(RequestByte(req), 7)
    ensures !HasBit(StartByte(sensorNum), 7)
  {
    RequestByteBits(req);
    StartByteBits(sensorNum);
  }
}

=== FILE: sensor.dfy ===
/** Sensor identifiers: discrete sensors first, then the continuous ones.
    An identifier doubles as the bit index in a request byte. */
module Sensor {
  import opened Lang

  const TEMPERATURE: int := 0
  const BLOOD_PRESSURE: int := 1
  const PULSE_RATE: int := 2
  const OXIMETER: int := 3
  const GSR: int := 4
  const ECG: int := 5

  /** Number of discrete sensors; the length of every per-sensor flag array. */
  const NUM_DISCRETE: int := 5

  /** The identifiers of all sensors the library knows. */
  const ALL_SENSORS: seq<int> := [TEMPERATURE, BLOOD_PRESSURE, PULSE_RATE, OXIMETER, GSR, ECG]

  predicate IsDiscrete(id: int) {
    0 <= id < NUM_DISCRETE
  }

  /** A `boolean[NUM_DISCRETE]`: one flag per discrete sensor, indexed by id. */
  type Flags = f: seq<bool> | |f| == NUM_DISCRETE witness [false, false, false, false, false]

  const NO_FLAGS: Flags := [false, false, false, false, false]

  /** Display name of a sensor; `None` (Java `null`) for an unknown id. */
  function SensorName(id: int): (r: Option<string>)
    ensures r.Some? <==> id in ALL_SENSORS
  {
    if id == 0 then Some("Temperature")
    else if id == 1 then Some("Blood Pressure")
    else if id == 2 then Some("Pulse Rate")
    else if id == 3 then Some("Oximeter")
    else if id == 4 then Some("GSR")
    else if id == 5 then Some("ECG")
    else None
  }

  /** Different sensors have different names, so a name identifies its sensor. */
  lemma SensorNameInjective(a: int, b: int)
    requires SensorName(a).Some? && SensorName(a) == SensorName(b)
    ensures a == b
  {
  }

  /** The identifiers are distinct, the discrete ones are exactly the ids
      below NUM_DISCRETE and precede ECG, and every id is a valid bit index
      of a request byte. */
  lemma SensorIdLayout()
    ensures forall i, j :: 0 <= i < j < |ALL_SENSORS| ==> ALL_SENSORS[i] < ALL_SENSORS[j]
    ensures forall id :: id in ALL_SENSORS ==> (IsDiscrete(id) <==> id < ECG)
    ensures forall id :: id in ALL_SENSORS ==> 0 <= id < 8
    ensures ECG == NUM_DISCRETE
  {
  }
}

=== FILE: sensor_continuous.dfy ===
/** `SensorContinuous<T>` and `ECG`: a fixed buffer of nullable samples and
    a `length` field that says how many of them are meant to be used. The
    two can disagree once `setLength` has been called. */
module Buffers {
  import opened Lang

  datatype SensorContinuous<T> = SensorContinuous(valueArray: seq<Option<T>>, length: int)

  /** A single-lead ECG stream of float samples. */
  type ECG = SensorContinuous<real>

  function Min(a: int, b: int): int {
    if a < b then a else b
  }

  /** The constructor: a buffer of `len` null slots; a negative length
      cannot be allocated. */
  function NewSensorContinuous<T>(len: int): (r: Result<SensorContinuous<T>>)
    ensures r.Ok? <==> len >= 0
    ensures r.Err? ==> r.error == NegativeArraySize
    ensures r.Ok? ==> r.value.length == len && |r.value.valueArray| == len
    ensures r.Ok? ==> forall i :: 0 <= i < len ==> r.value.valueArray[i].None?
  {
    if len < 0 then Err(NegativeArraySize) else Ok(SensorContinuous(seq(len, _ => None), len))
  }

  /** The outcome of `setValueArray`: the buffer after the copy, and the
      exception it ended with, if any. */
  datatype Copied<T> = Copied(buffer: SensorContinuous<T>, thrown: Option<Exception>)

  /** `setValueArray`: copies `a[i]` into slot `i` for every `i` below both
      `length` and `|a|`. If that runs past the end of the buffer, the copy
      stops there with an `ArrayIndexOutOfBoundsException`, keeping the
      slots already written. */
  function SetValueArray<T>(sc: SensorContinuous<T>, a: seq<Option<T>>): (r: Copied<T>)
    ensures r.buffer.length == sc.length && |r.buffer.valueArray| == |sc.valueArray|
    ensures r.thrown.Some? <==> Min(sc.length, |a|) > |sc.valueArray|
    ensures r.thrown.Some? ==> r.thrown.value == IndexOutOfBounds
    ensures forall i :: 0 <= i < |sc.valueArray| ==>
              r.buffer.valueArray[i] == if i < sc.length && i < |a| then a[i] else sc.valueArray[i]
  {
    var n := Min(sc.length, |a|);
    var k := if n < 0 then 0 else Min(n, |sc.valueArray|);
    Copied(sc.(valueArray := a[..k] + sc.valueArray[k..]), if n > |sc.valueArray| then Some(IndexOutOfBounds) else None)
  }

  /** `setLength`: changes the count only; the buffer keeps its size. */
  function SetLength<T>(sc: SensorContinuous<T>, length: int): (r: SensorContinuous<T>)
    ensures r.length == length && r.valueArray == sc.valueArray
  {
    sc.(length := length)
  }

  /** `ECG(int)`. */
  function NewECG(length: int): (r: Result<ECG>)
    ensures r.Ok? <==> length >= 0
    ensures r.Ok? ==> r.value.length == length && r.value.valueArray == seq(length, _ => None)
  {
    NewSensorContinuous(length)
  }

  /** `ECG(SensorContinuous<Float>)`: a fresh buffer of `sc.length` slots
      holding a copy of the first `sc.length` samples of `sc`. */
  function ECGFrom(sc: SensorContinuous<real>): (r: Result<ECG>)
    ensures r.Ok? <==> sc.length >= 0
    ensures r.Err? ==> r.error == NegativeArraySize
    ensures r.Ok? ==> r.value.length == sc.length && |r.value.valueArray| == sc.length
    ensures r.Ok? ==> forall i :: 0 <= i < sc.length ==>
              r.value.valueArray[i] == if i < |sc.valueArray| then sc.valueArray[i] else None
  {
    match NewECG(sc.length)
    case Err(e) => Err(e)
    case Ok(e) => Ok(SetValueArray(e, sc.valueArray).buffer)
  }

  /** Copying into a buffer whose length and size match the source yields
      exactly the source, without an exception. */
  lemma SetValueArrayExact<T>(sc: SensorContinuous<T>, a: seq<Option<T>>)
    requires sc.length == |a| == |sc.valueArray|
    ensures SetValueArray(sc, a) == Copied(sc.(valueArray := a), None)
  {
    assert SetValueArray(sc, a).buffer.valueArray == a;
  }

  /** Copying the same array twice changes nothing the first copy did not. */
  lemma SetValueArrayIdempotent<T>(sc: SensorContinuous<T>, a: seq<Option<T>>)
    ensures SetValueArray(SetValueArray(sc, a).buffer, a).buffer == SetValueArray(sc, a).buffer
  {
    var once := SetValueArray(sc, a).buffer;
    var twice := SetValueArray(once, a).buffer;
    assert twice.valueArray == once.valueArray;
  }

  /** An ECG copied from a stream with a consistent buffer reads back the
      same samples: the copy constructor is the identity on such streams. */
  lemma ECGFromRoundTrip(sc: SensorContinuous<real>)
    requires sc.length == |sc.valueArray|
    ensures ECGFrom(sc) == Ok(sc)
  {
    assert ECGFrom(sc).value.valueArray == sc.valueArray;
  }
}

=== FILE: sensor_data.dfy ===
/** `SensorData`: the readings collected for the discrete sensors, together
    with one "collected" flag per sensor. The five value classes are plain
    records; a slot holds `None` when a setter was handed `null`. */
module Readings {
  import opened Lang
  import opened Sensor

  datatype Temperature = Temperature(value: real)
  datatype BloodPressure = BloodPressure(systolic: int, diastolic: int)
  datatype PulseRate = PulseRate(value: int)
  datatype Oximeter = Oximeter(value: real)
  datatype GSR = GSR(conductance: real, resistance: real)

  /** The reading of one discrete sensor. */
  datatype Reading =
    | TemperatureReading(temperature: Temperature)
    | BloodPressureReading(bloodPressure: BloodPressure)
    | PulseRateReading(pulseRate: PulseRate)
    | OximeterReading(oximeter: Oximeter)
    | GsrReading(gsr: GSR)
  {
    /** The sensor that produces this kind of reading. */
    function SensorId(): (id: int)
      ensures IsDiscrete(id)
    {
      match this
      case TemperatureReading(_) => TEMPERATURE
      case BloodPressureReading(_) => BLOOD_PRESSURE
      case PulseRateReading(_) => PULSE_RATE
      case OximeterReading(_) => OXIMETER
      case GsrReading(_) => Sensor.GSR
    }
  }

  /** A slot may only hold a reading of its own sensor. */
  predicate SlotFits(v: Option<Reading>, sensor: int) {
    v.None? || v.value.SensorId() == sensor
  }

  /** The five reading fields of `SensorData`, indexed by sensor id. */
  type Slots = s: seq<Option<Reading>> | |s| == NUM_DISCRETE && forall i :: 0 <= i < |s| ==> SlotFits(s[i], i)
    witness [None, None, None, None, None]

  datatype SensorData = SensorData(values: Slots, response: Flags) {

    /** `setTemperature`, `setBloodPressure`, ...: store the (possibly null)
        reading and mark the sensor as collected. */
    function Set(sensor: int, v: Option<Reading>): (r: SensorData)
      requires IsDiscrete(sensor) && SlotFits(v, sensor)
      ensures r.response[sensor]
    {
      SensorData(values[sensor := v], response[sensor := true])
    }

    /** `getTemperature`, `getBloodPressure`, ...: the stored reading once the
        sensor is marked collected, `DataNotCollected` before. */
    function Get(sensor: int): (r: Result<Option<Reading>>)
      requires IsDiscrete(sensor)
      ensures r.Ok? <==> response[sensor]
      ensures r.Err? ==> r.error == DataNotCollected
      ensures r.Ok? ==> SlotFits(r.value, sensor)
    {
      if response[sensor] then Ok(values[sensor]) else Err(DataNotCollected)
    }

    /** `getResponse(int)`: the flag of a discrete sensor; any other id is
        rejected. */
    function GetResponse(sensor: int): (r: Result<bool>)
      ensures r.Ok? <==> IsDiscrete(sensor)
      ensures r.Err? ==> r.error == SensorNotDefined
      ensures r.Ok? ==> (r.value <==> Get(sensor).Ok?)
    {
      if 0 <= sensor < NUM_DISCRETE then Ok(response[sensor]) else Err(SensorNotDefined)
    }
  }

  /** The constructor: nothing collected yet. */
  function NewSensorData(): (sd: SensorData)
    ensures forall i :: IsDiscrete(i) ==> sd.Get(i) == Err(DataNotCollected)
  {
    SensorData([None, None, None, None, None], NO_FLAGS)
  }

  /** A reading that was set is read back unchanged. */
  lemma SetThenGet(sd: SensorData, sensor: int, v: Option<Reading>)
    requires IsDiscrete(sensor) && SlotFits(v, sensor)
    ensures sd.Set(sensor, v).Get(sensor) == Ok(v)
  {
  }

  /** Setting one sensor leaves every other sensor's reading and flag as
      they were. */
  lemma SetFrame(sd: SensorData, sensor: int, v: Option<Reading>, other: int)
    requires IsDiscrete(sensor) && SlotFits(v, sensor)
    requires IsDiscrete(other) && other != sensor
    ensures sd.Set(sensor, v).Get(other) == sd.Get(other)
    ensures sd.Set(sensor, v).response[other] == sd.response[other]
  {
  }

  /** No setter clears a flag: once collected, a sensor stays collected. */
  lemma SetKeepsFlags(sd: SensorData, sensor: int, v: Option<Reading>)
    requires IsDiscrete(sensor) && SlotFits(v, sensor)
    ensures forall i :: 0 <= i < NUM_DISCRETE && sd.response[i] ==> sd.Set(sensor, v).response[i]
  {
  }
}

=== FILE: sensor_data_range.dfy ===
/** `SensorDataRange`: one nullable range per measured quantity. The eight
    fields are the eight arguments of its second constructor, in order; a
    setter is a datatype update of one field. */
module DataRanges {
  import opened Lang
  import opened Ranges

  datatype SensorDataRange = SensorDataRange(
    temperature: Option<FloatRange>,
    systolic: Option<IntRange>,
    diastolic: Option<IntRange>,
    pulseRate: Option<IntRange>,
    oximeter: Option<FloatRange>,
    gsrConductance: Option<FloatRange>,
    gsrResistance: Option<FloatRange>,
    ecg: Option<FloatRange>)

  /** Number of limit objects the no-argument constructor allocates. */
  const DEFAULT_ALLOCATIONS: nat := 8

  /** The no-argument constructor. `alloc` is the first free allocation
      number; the floats it boxes take the next eight numbers. Temperature
      and oximeter share one range object, pulse rate, diastolic and
      systolic share another, and the two GSR ranges are built separately. */
  function DefaultSensorDataRange(alloc: nat): (r: SensorDataRange)
    ensures r.temperature.Some? && r.systolic.Some? && r.diastolic.Some? && r.pulseRate.Some?
    ensures r.oximeter.Some? && r.gsrConductance.Some? && r.gsrResistance.Some? && r.ecg.Some?
    ensures r.oximeter == r.temperature
    ensures r.diastolic == r.pulseRate && r.systolic == r.pulseRate
    ensures r.temperature.value.LowerLimit() == 0.0 && r.temperature.value.UpperLimit() == 100.0
    ensures r.pulseRate.value.LowerLimit() == 0 && r.pulseRate.value.UpperLimit() == 100
    ensures r.ecg.value.LowerLimit() == 1.0 && r.ecg.value.UpperLimit() == 2.0
    ensures SameLimits(r.gsrConductance.value, r.gsrResistance.value)
    ensures r.gsrConductance.value.LowerLimit() == -100000.0 && r.gsrConductance.value.UpperLimit() == 100000.0
    ensures !r.gsrConductance.value.Equals(r.gsrResistance.value)
  {
    var range := RangeOfValues(BoxFloat(0.0, alloc), BoxFloat(100.0, alloc + 1));
    var intrange := RangeOfValues(BoxInteger(0, alloc), BoxInteger(100, alloc));
    SensorDataRange(
      Some(range),
      Some(intrange),
      Some(intrange),
      Some(intrange),
      Some(range),
      Some(RangeOfValues(BoxFloat(-100000.0, alloc + 2), BoxFloat(100000.0, alloc + 3))),
      Some(RangeOfValues(BoxFloat(-100000.0, alloc + 4), BoxFloat(100000.0, alloc + 5))),
      Some(RangeOfValues(BoxFloat(1.0, alloc + 6), BoxFloat(2.0, alloc + 7))))
  }

  /** Every field holds a range. */
  predicate AllPresent(r: SensorDataRange) {
    r.temperature.Some? && r.systolic.Some? && r.diastolic.Some? && r.pulseRate.Some?
    && r.oximeter.Some? && r.gsrConductance.Some? && r.gsrResistance.Some? && r.ecg.Some?
  }

  /** The integer limits of the default ranges come from the `Integer` cache,
      so the default integer range is `equals` to every range boxed from 0
      and 100, while no two default objects built at different allocation
      points have `equals` float ranges. */
  lemma DefaultRangeIdentity(alloc: nat, alloc2: nat, i: nat, j: nat)
    requires alloc != alloc2
    ensures DefaultSensorDataRange(alloc).pulseRate.value.Equals(RangeOfValues(BoxInteger(0, i), BoxInteger(100, j)))
    ensures !DefaultSensorDataRange(alloc).temperature.value.Equals(DefaultSensorDataRange(alloc2).temperature.value)
  {
  }
}

=== FILE: streams.dfy ===
/** Continuous streams (`getIntContinuous`, `getFloatContinuous`, `getECG`):
    one request for a stream of lines, each line parsed and range-checked,
    the valid samples packed, in order, into a new buffer. */
module Streams {
  import opened Lang
  import opened Ranges
  import opened DataRanges
  import opened Text
  import opened Buffers
  import opened StreamConfig
  import opened Extraction
  import opened Requests

  /** The device's stream fetch (`getContinuousPacket`): given the start and
      stop bytes, the stop acknowledgement, the number of lines wanted and
      the timeout, the array of lines read — `None` slots being lines that
      never arrived — or `None` when no device is connected. */
  type StreamPort = (Byte, Byte, string, int, int) -> Option<seq<Option<string>>>

  /** The samples that survive the filter, in arrival order: those that
      parse and that `admits` accepts. */
  function Keep<T>(parsed: seq<Option<T>>, admits: T -> bool): (r: seq<T>)
    ensures |r| <= |parsed|
    ensures forall j :: 0 <= j < |r| ==> admits(r[j])
  {
    if |parsed| == 0 then []
    else
      var init := Keep(parsed[..|parsed| - 1], admits);
      match parsed[|parsed| - 1]
      case Some(v) => if admits(v) then init + [v] else init
      case None => init
  }

  /** A value is kept exactly when some line parses to it and it is
      admitted. */
  lemma {:induction false} KeepMembers<T>(parsed: seq<Option<T>>, admits: T -> bool, x: T)
    ensures x in Keep(parsed, admits) <==> admits(x) && exists i :: 0 <= i < |parsed| && parsed[i] == Some(x)
  {
    if |parsed| > 0 {
      var init := parsed[..|parsed| - 1];
      KeepMembers(init, admits, x);
      if admits(x) && (exists i :: 0 <= i < |parsed| && parsed[i] == Some(x)) {
        var i :| 0 <= i < |parsed| && parsed[i] == Some(x);
        if i < |init| {
          assert init[i] == Some(x);
        }
      }
    }
  }

  /** Reading more lines never loses a sample. */
  lemma {:induction false} KeepGrows<T>(parsed: seq<Option<T>>, admits: T -> bool, i: nat, j: nat)
    requires i <= j <= |parsed|
    ensures var a, b := Keep(parsed[..i], admits), Keep(parsed[..j], admits); |a| <= |b| && a == b[..|a|]
    decreases j - i
  {
    if i < j {
      KeepGrows(parsed, admits, i, j - 1);
      assert parsed[..j][..j - 1] == parsed[..j - 1];
      var a, m, b := Keep(parsed[..i], admits), Keep(parsed[..j - 1], admits), Keep(parsed[..j], admits);
      assert |m| <= |b| && m == b[..|m|];
      assert b[..|m|][..|a|] == b[..|a|];
    }
  }

  /** What the collecting loop delivers: with a range, the kept samples, or
      `ArrayIndexOutOfBoundsException` once more of them arrive than the
      buffer holds; with a null range, `NullPointerException` at the first
      line that parses. */
  function Collected<T>(parsed: seq<Option<T>>, admits: Option<T -> bool>, capacity: nat): (r: Result<seq<T>>)
    ensures admits.None? ==> (r.Err? <==> exists i :: 0 <= i < |parsed| && parsed[i].Some?)
    ensures admits.None? && r.Err? ==> r.error == NullPointer
    ensures admits.Some? ==> (r.Err? <==> |Keep(parsed, admits.value)| > capacity)
    ensures admits.Some? && r.Err? ==> r.error == IndexOutOfBounds
    ensures r.Ok? ==> |r.value| <= capacity && (admits.Some? ==> r.value == Keep(parsed, admits.value))
    ensures r.Ok? && admits.None? ==> r.value == []
  {
    match admits
    case None => if exists i :: 0 <= i < |parsed| && parsed[i].Some? then Err(NullPointer) else Ok([])
    case Some(f) => var kept := Keep(parsed, f); if |kept| <= capacity then Ok(kept) else Err(IndexOutOfBounds)
  }

  /** The loop of `getIntContinuous` and (with null lines skipped) of
      `getFloatContinuous`: `data[dataIndex++] = val` for every valid
      sample. */
  method Collect<T>(parsed: seq<Option<T>>, admits: Option<T -> bool>, capacity: nat) returns (r: Result<seq<T>>)
    ensures r == Collected(parsed, admits, capacity)
  {
    var kept: seq<T> := [];
    var i := 0;
    while i < |parsed|
      invariant 0 <= i <= |parsed|
      invariant admits.None? ==> kept == [] && forall j :: 0 <= j < i ==> parsed[j].None?
      invariant admits.Some? ==> kept == Keep(parsed[..i], admits.value) && |kept| <= capacity
    {
      assert parsed[..i + 1][..i] == parsed[..i];
      if parsed[i].Some? {
        var v := parsed[i].value;
        if admits.None? {
          return Err(NullPointer);
        }
        if admits.value(v) {
          if |kept| == capacity {
            KeepGrows(parsed, admits.value, i + 1, |parsed|);
            assert parsed[..|parsed|] == parsed;
            return Err(IndexOutOfBounds);
          }
          kept := kept + [v];
        }
      }
      i := i + 1;
    }
    assert parsed[..i] == parsed;
    r := Ok(kept);
  }

  /** `Integer.parseInt` on each line; a null line throws
      `NumberFormatException`, which the loop catches like any other. */
  function ParsedInts(lines: seq<Option<string>>): (r: seq<Option<int>>)
    ensures |r| == |lines|
    ensures forall i :: 0 <= i < |lines| ==> r[i] == if lines[i].Some? then ParseInt(lines[i].value) else None
  {
    seq(|lines|, i requires 0 <= i < |lines| => if lines[i].Some? then ParseInt(lines[i].value) else None)
  }

  /** `Float.parseFloat` on each non-null line. */
  function ParsedFloats(lines: seq<Option<string>>, parseFloat: FloatParser): (r: seq<Option<real>>)
    ensures |r| == |lines|
    ensures forall i :: 0 <= i < |lines| ==> r[i] == if lines[i].Some? then parseFloat(lines[i].value) else None
  {
    seq(|lines|, i requires 0 <= i < |lines| => if lines[i].Some? then parseFloat(lines[i].value) else None)
  }

  function IntAdmits(range: Option<IntRange>): Option<int -> bool> {
    if range.None? then None else Some(v => IsValidInt(v, range.value))
  }

  function FloatAdmits(range: Option<FloatRange>): Option<real -> bool> {
    if range.None? then None else Some(v => IsValidFloat(v, range.value))
  }

  /** The index of the first null line, or `|lines|` if there is none. */
  function FirstNull(lines: seq<Option<string>>): (n: nat)
    ensures n <= |lines|
    ensures forall i :: 0 <= i < n ==> lines[i].Some?
    ensures n < |lines| ==> lines[n].None?
  {
    if |lines| == 0 then 0
    else if lines[0].None? then 0
    else 1 + FirstNull(lines[1..])
  }

  /** The float loop as written: `Float.parseFloat(null)` throws
      `NullPointerException`, which the `catch (NumberFormatException)` does
      not catch, so the first null line ends the fetch — unless something
      before it already has. */
  function CollectedFloatsAsWritten(lines: seq<Option<string>>, range: Option<FloatRange>, parseFloat: FloatParser, capacity: nat): (r: Result<seq<real>>)
    ensures (forall i :: 0 <= i < |lines| ==> lines[i].Some?) ==>
              r == Collected(ParsedFloats(lines, parseFloat), FloatAdmits(range), capacity)
    ensures r.Ok? ==> r == Collected(ParsedFloats(lines, parseFloat), FloatAdmits(range), capacity)
    ensures r == Err(NullPointer) ==> range.None? || exists i :: 0 <= i < |lines| && lines[i].None?
  {
    var n := FirstNull(lines);
    var parsed := ParsedFloats(lines, parseFloat);
    assert parsed[..n] == ParsedFloats(lines[..n], parseFloat);
    match Collected(parsed[..n], FloatAdmits(range), capacity)
    case Err(e) => Err(e)
    case Ok(kept) =>
      if n < |lines| then Err(NullPointer)
      else
        assert parsed[..n] == parsed;
        Ok(kept)
  }

  /** The float loop as written, line by line. */
  method CollectFloatsAsWritten(lines: seq<Option<string>>, range: Option<FloatRange>, parseFloat: FloatParser, capacity: nat)
    returns (r: Result<seq<real>>)
    ensures r == CollectedFloatsAsWritten(lines, range, parseFloat, capacity)
  {
    var n := FirstNull(lines);
    var parsed := ParsedFloats(lines, parseFloat);
    r := Collect(parsed[..n], FloatAdmits(range), capacity);
    if r.Ok? && n < |lines| {
      r := Err(NullPointer);
    }
    assert n == |lines| ==> parsed[..n] == parsed;
  }

  /** A buffer whose length and size are those of `kept` and whose slots
      hold its samples. */
  ghost predicate Holds<T>(sc: SensorContinuous<T>, kept: seq<T>) {
    sc.length == |sc.valueArray| == |kept| && forall i :: 0 <= i < |kept| ==> sc.valueArray[i] == Some(kept[i])
  }

  /** A fresh buffer holding `kept`: `new SensorContinuous(dataIndex)`
      followed by `setValueArray(data)`, where `data` has `capacity` slots
      and `kept` in front. */
  function Packed<T>(kept: seq<T>, capacity: nat): (r: SensorContinuous<T>)
    requires |kept| <= capacity
    ensures Holds(r, kept)
  {
    var data := seq(capacity, i requires 0 <= i < capacity => if i < |kept| then Some(kept[i]) else None);
    var empty := SensorContinuous(seq(|kept|, _ => None), |kept|);
    assert NewSensorContinuous<T>(|kept|) == Ok(empty);
    SetValueArray(empty, data).buffer
  }

  /** The steps shared by both stream fetches, up to the device call: the
      effective length must be non-zero and allocatable. */
  function Fetch(c: ContinuousStreamInfo, port: StreamPort): (r: Result<(nat, seq<Option<string>>)>)
    ensures c.EffectiveLength() == 0 <==> r == Err(DataNotCollected)
    ensures c.EffectiveLength() < 0 ==> r == Err(NegativeArraySize)
    ensures c.EffectiveLength() > 0 ==>
              r == match port(StartByte(c.sensorNum), c.stop, [c.stopAck], c.EffectiveLength(), c.timeout)
                   case None => Err(NoDeviceConnected)
                   case Some(lines) => Ok((c.EffectiveLength(), lines))
    ensures r.Ok? ==> r.value.0 == c.EffectiveLength() > 0
  {
    var length := c.EffectiveLength();
    if length == 0 then Err(DataNotCollected)
    else if length < 0 then Err(NegativeArraySize)
    else match port(StartByte(c.sensorNum), c.stop, [c.stopAck], length, c.timeout)
      case None => Err(NoDeviceConnected)
      case Some(lines) => Ok((length, lines))
  }

  /** `getIntContinuous`. */
  function GetIntContinuous(c: ContinuousStreamInfo, range: Option<IntRange>, port: StreamPort): (r: Result<SensorContinuous<int>>)
    ensures c.EffectiveLength() == 0 <==> r == Err(DataNotCollected)
    ensures c.EffectiveLength() < 0 ==> r == Err(NegativeArraySize)
    ensures r.Ok? ==> r.value.length == |r.value.valueArray| <= c.EffectiveLength()
    ensures r.Ok? ==> forall i :: 0 <= i < r.value.length ==>
              r.value.valueArray[i].Some? && range.Some? && IsValidInt(r.value.valueArray[i].value, range.value)
    ensures r.Ok? && range.Some? ==>
              exists lines :: port(StartByte(c.sensorNum), c.stop, [c.stopAck], c.EffectiveLength(), c.timeout) == Some(lines)
                && Holds(r.value, Keep(ParsedInts(lines), IntAdmits(range).value))
    ensures Fetch(c, port).Err? ==> r == Err(Fetch(c, port).error)
    ensures c.EffectiveLength() > 0 && port(StartByte(c.sensorNum), c.stop, [c.stopAck], c.EffectiveLength(), c.timeout).None? ==>
              r == Err(NoDeviceConnected)
    ensures r == Err(NullPointer) <==>
              Fetch(c, port).Ok? && range.None? && exists i :: 0 <= i < |Fetch(c, port).value.1| && ParsedInts(Fetch(c, port).value.1)[i].Some?
    ensures Fetch(c, port).Ok? && range.None? ==>
              (r.Ok? <==> !exists i :: 0 <= i < |Fetch(c, port).value.1| && ParsedInts(Fetch(c, port).value.1)[i].Some?)
    ensures Fetch(c, port).Ok? && range.Some? ==>
              (r.Ok? <==> |Keep(ParsedInts(Fetch(c, port).value.1), IntAdmits(range).value)| <= c.EffectiveLength())
    ensures Fetch(c, port).Ok? && range.Some? && r.Err? ==> r.error == IndexOutOfBounds
  {
    var (length, lines) :- Fetch(c, port);
    var kept :- Collected(ParsedInts(lines), IntAdmits(range), length);
    Ok(Packed(kept, length))
  }

  /** `getFloatContinuous`, with null lines skipped as the integer loop
      skips them. */
  function GetFloatContinuous(c: ContinuousStreamInfo, range: Option<FloatRange>, parseFloat: FloatParser, port: StreamPort): (r: Result<SensorContinuous<real>>)
    ensures c.EffectiveLength() == 0 <==> r == Err(DataNotCollected)
    ensures c.EffectiveLength() < 0 ==> r == Err(NegativeArraySize)
    ensures r.Ok? ==> r.value.length == |r.value.valueArray| <= c.EffectiveLength()
    ensures r.Ok? ==> forall i :: 0 <= i < r.value.length ==>
              r.value.valueArray[i].Some? && range.Some? && IsValidFloat(r.value.valueArray[i].value, range.value)
    ensures r.Ok? && range.Some? ==>
              exists lines :: port(StartByte(c.sensorNum), c.stop, [c.stopAck], c.EffectiveLength(), c.timeout) == Some(lines)
                && Holds(r.value, Keep(ParsedFloats(lines, parseFloat), FloatAdmits(range).value))
    ensures Fetch(c, port).Err? ==> r == Err(Fetch(c, port).error)
    ensures c.EffectiveLength() > 0 && port(StartByte(c.sensorNum), c.stop, [c.stopAck], c.EffectiveLength(), c.timeout).None? ==>
              r == Err(NoDeviceConnected)
    ensures r == Err(NullPointer) <==>
              Fetch(c, port).Ok? && range.None? && exists i :: 0 <= i < |Fetch(c, port).value.1| && ParsedFloats(Fetch(c, port).value.1, parseFloat)[i].Some?
    ensures Fetch(c, port).Ok? && range.None? ==>
              (r.Ok? <==> !exists i :: 0 <= i < |Fetch(c, port).value.1| && ParsedFloats(Fetch(c, port).value.1, parseFloat)[i].Some?)
    ensures Fetch(c, port).Ok? && range.Some? ==>
              (r.Ok? <==> |Keep(ParsedFloats(Fetch(c, port).value.1, parseFloat), FloatAdmits(range).value)| <= c.EffectiveLength())
    ensures Fetch(c, port).Ok? && range.Some? && r.Err? ==> r.error == IndexOutOfBounds
  {
    var (length, lines) :- Fetch(c, port);
    var kept :- Collected(ParsedFloats(lines, parseFloat), FloatAdmits(range), length);
    Ok(Packed(kept, length))
  }

  /** `getFloatContinuous` as written. */
  function GetFloatContinuousAsWritten(c: ContinuousStreamInfo, range: Option<FloatRange>, parseFloat: FloatParser, port: StreamPort): (r: Result<SensorContinuous<real>>)
    ensures r.Ok? ==> r == GetFloatContinuous(c, range, parseFloat, port)
    ensures Fetch(c, port).Ok? && (forall i :: 0 <= i < |Fetch(c, port).value.1| ==> Fetch(c, port).value.1[i].Some?) ==>
              r == GetFloatContinuous(c, range, parseFloat, port)
    ensures r == Err(NullPointer) ==>
              Fetch(c, port).Ok? && (range.None? || exists i :: 0 <= i < |Fetch(c, port).value.1| && Fetch(c, port).value.1[i].None?)
  {
    var (length, lines) :- Fetch(c, port);
    var kept :- CollectedFloatsAsWritten(lines, range, parseFloat, length);
    Ok(Packed(kept, length))
  }

  /** `getECG`: the ECG stream through the float fetch as written, copied
      into an `ECG`. It agrees with the corrected fetch whenever it
      succeeds and whenever no line is null; a `NullPointerException`
      comes from a null line or a missing ECG range. */
  function GetECG(c: ContinuousStreamInfo, hw: SensorDataRange, parseFloat: FloatParser, port: StreamPort): (r: Result<ECG>)
    ensures r.Ok? ==> r == GetFloatContinuous(c, hw.ecg, parseFloat, port)
    ensures Fetch(c, port).Ok? && (forall i :: 0 <= i < |Fetch(c, port).value.1| ==> Fetch(c, port).value.1[i].Some?) ==>
              r == GetFloatContinuous(c, hw.ecg, parseFloat, port)
    ensures r == Err(NullPointer) ==>
              Fetch(c, port).Ok? && (hw.ecg.None? || exists i :: 0 <= i < |Fetch(c, port).value.1| && Fetch(c, port).value.1[i].None?)
  {
    match GetFloatContinuousAsWritten(c, hw.ecg, parseFloat, port)
    case Err(e) => Err(e)
    case Ok(sc) =>
      ECGFromRoundTrip(sc);
      ECGFrom(sc)
  }

  /** When every line parses and is admitted, nothing is dropped. */
  lemma {:induction false} KeepAll<T>(parsed: seq<Option<T>>, admits: T -> bool)
    requires forall i :: 0 <= i < |parsed| ==> parsed[i].Some? && admits(parsed[i].value)
    ensures Keep(parsed, admits) == seq(|parsed|, i requires 0 <= i < |parsed| => parsed[i].value)
  {
    if |parsed| > 0 {
      KeepAll(parsed[..|parsed| - 1], admits);
    }
  }

  /** The decimal forms of in-range `int`s, one per line. */
  function Lines(values: seq<int>): (r: seq<Option<string>>)
    ensures |r| == |values|
    ensures forall i :: 0 <= i < |values| ==> r[i] == Some(ShowInt(values[i]))
  {
    seq(|values|, i requires 0 <= i < |values| => Some(ShowInt(values[i])))
  }

  lemma LinesParseBack(values: seq<int>, range: IntRange)
    requires forall i :: 0 <= i < |values| ==> IsInt32(values[i]) && IsValidInt(values[i], range)
    ensures Keep(ParsedInts(Lines(values)), IntAdmits(Some(range)).value) == values
  {
    var parsed := ParsedInts(Lines(values));
    forall i | 0 <= i < |values|
      ensures parsed[i] == Some(values[i])
    {
      ParseShowInt(values[i]);
    }
    KeepAll(parsed, IntAdmits(Some(range)).value);
  }

  /** An integer stream that sends the decimal form of in-range values, no
      more than asked for, reads back exactly those values. */
  lemma IntStreamRoundTrip(c: ContinuousStreamInfo, range: IntRange, port: StreamPort, values: seq<int>)
    requires 0 < c.EffectiveLength() && |values| <= c.EffectiveLength()
    requires forall i :: 0 <= i < |values| ==> IsInt32(values[i]) && IsValidInt(values[i], range)
    requires port(StartByte(c.sensorNum), c.stop, [c.stopAck], c.EffectiveLength(), c.timeout) == Some(Lines(values))
    ensures GetIntContinuous(c, Some(range), port) == Ok(SensorContinuous(seq(|values|, i requires 0 <= i < |values| => Some(values[i])), |values|))
  {
    LinesParseBack(values, range);
    var length, lines := c.EffectiveLength(), Lines(values);
    assert Fetch(c, port) == Ok((length, lines));
    assert Collected(ParsedInts(lines), IntAdmits(Some(range)), length) == Ok(values);
    var sc := Packed(values, length);
    assert GetIntContinuous(c, Some(range), port) == Ok(sc);
    assert sc.valueArray == seq(|values|, i requires 0 <= i < |values| => Some(values[i]));
  }

  /** A sample is in a fetched integer stream exactly when some line parses
      to it and it is within the range. */
  lemma IntStreamMembers(c: ContinuousStreamInfo, range: IntRange, port: StreamPort, lines: seq<Option<string>>, x: int)
    requires port(StartByte(c.sensorNum), c.stop, [c.stopAck], c.EffectiveLength(), c.timeout) == Some(lines)
    requires GetIntContinuous(c, Some(range), port).Ok?
    ensures Some(x) in GetIntContinuous(c, Some(range), port).value.valueArray
            <==> IsValidInt(x, range) && exists i :: 0 <= i < |lines| && lines[i].Some? && ParseInt(lines[i].value) == Some(x)
  {
    var parsed := ParsedInts(lines);
    var kept := Keep(parsed, IntAdmits(Some(range)).value);
    var sc := GetIntContinuous(c, Some(range), port).value;
    KeepMembers(parsed, IntAdmits(Some(range)).value, x);
    assert Some(x) in sc.valueArray <==> x in kept by {
      if Some(x) in sc.valueArray {
        var i :| 0 <= i < |sc.valueArray| && sc.valueArray[i] == Some(x);
        assert kept[i] == x;
      }
      if x in kept {
        var i :| 0 <= i < |kept| && kept[i] == x;
        assert sc.valueArray[i] == Some(x);
      }
    }
    if exists i :: 0 <= i < |lines| && lines[i].Some? && ParseInt(lines[i].value) == Some(x) {
      var i :| 0 <= i < |lines| && lines[i].Some? && ParseInt(lines[i].value) == Some(x);
      assert parsed[i] == Some(x);
    }
  }

  /** A null line — a line that never arrived — is skipped by the integer
      loop but ends the float loop as written with `NullPointerException`,
      throwing away the samples already read; the corrected loop skips it. */
  lemma NullLineAbortsFloatStream(range: FloatRange, intRange: IntRange, parseFloat: FloatParser)
    requires parseFloat("1") == Some(1.0) && IsValidFloat(1.0, range) && IsValidInt(1, intRange)
    ensures CollectedFloatsAsWritten([Some("1"), None], Some(range), parseFloat, 2) == Err(NullPointer)
    ensures Collected(ParsedFloats([Some("1"), None], parseFloat), FloatAdmits(Some(range)), 2) == Ok([1.0])
    ensures Collected(ParsedInts([Some("1"), None]), IntAdmits(Some(intRange)), 2) == Ok([1])
  {
    var lines: seq<Option<string>> := [Some("1"), None];
    assert FirstNull(lines[1..]) == 0;
    assert FirstNull(lines) == 1;
    var floats := ParsedFloats(lines, parseFloat);
    assert floats == [Some(1.0), None];
    assert floats[..1] == [Some(1.0)];
    assert floats[..1][..0] == [];
    assert Keep(floats[..1], FloatAdmits(Some(range)).value) == [1.0];
    assert floats[..2][..1] == floats[..1];
    assert Keep(floats, FloatAdmits(Some(range)).value) == [1.0];
    assert ParseInt("1") == Some(1);
    var ints := ParsedInts(lines);
    assert ints == [Some(1), None];
    assert ints[..1] == [Some(1)];
    assert ints[..1][..0] == [];
    assert Keep(ints[..1], IntAdmits(Some(intRange)).value) == [1];
    assert Keep(ints, IntAdmits(Some(intRange)).value) == [1];
  }

  /** The ECG fetch inherits the null line: the answer `["1", null]` makes
      `getECG` throw where the corrected fetch returns the one sample. */
  lemma NullLineAbortsECG(c: ContinuousStreamInfo, hw: SensorDataRange, parseFloat: FloatParser, port: StreamPort)
    requires Fetch(c, port) == Ok((2, [Some("1"), None]))
    requires hw.ecg.Some? && parseFloat("1") == Some(1.0) && IsValidFloat(1.0, hw.ecg.value)
    ensures GetECG(c, hw, parseFloat, port) == Err(NullPointer)
    ensures GetFloatContinuous(c, hw.ecg, parseFloat, port).Ok?
  {
    var lines: seq<Option<string>> := [Some("1"), None];
    assert FirstNull(lines[1..]) == 0;
    assert FirstNull(lines) == 1;
    var floats := ParsedFloats(lines, parseFloat);
    assert floats == [Some(1.0), None];
    assert floats[..1] == [Some(1.0)];
    assert floats[..1][..0] == [];
    assert Keep(floats[..1], FloatAdmits(hw.ecg).value) == [1.0];
    assert floats[..2][..1] == floats[..1];
    assert Keep(floats, FloatAdmits(hw.ecg).value) == [1.0];
  }
}

=== FILE: text.dfy ===
/** The parts of `java.lang.String` and `java.lang.Integer` the packet codec
    uses: `String.split` with a literal (non-regex) delimiter and limit 0,
    `Integer.parseInt`, and `Integer.toString` as its inverse. */
module Text {
  import opened Lang

  /** `d` occurs in `s` starting at index `j`. */
  predicate OccursAt(s: string, d: string, j: int) {
    0 <= j && j + |d| <= |s| && s[j..j + |d|] == d
  }

  /** `s` contains no occurrence of `d`. */
  ghost predicate Free(s: string, d: string) {
    forall j :: !OccursAt(s, d, j)
  }

  /** First occurrence of `d` in `s` at or after `from`. */
  function IndexFrom(s: string, d: string, from: nat): (r: Option<nat>)
    requires |d| > 0 && from <= |s|
    ensures r.Some? ==> from <= r.value && OccursAt(s, d, r.value)
    ensures r.Some? ==> forall j :: from <= j < r.value ==> !OccursAt(s, d, j)
    ensures r.None? ==> forall j :: from <= j ==> !OccursAt(s, d, j)
    decreases |s| - from
  {
    if from + |d| > |s| then None
    else if s[from..from + |d|] == d then Some(from)
    else IndexFrom(s, d, from + 1)
  }

  /** `s.indexOf(d)`, as an option. */
  function IndexOf(s: string, d: string): (r: Option<nat>)
    requires |d| > 0
    ensures r.Some? ==> OccursAt(s, d, r.value) && forall j :: 0 <= j < r.value ==> !OccursAt(s, d, j)
    ensures r.None? <==> Free(s, d)
  {
    IndexFrom(s, d, 0)
  }

  lemma PrefixBeforeFirstIsFree(s: string, d: string, i: nat)
    requires |d| > 0 && i <= |s|
    requires forall j :: 0 <= j < i ==> !OccursAt(s, d, j)
    ensures Free(s[..i], d)
  {
    forall j | OccursAt(s[..i], d, j)
      ensures false
    {
      assert s[..i][j..j + |d|] == s[j..j + |d|];
      assert OccursAt(s, d, j);
    }
  }

  /** Every piece between the left-to-right, non-overlapping occurrences of
      `d`, trailing empty pieces included. */
  function RawSplit(s: string, d: string): (r: seq<string>)
    requires |d| > 0
    ensures |r| >= 1
    ensures forall k :: 0 <= k < |r| ==> Free(r[k], d)
    decreases |s|
  {
    match IndexOf(s, d)
    case None => [s]
    case Some(i) =>
      PrefixBeforeFirstIsFree(s, d, i);
      [s[..i]] + RawSplit(s[i + |d|..], d)
  }

  /** The pieces glued back together with `d` between neighbours. */
  function Join(parts: seq<string>, d: string): string
    requires |parts| >= 1
    decreases |parts|
  {
    if |parts| == 1 then parts[0] else parts[0] + d + Join(parts[1..], d)
  }

  /** Splitting loses nothing: the pieces and the delimiters rebuild `s`. */
  lemma {:induction false} JoinRawSplit(s: string, d: string)
    requires |d| > 0
    ensures Join(RawSplit(s, d), d) == s
    decreases |s|
  {
    match IndexOf(s, d)
    case None =>
    case Some(i) =>
      JoinRawSplit(s[i + |d|..], d);
      JoinRawSplitStep(s, d, i);
  }

  lemma JoinRawSplitStep(s: string, d: string, i: nat)
    requires |d| > 0 && IndexOf(s, d) == Some(i)
    requires Join(RawSplit(s[i + |d|..], d), d) == s[i + |d|..]
    ensures Join(RawSplit(s, d), d) == s
  {
    var rest := s[i + |d|..];
    var tail := RawSplit(rest, d);
    calc {
      Join(RawSplit(s, d), d);
      { assert RawSplit(s, d) == [s[..i]] + tail; }
      Join([s[..i]] + tail, d);
      { JoinCons(s[..i], tail, d); }
      s[..i] + d + Join(tail, d);
      s[..i] + d + rest;
      { Reassemble(s, d, i); }
      s;
    }
  }

  lemma JoinCons(a: string, t: seq<string>, d: string)
    requires |t| >= 1
    ensures Join([a] + t, d) == a + d + Join(t, d)
  {
    assert ([a] + t)[1..] == t;
  }

  lemma Reassemble(s: string, d: string, i: nat)
    requires OccursAt(s, d, i)
    ensures s == s[..i] + d + s[i + |d|..]
  {
    assert s == s[..i] + s[i..i + |d|] + s[i + |d|..];
  }

  /** Limit-0 `split` discards trailing empty pieces. */
  function DropTrailingEmpty(parts: seq<string>): (r: seq<string>)
    ensures |r| <= |parts| && r == parts[..|r|]
    ensures |r| > 0 ==> r[|r| - 1] != ""
    ensures forall k :: |r| <= k < |parts| ==> parts[k] == ""
    decreases |parts|
  {
    if |parts| == 0 then []
    else if parts[|parts| - 1] == "" then DropTrailingEmpty(parts[..|parts| - 1])
    else parts
  }

  /** `s.split(d)` for a delimiter with no regex meaning: `[s]` when `d` does
      not occur, otherwise the pieces without the trailing empty ones (so a
      leading empty piece stays, and the result may be empty). */
  function Split(s: string, d: string): (r: seq<string>)
    requires |d| > 0
    ensures |r| <= |RawSplit(s, d)| && r == RawSplit(s, d)[..|r|]
    ensures forall k :: |r| <= k < |RawSplit(s, d)| ==> RawSplit(s, d)[k] == ""
    ensures forall k :: 0 <= k < |r| ==> Free(r[k], d)
    ensures Free(s, d) ==> r == [s]
  {
    if IndexOf(s, d).None? then [s] else DropTrailingEmpty(RawSplit(s, d))
  }

  /** The text of `s` before the first `c` (all of `s` if there is none). */
  function Before(s: string, c: char): (r: string)
    ensures |r| <= |s| && r == s[..|r|]
    ensures c !in r
    ensures |r| < |s| ==> s[|r|] == c
    decreases |s|
  {
    if |s| == 0 || s[0] == c then "" else [s[0]] + Before(s[1..], c)
  }

  // ---------------------------------------------------------------------
  // Splitting on a single character

  lemma OccursAtChar(s: string, c: char, j: int)
    ensures OccursAt(s, [c], j) <==> 0 <= j < |s| && s[j] == c
  {
    if 0 <= j < |s| {
      assert s[j..j + 1] == [s[j]];
    }
  }

  /** With a one-character delimiter, "free of `d`" means "does not contain it". */
  lemma FreeChar(s: string, c: char)
    ensures Free(s, [c]) <==> c !in s
  {
    if c in s {
      var j :| 0 <= j < |s| && s[j] == c;
      OccursAtChar(s, c, j);
    } else {
      forall j
        ensures !OccursAt(s, [c], j)
      {
        OccursAtChar(s, c, j);
      }
    }
  }

  /** Every character of a piece appears in the joined text. */
  lemma {:induction false} JoinContains(parts: seq<string>, d: string, k: nat, x: char)
    requires |parts| >= 1 && k < |parts| && x in parts[k]
    ensures x in Join(parts, d)
    decreases |parts|
  {
    if k > 0 {
      JoinContains(parts[1..], d, k - 1, x);
    }
  }

  /** Joining empty pieces yields only delimiter characters. */
  lemma {:induction false} JoinOfEmpties(parts: seq<string>, c: char)
    requires |parts| >= 1
    requires forall k :: 0 <= k < |parts| ==> parts[k] == ""
    ensures forall m :: 0 <= m < |Join(parts, [c])| ==> Join(parts, [c])[m] == c
    decreases |parts|
  {
    if |parts| > 1 {
      JoinOfEmpties(parts[1..], c);
    }
  }

  /** The first piece of a split on `c` is the text before the first `c`. */
  lemma RawSplitHead(s: string, c: char)
    ensures RawSplit(s, [c])[0] == Before(s, c)
  {
    var b := Before(s, c);
    match IndexOf(s, [c])
    case None =>
      FreeChar(s, c);
    case Some(i) =>
      OccursAtChar(s, c, i);
      if |b| < i {
        OccursAtChar(s, c, |b|);
      }
  }

  /** `s.split(c)` is empty exactly when `s` is a non-empty run of `c`. */
  lemma SplitEmptyIff(s: string, c: char)
    ensures |Split(s, [c])| == 0 <==> |s| > 0 && forall k :: 0 <= k < |s| ==> s[k] == c
  {
    var raw := RawSplit(s, [c]);
    if |Split(s, [c])| == 0 {
      assert IndexOf(s, [c]).Some?;
      assert forall k :: 0 <= k < |raw| ==> raw[k] == "";
      JoinRawSplit(s, [c]);
      JoinOfEmpties(raw, c);
      var i := IndexOf(s, [c]).value;
      OccursAtChar(s, c, i);
    }
    if |s| > 0 && forall k :: 0 <= k < |s| ==> s[k] == c {
      OccursAtChar(s, c, 0);
      assert IndexOf(s, [c]).Some?;
      forall k | 0 <= k < |raw|
        ensures raw[k] == ""
      {
        FreeChar(raw[k], c);
        if raw[k] != "" {
          JoinRawSplit(s, [c]);
          JoinContains(raw, [c], k, raw[k][0]);
        }
      }
    }
  }

  /** `a + c + b` splits on `c` into `[a, b]` when neither part holds `c` and
      `b` is not empty. */
  lemma SplitPair(a: string, b: string, c: char)
    requires c !in a && c !in b && b != ""
    ensures Split(a + [c] + b, [c]) == [a, b]
  {
    RawSplitAtFirst(a, b, c);
    FreeChar(b, c);
  }


  /** `a + d + b` splits on `d` into `[a, b]` when the first occurrence of
      `d` is the one after `a`, `b` holds none and is not empty. */
  lemma SplitAround(a: string, d: string, b: string)
    requires |d| > 0 && b != "" && Free(b, d)
    requires forall j :: 0 <= j < |a| ==> !OccursAt(a + d + b, d, j)
    ensures Split(a + d + b, d) == [a, b]
  {
    var s := a + d + b;
    assert s[|a|..|a| + |d|] == d;
    assert OccursAt(s, d, |a|);
    assert !Free(s, d);
    var i := IndexOf(s, d).value;
    assert !(i < |a|) && !(|a| < i);
    assert s[..|a|] == a;
    assert s[|a| + |d|..] == b;
    assert RawSplit(s, d) == [a] + RawSplit(b, d);
  }

  /** Joining pieces that do not contain `c`, the last one non-empty, and
      splitting the result on `c` gives the pieces back. */
  lemma {:induction false} SplitJoin(parts: seq<string>, c: char)
    requires |parts| >= 1 && parts[|parts| - 1] != ""
    requires forall k :: 0 <= k < |parts| ==> c !in parts[k]
    ensures Split(Join(parts, [c]), [c]) == parts
  {
    RawSplitJoin(parts, c);
  }

  lemma {:induction false} RawSplitJoin(parts: seq<string>, c: char)
    requires |parts| >= 1
    requires forall k :: 0 <= k < |parts| ==> c !in parts[k]
    ensures RawSplit(Join(parts, [c]), [c]) == parts
    decreases |parts|
  {
    if |parts| == 1 {
      FreeChar(parts[0], c);
    } else {
      RawSplitJoin(parts[1..], c);
      RawSplitAtFirst(parts[0], Join(parts[1..], [c]), c);
      assert parts == [parts[0]] + parts[1..];
    }
  }

  /** Splitting `a + c + rest` where `a` holds no `c` cuts off `a` first. */
  lemma RawSplitAtFirst(a: string, rest: string, c: char)
    requires c !in a
    ensures RawSplit(a + [c] + rest, [c]) == [a] + RawSplit(rest, [c])
  {
    var s := a + [c] + rest;
    OccursAtChar(s, c, |a|);
    forall j | 0 <= j < |a|
      ensures !OccursAt(s, [c], j)
    {
      OccursAtChar(s, c, j);
      assert s[j] == a[j];
    }
    assert IndexOf(s, [c]) == Some(|a|);
    assert s[..|a|] == a;
    assert s[|a| + 1..] == rest;
  }

  /** `String.split` with a literal delimiter, including the empty one: an
      empty pattern matches between every two characters, so a non-empty
      text falls apart into its characters. */
  function JavaSplit(s: string, d: string): (r: seq<string>)
    ensures d == "" && s != "" ==> |r| == |s| && forall k :: 0 <= k < |s| ==> r[k] == [s[k]]
    ensures d == "" && s == "" ==> r == [""]
    ensures d != "" ==> r == Split(s, d)
  {
    if d == "" then (if s == "" then [""] else seq(|s|, k requires 0 <= k < |s| => [s[k]]))
    else Split(s, d)
  }

  // ---------------------------------------------------------------------
  // Integer.parseInt / Integer.toString

  predicate IsDigit(c: char) {
    '0' <= c <= '9'
  }

  predicate AllDigits(s: string) {
    forall k :: 0 <= k < |s| ==> IsDigit(s[k])
  }

  function DigitValue(c: char): nat
    requires IsDigit(c)
  {
    (c as int) - ('0' as int)
  }

  function Digit(n: nat): (c: char)
    requires n < 10
    ensures IsDigit(c) && DigitValue(c) == n
  {
    (('0' as int) + n) as char
  }

  /** The value of a string of decimal digits. */
  function DigitsValue(s: string): nat
    requires AllDigits(s)
    decreases |s|
  {
    if |s| == 0 then 0 else DigitsValue(s[..|s| - 1]) * 10 + DigitValue(s[|s| - 1])
  }

  /** `Integer.parseInt(s)` over ASCII digits: an optional sign, at least one
      digit, and a value that fits in an `int`; `None` stands for
      NumberFormatException. */
  function ParseInt(s: string): (r: Option<int>)
    ensures r.Some? ==> IsInt32(r.value)
    ensures r.Some? ==> |s| > 0
  {
    if |s| == 0 then None
    else if s[0] == '-' || s[0] == '+' then
      var ds := s[1..];
      if |ds| == 0 || !AllDigits(ds) then None
      else
        var n: int := DigitsValue(ds);
        var v := if s[0] == '-' then -n else n;
        if IsInt32(v) then Some(v) else None
    else if AllDigits(s) then
      var v := DigitsValue(s);
      if IsInt32(v) then Some(v) else None
    else None
  }

  /** Decimal digits of `n`, most significant first, no leading zeros. */
  function ShowNat(n: nat): (r: string)
    ensures |r| >= 1 && AllDigits(r)
    decreases n
  {
    if n < 10 then [Digit(n)] else ShowNat(n / 10) + [Digit(n % 10)]
  }

  /** `Integer.toString(n)`. */
  function ShowInt(n: int): (r: string)
    ensures |r| >= 1
  {
    if n < 0 then "-" + ShowNat(-n) else ShowNat(n)
  }

  lemma {:induction false} DigitsValueShowNat(n: nat)
    ensures DigitsValue(ShowNat(n)) == n
    decreases n
  {
    if n >= 10 {
      DigitsValueShowNat(n / 10);
      var s := ShowNat(n);
      assert s[..|s| - 1] == ShowNat(n / 10);
    }
  }

  /** `Integer.parseInt(Integer.toString(n)) == n` for every `int` n. */
  lemma ParseShowInt(n: int)
    requires IsInt32(n)
    ensures ParseInt(ShowInt(n)) == Some(n)
  {
    if n < 0 {
      DigitsValueShowNat(-n);
      assert ShowInt(n)[1..] == ShowNat(-n);
    } else {
      DigitsValueShowNat(n);
    }
  }

  /** The text `Integer.toString` produces never contains a character other
      than a digit or a leading minus sign. */
  lemma ShowIntAlphabet(n: int, c: char)
    requires !IsDigit(c) && c != '-'
    ensures c !in ShowInt(n)
  {
    var s := ShowInt(n);
    if n < 0 {
      assert s == "-" + ShowNat(-n);
      assert forall k :: 1 <= k < |s| ==> s[k] == ShowNat(-n)[k - 1];
    }
  }
}

=== FILE: unpacking.dfy ===
/** Unpacking one discrete response (`populateDiscreteResponse`). For every
    still-required sensor the response is split on the sensor's identifier
    followed by the id/data delimiter; the fragments after each occurrence
    are tried from the last one back to the first, each cut at the sensor
    delimiter, and the first that extracts wins. The text before the first
    occurrence is never tried. */
module Unpacking {
  import opened Lang
  import opened Text
  import opened Sensor
  import opened DataRanges
  import opened Readings
  import opened DiscreteConfig
  import opened Extraction

  /** `response.split(sensorid + dataDelimiter)`. */
  function Fragments(response: string, id: char, dataDelimiter: char): seq<string> {
    Split(response, [id, dataDelimiter])
  }

  /** What one sensor's extractor makes of a text: `extractTemp`,
      `extractBP`, ... as picked by the `switch` on the sensor id. */
  type Extractor = string -> Option<Reading>

  /** The extractor `populateDiscreteResponse` calls for sensor `kind`, with
      the multi-value delimiter of the configuration. */
  function ExtractorFor(kind: int, multiValueDelimiter: char, hw: SensorDataRange, parseFloat: FloatParser): (extract: Extractor)
    requires IsDiscrete(kind)
    ensures forall text :: extract(text).Some? ==> extract(text).value.SensorId() == kind
  {
    text => Extract(kind, text, [multiValueDelimiter], hw, parseFloat)
  }

  /** What the extractor makes of one fragment: the fragment is cut at the
      first sensor delimiter first. */
  function Candidate(fragment: string, sensorDelimiter: char, extract: Extractor): Option<Reading> {
    extract(Before(fragment, sensorDelimiter))
  }

  /** The loop `for (index = k; index > 0; index--)`: the index of the last
      fragment among `fragments[1..k]` that extracts. */
  function LatestValid(fragments: seq<string>, k: nat, sensorDelimiter: char, extract: Extractor): (r: Option<nat>)
    requires k < |fragments|
    ensures r.Some? ==> 1 <= r.value <= k
    decreases k
  {
    if k == 0 then None
    else if Candidate(fragments[k], sensorDelimiter, extract).Some? then Some(k)
    else LatestValid(fragments, k - 1, sensorDelimiter, extract)
  }

  /** `r` is the index of the last fragment among `fragments[1..k]` that
      extracts, and is `None` exactly when none does. */
  ghost predicate LatestFound(fragments: seq<string>, k: nat, sensorDelimiter: char, extract: Extractor, r: Option<nat>)
    requires k < |fragments|
  {
    (r.Some? ==> 1 <= r.value <= k && Candidate(fragments[r.value], sensorDelimiter, extract).Some?
                 && forall m :: r.value < m <= k ==> Candidate(fragments[m], sensorDelimiter, extract).None?)
    && (r.None? <==> forall m :: 1 <= m <= k ==> Candidate(fragments[m], sensorDelimiter, extract).None?)
  }

  /** The loop finds the last fragment that extracts, and finds none exactly
      when no fragment among `fragments[1..k]` extracts. */
  lemma {:induction false} LatestValidSpec(fragments: seq<string>, k: nat, sensorDelimiter: char, extract: Extractor)
    requires k < |fragments|
    ensures LatestFound(fragments, k, sensorDelimiter, extract, LatestValid(fragments, k, sensorDelimiter, extract))
    decreases k
  {
    if k > 0 {
      if Candidate(fragments[k], sensorDelimiter, extract).None? {
        LatestValidSpec(fragments, k - 1, sensorDelimiter, extract);
        LatestFoundSkips(fragments, k, sensorDelimiter, extract, LatestValid(fragments, k - 1, sensorDelimiter, extract));
      }
    }
  }

  /** A fragment that does not extract leaves the search result as it was. */
  lemma LatestFoundSkips(fragments: seq<string>, k: nat, sensorDelimiter: char, extract: Extractor, r: Option<nat>)
    requires 0 < k < |fragments|
    requires Candidate(fragments[k], sensorDelimiter, extract).None?
    requires LatestFound(fragments, k - 1, sensorDelimiter, extract, r)
    ensures LatestFound(fragments, k, sensorDelimiter, extract, r)
  {
  }

  /** The reading selected from the fragments: that of the latest fragment
      that extracts, if any. */
  function SelectLatest(fragments: seq<string>, sensorDelimiter: char, extract: Extractor): Option<Reading> {
    if |fragments| == 0 then None
    else match LatestValid(fragments, |fragments| - 1, sensorDelimiter, extract)
      case None => None
      case Some(j) => Candidate(fragments[j], sensorDelimiter, extract)
  }

  /** Selection yields nothing exactly when no fragment after the first
      extracts; otherwise it yields the reading of the last one that does. */
  lemma SelectLatestSpec(fragments: seq<string>, sensorDelimiter: char, extract: Extractor)
    ensures var r := SelectLatest(fragments, sensorDelimiter, extract);
            r.None? <==> forall m :: 1 <= m < |fragments| ==> Candidate(fragments[m], sensorDelimiter, extract).None?
    ensures var r := SelectLatest(fragments, sensorDelimiter, extract);
            r.Some? ==> exists j :: 1 <= j < |fragments| && r == Candidate(fragments[j], sensorDelimiter, extract)
                         && forall m :: j < m < |fragments| ==> Candidate(fragments[m], sensorDelimiter, extract).None?
  {
    if |fragments| > 0 {
      var k := |fragments| - 1;
      var j := LatestValid(fragments, k, sensorDelimiter, extract);
      LatestValidSpec(fragments, k, sensorDelimiter, extract);
      if j.Some? {
        var w := j.value;
        assert 1 <= w < |fragments| && SelectLatest(fragments, sensorDelimiter, extract) == Candidate(fragments[w], sensorDelimiter, extract);
      }
    }
  }

  /** Selection only looks at fragments 1 onwards: whatever precedes the
      first identifier has no influence. */
  lemma {:induction false} LatestValidIgnoresHead(f: seq<string>, g: seq<string>, k: nat, sensorDelimiter: char, extract: Extractor)
    requires k < |f| == |g|
    requires forall m :: 1 <= m < |f| ==> f[m] == g[m]
    ensures LatestValid(f, k, sensorDelimiter, extract) == LatestValid(g, k, sensorDelimiter, extract)
    decreases k
  {
    if k > 0 {
      LatestValidIgnoresHead(f, g, k - 1, sensorDelimiter, extract);
      assert f[k] == g[k];
    }
  }

  lemma SelectLatestIgnoresHead(fragments: seq<string>, head: string, sensorDelimiter: char, extract: Extractor)
    requires |fragments| >= 1
    ensures SelectLatest([head] + fragments[1..], sensorDelimiter, extract) == SelectLatest(fragments, sensorDelimiter, extract)
  {
    var g := [head] + fragments[1..];
    assert |g| == |fragments|;
    forall m | 1 <= m < |g|
      ensures g[m] == fragments[m]
    {
    }
    LatestValidIgnoresHead(g, fragments, |fragments| - 1, sensorDelimiter, extract);
    var j := LatestValid(fragments, |fragments| - 1, sensorDelimiter, extract);
    if j.Some? {
      assert g[j.value] == fragments[j.value];
    }
  }

  /** A valid last fragment beats every earlier one, valid or not. */
  lemma LastValidFragmentWins(fragments: seq<string>, sensorDelimiter: char, extract: Extractor)
    requires |fragments| >= 2
    requires Candidate(fragments[|fragments| - 1], sensorDelimiter, extract).Some?
    ensures SelectLatest(fragments, sensorDelimiter, extract) == Candidate(fragments[|fragments| - 1], sensorDelimiter, extract)
  {
  }

  // ---------------------------------------------------------------------
  // The cut at the sensor delimiter, as written

  /** A non-empty text made only of `c`. */
  predicate RunOf(s: string, c: char) {
    |s| > 0 && forall k :: 0 <= k < |s| ==> s[k] == c
  }

  /** `fragment.split(sensorDelimiter)[0]` as written. Java drops trailing
      empty strings, so a fragment made only of sensor delimiters splits into
      an empty array, and index 0 throws `ArrayIndexOutOfBoundsException`.
      The statement sits outside the `try`, whose `catch` would not match
      anyway, so the exception leaves `getDiscrete`. */
  function FirstFieldAsWritten(fragment: string, sensorDelimiter: char): (r: Result<string>)
    ensures r.Err? <==> RunOf(fragment, sensorDelimiter)
    ensures r.Err? ==> r.error == IndexOutOfBounds
    ensures r.Ok? ==> r.value == Before(fragment, sensorDelimiter)
  {
    if RunOf(fragment, sensorDelimiter) then Err(IndexOutOfBounds) else Ok(Before(fragment, sensorDelimiter))
  }

  /** `FirstFieldAsWritten` is `split(sensorDelimiter)[0]`, with the
      exception of indexing an empty array. */
  lemma FirstFieldAsWrittenSplits(fragment: string, sensorDelimiter: char)
    ensures var parts := Split(fragment, [sensorDelimiter]);
            FirstFieldAsWritten(fragment, sensorDelimiter) == if |parts| == 0 then Err(IndexOutOfBounds) else Ok(parts[0])
  {
    SplitEmptyIff(fragment, sensorDelimiter);
    RawSplitHead(fragment, sensorDelimiter);
  }

  /** The selection loop with the cut as written. */
  function LatestValidAsWritten(fragments: seq<string>, k: nat, sensorDelimiter: char, extract: Extractor): (r: Result<Option<nat>>)
    requires k < |fragments|
    ensures r.Ok? ==> r.value == LatestValid(fragments, k, sensorDelimiter, extract)
    ensures r.Err? ==> r.error == IndexOutOfBounds
    decreases k
  {
    if k == 0 then Ok(None)
    else match FirstFieldAsWritten(fragments[k], sensorDelimiter)
      case Err(e) => Err(e)
      case Ok(text) =>
        if extract(text).Some? then Ok(Some(k))
        else LatestValidAsWritten(fragments, k - 1, sensorDelimiter, extract)
  }

  /** Selection as written: the reading, or the exception of the cut. */
  function SelectLatestAsWritten(fragments: seq<string>, sensorDelimiter: char, extract: Extractor): (r: Result<Option<Reading>>)
    ensures r.Ok? ==> r.value == SelectLatest(fragments, sensorDelimiter, extract)
    ensures r.Err? ==> r.error == IndexOutOfBounds
  {
    if |fragments| == 0 then Ok(None)
    else match LatestValidAsWritten(fragments, |fragments| - 1, sensorDelimiter, extract)
      case Err(e) => Err(e)
      case Ok(None) => Ok(None)
      case Ok(Some(j)) => Ok(Candidate(fragments[j], sensorDelimiter, extract))
  }


  /** Scanning `fragments[1..k]` from the end, the cut as written meets a
      fragment made only of sensor delimiters before any fragment that
      extracts. */
  ghost predicate Trips(fragments: seq<string>, k: nat, sensorDelimiter: char, extract: Extractor)
    requires k < |fragments|
  {
    exists m :: 1 <= m <= k && RunOf(fragments[m], sensorDelimiter)
                && forall n :: m < n <= k ==> Candidate(fragments[n], sensorDelimiter, extract).None?
  }

  /** The selection loop as written throws exactly when it trips over a
      fragment made only of sensor delimiters before finding a valid one. */
  lemma LatestValidAsWrittenThrowsIff(fragments: seq<string>, k: nat, sensorDelimiter: char, extract: Extractor)
    requires k < |fragments|
    ensures LatestValidAsWritten(fragments, k, sensorDelimiter, extract).Err? <==> Trips(fragments, k, sensorDelimiter, extract)
  {
    ThrowsMatchTrips(fragments, k, sensorDelimiter, extract);
  }

  ghost predicate ThrowsIffTrips(fragments: seq<string>, k: nat, sensorDelimiter: char, extract: Extractor)
    requires k < |fragments|
  {
    LatestValidAsWritten(fragments, k, sensorDelimiter, extract).Err? == Trips(fragments, k, sensorDelimiter, extract)
  }

  /** The induction on `k` behind `LatestValidAsWrittenThrowsIff`. */
  lemma ThrowsMatchTrips(fragments: seq<string>, k: nat, sensorDelimiter: char, extract: Extractor)
    requires k < |fragments|
    ensures ThrowsIffTrips(fragments, k, sensorDelimiter, extract)
  {
    assert LatestValidAsWritten(fragments, 0, sensorDelimiter, extract) == Ok(None);
    var i := 0;
    while i < k
      invariant i <= k
      invariant ThrowsIffTrips(fragments, i, sensorDelimiter, extract)
    {
      ThrowsStep(fragments, i + 1, sensorDelimiter, extract);
      i := i + 1;
    }
  }

  /** The step of the induction: fragment `k` throws, extracts, or passes
      the search on to `k - 1`. */
  lemma ThrowsStep(fragments: seq<string>, k: nat, sensorDelimiter: char, extract: Extractor)
    requires 0 < k < |fragments|
    requires ThrowsIffTrips(fragments, k - 1, sensorDelimiter, extract)
    ensures ThrowsIffTrips(fragments, k, sensorDelimiter, extract)
  {
    if RunOf(fragments[k], sensorDelimiter) {
      ThrowsAtRun(fragments, k, sensorDelimiter, extract);
    } else if Candidate(fragments[k], sensorDelimiter, extract).Some? {
      ThrowsBlocked(fragments, k, sensorDelimiter, extract);
    } else {
      ThrowsSkips(fragments, k, sensorDelimiter, extract);
    }
  }

  /** Selection as written throws exactly when the scan over all the
      fragments trips. */
  lemma SelectLatestAsWrittenThrowsIff(fragments: seq<string>, sensorDelimiter: char, extract: Extractor)
    ensures SelectLatestAsWritten(fragments, sensorDelimiter, extract).Err? <==>
            |fragments| > 0 && Trips(fragments, |fragments| - 1, sensorDelimiter, extract)
  {
    if |fragments| > 0 {
      var k := |fragments| - 1;
      var lv := LatestValidAsWritten(fragments, k, sensorDelimiter, extract);
      assert SelectLatestAsWritten(fragments, sensorDelimiter, extract).Err? <==> lv.Err?;
      ThrowsMatchTrips(fragments, k, sensorDelimiter, extract);
      assert ThrowsIffTrips(fragments, k, sensorDelimiter, extract);
    }
  }

  /** Without a fragment made only of sensor delimiters, selection as
      written is the corrected selection. */
  lemma SelectLatestAsWrittenClean(fragments: seq<string>, sensorDelimiter: char, extract: Extractor)
    requires forall m :: 1 <= m < |fragments| ==> !RunOf(fragments[m], sensorDelimiter)
    ensures SelectLatestAsWritten(fragments, sensorDelimiter, extract) == Ok(SelectLatest(fragments, sensorDelimiter, extract))
  {
    SelectLatestAsWrittenThrowsIff(fragments, sensorDelimiter, extract);
  }

  /** A fragment made only of sensor delimiters at `k` throws, and trips. */
  lemma ThrowsAtRun(fragments: seq<string>, k: nat, sensorDelimiter: char, extract: Extractor)
    requires 0 < k < |fragments| && RunOf(fragments[k], sensorDelimiter)
    ensures LatestValidAsWritten(fragments, k, sensorDelimiter, extract).Err?
    ensures Trips(fragments, k, sensorDelimiter, extract)
  {
    assert FirstFieldAsWritten(fragments[k], sensorDelimiter).Err?;
    assert 1 <= k <= k && RunOf(fragments[k], sensorDelimiter);
  }

  /** A fragment at `k` that extracts ends the search and hides every
      fragment before it. */
  lemma ThrowsBlocked(fragments: seq<string>, k: nat, sensorDelimiter: char, extract: Extractor)
    requires 0 < k < |fragments|
    requires !RunOf(fragments[k], sensorDelimiter) && Candidate(fragments[k], sensorDelimiter, extract).Some?
    ensures LatestValidAsWritten(fragments, k, sensorDelimiter, extract) == Ok(Some(k))
    ensures !Trips(fragments, k, sensorDelimiter, extract)
  {
    assert FirstFieldAsWritten(fragments[k], sensorDelimiter) == Ok(Before(fragments[k], sensorDelimiter));
    forall m | 1 <= m <= k && RunOf(fragments[m], sensorDelimiter)
      ensures exists n :: m < n <= k && Candidate(fragments[n], sensorDelimiter, extract).Some?
    {
      assert m < k;
    }
  }

  /** A fragment at `k` that neither throws nor extracts passes the search
      on to `k - 1`. */
  lemma ThrowsSkips(fragments: seq<string>, k: nat, sensorDelimiter: char, extract: Extractor)
    requires 0 < k < |fragments|
    requires !RunOf(fragments[k], sensorDelimiter) && Candidate(fragments[k], sensorDelimiter, extract).None?
    ensures LatestValidAsWritten(fragments, k, sensorDelimiter, extract) == LatestValidAsWritten(fragments, k - 1, sensorDelimiter, extract)
    ensures Trips(fragments, k, sensorDelimiter, extract) <==> Trips(fragments, k - 1, sensorDelimiter, extract)
  {
    assert FirstFieldAsWritten(fragments[k], sensorDelimiter) == Ok(Before(fragments[k], sensorDelimiter));
    TripsSkips(fragments, k, sensorDelimiter, extract);
  }

  /** A fragment that is no run and does not extract leaves the tripping
      unchanged. */
  lemma TripsSkips(fragments: seq<string>, k: nat, sensorDelimiter: char, extract: Extractor)
    requires 0 < k < |fragments|
    requires !RunOf(fragments[k], sensorDelimiter) && Candidate(fragments[k], sensorDelimiter, extract).None?
    ensures Trips(fragments, k, sensorDelimiter, extract) <==> Trips(fragments, k - 1, sensorDelimiter, extract)
  {
    if Trips(fragments, k, sensorDelimiter, extract) {
      var m :| 1 <= m <= k && RunOf(fragments[m], sensorDelimiter)
               && forall n :: m < n <= k ==> Candidate(fragments[n], sensorDelimiter, extract).None?;
      assert m != k;
      assert 1 <= m <= k - 1;
    }
    if Trips(fragments, k - 1, sensorDelimiter, extract) {
      var m :| 1 <= m <= k - 1 && RunOf(fragments[m], sensorDelimiter)
               && forall n :: m < n <= k - 1 ==> Candidate(fragments[n], sensorDelimiter, extract).None?;
      assert forall n :: m < n <= k ==> Candidate(fragments[n], sensorDelimiter, extract).None?;
    }
  }

  /** A sensor that sends an empty field, `"T@#"`, makes the code as written
      throw out of the whole fetch, where an empty field is otherwise just
      an invalid value that is asked for again. */
  lemma EmptyFieldAborts(multiValueDelimiter: char, hw: SensorDataRange, parseFloat: FloatParser)
    ensures Fragments("T@#", 'T', '@') == ["", "#"]
    ensures SelectLatestAsWritten(["", "#"], '#', ExtractorFor(TEMPERATURE, multiValueDelimiter, hw, parseFloat)) == Err(IndexOutOfBounds)
    ensures SelectLatest(["", "#"], '#', ExtractorFor(TEMPERATURE, multiValueDelimiter, hw, parseFloat)).None?
            <==> parseFloat("").None? || !AdmitsFloat(hw.temperature, parseFloat("").value)
  {
    var extract := ExtractorFor(TEMPERATURE, multiValueDelimiter, hw, parseFloat);
    var s := "T@#";
    assert OccursAt(s, "T@", 0);
    assert s[2..] == "#";
    assert IndexOf("#", "T@") == None by {
      assert forall j :: !OccursAt("#", "T@", j);
    }
    assert Before("#", '#') == "";
    var f := ["", "#"];
    assert FirstFieldAsWritten(f[1], '#') == Err(IndexOutOfBounds);
    assert LatestValidAsWritten(f, 1, '#', extract) == Err(IndexOutOfBounds);
    assert SelectLatest(f, '#', extract) == Candidate(f[1], '#', extract);
  }

  // ---------------------------------------------------------------------
  // One pass over the required sensors

  /** How a pass cuts a fragment at the sensor delimiter: as written, where
      a fragment made only of sensor delimiters throws out of the pass, or
      corrected, where it is an invalid value like any other. */
  datatype Cut = AsWritten | Corrected

  /** The outcome of a pass: the readings, the requirement flags after it,
      and the exception it ended with, if any. Work done before an exception
      is kept: the flags live in the shared packet configuration. */
  datatype Populated = Populated(data: SensorData, requirement: Flags, thrown: Option<Exception>)

  /** Sensor `k` has an identifier the response can be searched for. */
  predicate HasIdentifier(p: DiscretePacketInfo, k: int)
    requires IsDiscrete(k)
  {
    k < |p.sensorIdentifier| && p.sensorIdentifier[k] != NO_IDENTIFIER
  }

  /** The reading a response offers for sensor `k`. */
  function Offered(k: int, response: string, p: DiscretePacketInfo, hw: SensorDataRange, parseFloat: FloatParser): (r: Option<Reading>)
    requires IsDiscrete(k) && HasIdentifier(p, k)
    ensures r.Some? ==> r.value.SensorId() == k
  {
    var fragments := Fragments(response, p.sensorIdentifier[k], p.sensorDataDelimiter);
    var extract := ExtractorFor(k, p.multiValueDelimiter, hw, parseFloat);
    SelectLatestSpec(fragments, p.sensorDelimiter, extract);
    SelectLatest(fragments, p.sensorDelimiter, extract)
  }

  /** The selection for sensor `k` under `cut`: the offered reading, or the
      exception the cut as written throws. */
  function Selection(cut: Cut, k: int, response: string, p: DiscretePacketInfo, hw: SensorDataRange, parseFloat: FloatParser): (r: Result<Option<Reading>>)
    requires IsDiscrete(k) && HasIdentifier(p, k)
    ensures r.Ok? ==> r.value == Offered(k, response, p, hw, parseFloat)
    ensures r.Err? ==> cut == AsWritten && r.error == IndexOutOfBounds
  {
    var fragments := Fragments(response, p.sensorIdentifier[k], p.sensorDataDelimiter);
    var extract := ExtractorFor(k, p.multiValueDelimiter, hw, parseFloat);
    match cut
    case AsWritten => SelectLatestAsWritten(fragments, p.sensorDelimiter, extract)
    case Corrected => Ok(SelectLatest(fragments, p.sensorDelimiter, extract))
  }

  /** A pass gets past sensor `k`: it has an identifier and its selection
      does not throw. */
  predicate Readable(cut: Cut, k: int, response: string, p: DiscretePacketInfo, hw: SensorDataRange, parseFloat: FloatParser)
    requires IsDiscrete(k)
  {
    HasIdentifier(p, k) && Selection(cut, k, response, p, hw, parseFloat).Ok?
  }

  /** A sensor is readable exactly when it has an identifier and, under the
      cut as written, the selection does not trip over a fragment made only
      of sensor delimiters. */
  lemma ReadableIff(cut: Cut, k: int, response: string, p: DiscretePacketInfo, hw: SensorDataRange, parseFloat: FloatParser)
    requires IsDiscrete(k)
    ensures Readable(cut, k, response, p, hw, parseFloat) <==>
            HasIdentifier(p, k)
            && (cut == AsWritten ==>
                  var f := Fragments(response, p.sensorIdentifier[k], p.sensorDataDelimiter);
                  |f| == 0 || !Trips(f, |f| - 1, p.sensorDelimiter, ExtractorFor(k, p.multiValueDelimiter, hw, parseFloat)))
  {
    if HasIdentifier(p, k) && cut == AsWritten {
      var f := Fragments(response, p.sensorIdentifier[k], p.sensorDataDelimiter);
      var extract := ExtractorFor(k, p.multiValueDelimiter, hw, parseFloat);
      assert Selection(cut, k, response, p, hw, parseFloat) == SelectLatestAsWritten(f, p.sensorDelimiter, extract);
      SelectLatestAsWrittenThrowsIff(f, p.sensorDelimiter, extract);
    }
  }

  /** No fragment the selection for sensor `k` tries is made only of sensor
      delimiters. */
  predicate Clean(k: int, response: string, p: DiscretePacketInfo)
    requires IsDiscrete(k) && HasIdentifier(p, k)
  {
    var f := Fragments(response, p.sensorIdentifier[k], p.sensorDataDelimiter);
    forall m :: 1 <= m < |f| ==> !RunOf(f[m], p.sensorDelimiter)
  }

  /** Without such a fragment the cut as written never throws. */
  lemma CleanReadable(cut: Cut, k: int, response: string, p: DiscretePacketInfo, hw: SensorDataRange, parseFloat: FloatParser)
    requires IsDiscrete(k) && HasIdentifier(p, k) && Clean(k, response, p)
    ensures Readable(cut, k, response, p, hw, parseFloat)
  {
    if cut == AsWritten {
      SelectLatestAsWrittenClean(Fragments(response, p.sensorIdentifier[k], p.sensorDataDelimiter), p.sensorDelimiter,
                                 ExtractorFor(k, p.multiValueDelimiter, hw, parseFloat));
    }
  }

  /** Every required sensor in `i..k-1` is readable, so a pass that starts
      at `i` gets as far as sensor `k`. */
  predicate Reaches(cut: Cut, response: string, p: DiscretePacketInfo, req: Flags, i: nat, k: nat, hw: SensorDataRange, parseFloat: FloatParser)
    requires k <= NUM_DISCRETE
  {
    forall m :: i <= m < k && req[m] ==> Readable(cut, m, response, p, hw, parseFloat)
  }

  /** The loop of `populateDiscreteResponse` from sensor `i` on, with the
      current flags `req`. Sensors not required are passed over; at a
      required one the `Outcome` either ends the pass with its exception or
      offers a reading, which is stored and its flag cleared. */
  function PopulateFrom(cut: Cut, sd: SensorData, response: string, p: DiscretePacketInfo, req: Flags, i: nat,
                        hw: SensorDataRange, parseFloat: FloatParser): (r: Populated)
    requires i <= NUM_DISCRETE
    ensures r.thrown.Some? ==> r.thrown.value == DataNotCollected || r.thrown.value == IndexOutOfBounds
    decreases NUM_DISCRETE - i
  {
    if i == NUM_DISCRETE then Populated(sd, req, None)
    else if !req[i] then PopulateFrom(cut, sd, response, p, req, i + 1, hw, parseFloat)
    else match Outcome(cut, i, response, p, hw, parseFloat)
      case Err(e) => Populated(sd, req, Some(e))
      case Ok(None) => PopulateFrom(cut, sd, response, p, req, i + 1, hw, parseFloat)
      case Ok(Some(v)) => PopulateFrom(cut, sd.Set(i, Some(v)), response, p, req[i := false], i + 1, hw, parseFloat)
  }

  // The pass as a fold over a table of per-sensor outcomes. The selection
  // of a sensor depends only on the response and the configuration, so the
  // loop of `populateDiscreteResponse` can be read as a walk over the
  // outcomes it would meet at each required sensor; the lemmas below prove
  // what the walk does once, over any table, and `PopulateIsPass` connects
  // it to the pass.

  /** What a pass does at sensor `k` when that sensor is required. An
      identifier `'\0'` throws `DataNotCollectedException`; a sensor beyond
      the identifier array, or, as written, a fragment made only of sensor
      delimiters, throws `ArrayIndexOutOfBoundsException`; otherwise the
      pass goes on with the reading the response offers, if any. */
  function Outcome(cut: Cut, k: int, response: string, p: DiscretePacketInfo, hw: SensorDataRange, parseFloat: FloatParser): (r: Result<Option<Reading>>)
    requires IsDiscrete(k)
    ensures r.Ok? <==> Readable(cut, k, response, p, hw, parseFloat)
    ensures r.Ok? ==> HasIdentifier(p, k) && r.value == Offered(k, response, p, hw, parseFloat)
    ensures r.Ok? ==> SlotFits(r.value, k)
    ensures r.Err? ==> r.error == DataNotCollected || r.error == IndexOutOfBounds
  {
    match p.GetSensorIdentifier(k)
    case Err(e) => Err(e)
    case Ok(id) =>
      if id == NO_IDENTIFIER then Err(DataNotCollected) else Selection(cut, k, response, p, hw, parseFloat)
  }

  /** One outcome per sensor, each offering only readings of its own sensor. */
  predicate Table(outs: seq<Result<Option<Reading>>>) {
    |outs| == NUM_DISCRETE && forall k :: 0 <= k < NUM_DISCRETE && outs[k].Ok? ==> SlotFits(outs[k].value, k)
  }

  /** The outcomes a response gives all sensors. */
  function Outcomes(cut: Cut, response: string, p: DiscretePacketInfo, hw: SensorDataRange, parseFloat: FloatParser): (outs: seq<Result<Option<Reading>>>)
    ensures Table(outs)
    ensures forall k :: 0 <= k < NUM_DISCRETE ==> outs[k] == Outcome(cut, k, response, p, hw, parseFloat)
  {
    seq(NUM_DISCRETE, k requires 0 <= k < NUM_DISCRETE => Outcome(cut, k, response, p, hw, parseFloat))
  }

  /** The walk over a table from sensor `i` on: a skipped sensor is passed
      over, an exception ends the walk, an offered reading is stored and its
      flag cleared. */
  function PassFrom(sd: SensorData, req: Flags, outs: seq<Result<Option<Reading>>>, i: nat): Populated
    requires Table(outs) && i <= NUM_DISCRETE
    decreases NUM_DISCRETE - i
  {
    if i == NUM_DISCRETE then Populated(sd, req, None)
    else if !req[i] then PassFrom(sd, req, outs, i + 1)
    else match outs[i]
      case Err(e) => Populated(sd, req, Some(e))
      case Ok(None) => PassFrom(sd, req, outs, i + 1)
      case Ok(Some(v)) => PassFrom(sd.Set(i, Some(v)), req[i := false], outs, i + 1)
  }

  /** No required sensor in `i..k-1` has an exception in the table. */
  predicate Clear(req: Flags, outs: seq<Result<Option<Reading>>>, i: nat, k: nat)
    requires |outs| == NUM_DISCRETE && k <= NUM_DISCRETE
  {
    forall m :: i <= m < k && req[m] ==> outs[m].Ok?
  }

  /** The pass is the walk over the outcomes of its response. */
  lemma {:induction false} PopulateIsPass(cut: Cut, sd: SensorData, response: string, p: DiscretePacketInfo, req: Flags, i: nat,
                                          hw: SensorDataRange, parseFloat: FloatParser)
    requires i <= NUM_DISCRETE
    ensures PopulateFrom(cut, sd, response, p, req, i, hw, parseFloat)
            == PassFrom(sd, req, Outcomes(cut, response, p, hw, parseFloat), i)
    decreases NUM_DISCRETE - i
  {
    if i < NUM_DISCRETE {
      var outs := Outcomes(cut, response, p, hw, parseFloat);
      assert outs[i] == Outcome(cut, i, response, p, hw, parseFloat);
      if req[i] && outs[i].Ok? && outs[i].value.Some? {
        PopulateIsPass(cut, sd.Set(i, outs[i].value), response, p, req[i := false], i + 1, hw, parseFloat);
      } else {
        PopulateIsPass(cut, sd, response, p, req, i + 1, hw, parseFloat);
      }
    }
  }

  /** A sensor is reached and read exactly when its outcome does not throw. */
  lemma ReachesClear(cut: Cut, response: string, p: DiscretePacketInfo, req: Flags, i: nat, k: nat, hw: SensorDataRange, parseFloat: FloatParser)
    requires k <= NUM_DISCRETE
    ensures Reaches(cut, response, p, req, i, k, hw, parseFloat) <==> Clear(req, Outcomes(cut, response, p, hw, parseFloat), i, k)
  {
    var outs := Outcomes(cut, response, p, hw, parseFloat);
    forall m | i <= m < k
      ensures outs[m].Ok? <==> Readable(cut, m, response, p, hw, parseFloat)
    {
      assert outs[m] == Outcome(cut, m, response, p, hw, parseFloat);
    }
  }

  /** The walk throws exactly when it meets a required sensor whose outcome
      is an exception. */
  lemma {:induction false} PassThrowsIff(sd: SensorData, req: Flags, outs: seq<Result<Option<Reading>>>, i: nat)
    requires Table(outs) && i <= NUM_DISCRETE
    ensures PassFrom(sd, req, outs, i).thrown.None? <==> Clear(req, outs, i, NUM_DISCRETE)
    decreases NUM_DISCRETE - i
  {
    if i < NUM_DISCRETE && req[i] && outs[i].Ok? && outs[i].value.Some? {
      PassThrowsIff(sd.Set(i, outs[i].value), req[i := false], outs, i + 1);
      assert forall m :: i < m < NUM_DISCRETE ==> req[i := false][m] == req[m];
    } else if i < NUM_DISCRETE && (!req[i] || outs[i].Ok?) {
      PassThrowsIff(sd, req, outs, i + 1);
    }
  }

  /** The state after sensor `i` of a pass: unchanged, or, when a reading
      was stored, the flag cleared and the reading in place. */
  predicate Stepped(sd: SensorData, req: Flags, sd': SensorData, next: Flags, i: nat)
    requires i < NUM_DISCRETE
  {
    (next == req && sd' == sd)
    || (req[i] && next == req[i := false] && sd'.response == sd.response[i := true]
        && forall k :: 0 <= k < NUM_DISCRETE && k != i ==> sd'.values[k] == sd.values[k])
  }

  /** Flags are only ever cleared, those before `i` are left alone, and a
      sensor whose flag did not change keeps its reading and presence. */
  predicate Framed(sd: SensorData, req: Flags, i: nat, r: Populated) {
    (forall k :: 0 <= k < i && k < |req| ==> r.requirement[k] == req[k])
    && (forall k :: 0 <= k < NUM_DISCRETE && r.requirement[k] ==> req[k])
    && (forall k :: 0 <= k < NUM_DISCRETE && r.requirement[k] == req[k] ==>
          r.data.values[k] == sd.values[k] && r.data.response[k] == sd.response[k])
  }

  /** One step of `PassFrame`. */
  lemma FrameStep(sd: SensorData, req: Flags, sd': SensorData, next: Flags, i: nat, r: Populated)
    requires i < NUM_DISCRETE && Stepped(sd, req, sd', next, i)
    requires Framed(sd', next, i + 1, r)
    ensures Framed(sd, req, i, r)
  {
    if next != req {
      forall k | 0 <= k < NUM_DISCRETE && r.requirement[k] == req[k]
        ensures r.data.values[k] == sd.values[k] && r.data.response[k] == sd.response[k]
      {
        assert k != i;
        assert next[k] == req[k];
      }
    }
  }

  /** The walk keeps to the frame of `Framed`. */
  lemma {:induction false} PassFrame(sd: SensorData, req: Flags, outs: seq<Result<Option<Reading>>>, i: nat)
    requires Table(outs) && i <= NUM_DISCRETE
    ensures Framed(sd, req, i, PassFrom(sd, req, outs, i))
    decreases NUM_DISCRETE - i
  {
    if i < NUM_DISCRETE && req[i] && outs[i].Ok? && outs[i].value.Some? {
      var sd', next := sd.Set(i, outs[i].value), req[i := false];
      PassFrame(sd', next, outs, i + 1);
      FrameStep(sd, req, sd', next, i, PassFrom(sd', next, outs, i + 1));
    } else if i < NUM_DISCRETE && (!req[i] || outs[i].Ok?) {
      PassFrame(sd, req, outs, i + 1);
      FrameStep(sd, req, sd, req, i, PassFrom(sd, req, outs, i + 1));
    }
  }

  /** One step of `PassStores`: what sensor `i` does to the flags, combined
      with what the rest of the walk stores. */
  lemma StoresStep(req: Flags, outs: seq<Result<Option<Reading>>>, sd': SensorData, next: Flags, i: nat, r: Populated)
    requires Table(outs) && i < NUM_DISCRETE && (!req[i] || outs[i].Ok?)
    requires next == if req[i] && outs[i].value.Some? then req[i := false] else req
    requires next != req ==> sd'.values[i] == outs[i].value && sd'.response[i]
    requires r.requirement[i] == next[i] && r.data.values[i] == sd'.values[i] && r.data.response[i] == sd'.response[i]
    requires forall k :: i + 1 <= k < NUM_DISCRETE && next[k] && !r.requirement[k] ==>
               outs[k].Ok? && outs[k].value.Some? && r.data.values[k] == outs[k].value && r.data.response[k]
    ensures forall k :: i <= k < NUM_DISCRETE && req[k] && !r.requirement[k] ==>
              outs[k].Ok? && outs[k].value.Some? && r.data.values[k] == outs[k].value && r.data.response[k]
  {
    forall k | i < k < NUM_DISCRETE && req[k] && !r.requirement[k]
      ensures outs[k].Ok? && outs[k].value.Some? && r.data.values[k] == outs[k].value && r.data.response[k]
    {
      assert next[k] == req[k];
    }
  }

  /** A flag the walk clears belongs to a sensor whose outcome offered a
      reading, and that reading was stored. */
  lemma {:induction false} PassStores(sd: SensorData, req: Flags, outs: seq<Result<Option<Reading>>>, i: nat)
    requires Table(outs) && i <= NUM_DISCRETE
    ensures var r := PassFrom(sd, req, outs, i);
            forall k :: i <= k < NUM_DISCRETE && req[k] && !r.requirement[k] ==>
              outs[k].Ok? && outs[k].value.Some? && r.data.values[k] == outs[k].value && r.data.response[k]
    decreases NUM_DISCRETE - i
  {
    if i < NUM_DISCRETE && (!req[i] || outs[i].Ok?) {
      var stored := req[i] && outs[i].value.Some?;
      var sd' := if stored then sd.Set(i, outs[i].value) else sd;
      var next := if stored then req[i := false] else req;
      var r := PassFrom(sd', next, outs, i + 1);
      assert PassFrom(sd, req, outs, i) == r;
      PassStores(sd', next, outs, i + 1);
      PassFrame(sd', next, outs, i + 1);
      StoresStep(req, outs, sd', next, i, r);
    }
  }

  /** A required sensor the walk reaches keeps its flag exactly when its
      outcome offers nothing. */
  lemma {:induction false} PassDecides(sd: SensorData, req: Flags, outs: seq<Result<Option<Reading>>>, i: nat)
    requires Table(outs) && i <= NUM_DISCRETE
    ensures var r := PassFrom(sd, req, outs, i);
            forall k :: i <= k < NUM_DISCRETE && req[k] && Clear(req, outs, i, k + 1) ==>
              (r.requirement[k] <==> outs[k].value.None?)
    decreases NUM_DISCRETE - i
  {
    if i < NUM_DISCRETE && (!req[i] || outs[i].Ok?) {
      var stored := req[i] && outs[i].value.Some?;
      var sd' := if stored then sd.Set(i, outs[i].value) else sd;
      var next := if stored then req[i := false] else req;
      PassDecides(sd', next, outs, i + 1);
      PassFrame(sd', next, outs, i + 1);
      var r := PassFrom(sd', next, outs, i + 1);
      assert PassFrom(sd, req, outs, i) == r;
      forall k | i < k < NUM_DISCRETE && req[k] && Clear(req, outs, i, k + 1)
        ensures r.requirement[k] <==> outs[k].value.None?
      {
        assert next[k] == req[k];
        assert Clear(next, outs, i + 1, k + 1);
      }
    }
  }

  /** A pass throws exactly when it meets a required sensor that is not
      readable. */
  lemma PopulateThrowsIff(cut: Cut, sd: SensorData, response: string, p: DiscretePacketInfo, req: Flags, i: nat,
                          hw: SensorDataRange, parseFloat: FloatParser)
    requires i <= NUM_DISCRETE
    ensures PopulateFrom(cut, sd, response, p, req, i, hw, parseFloat).thrown.None?
            <==> Reaches(cut, response, p, req, i, NUM_DISCRETE, hw, parseFloat)
  {
    PopulateIsPass(cut, sd, response, p, req, i, hw, parseFloat);
    PassThrowsIff(sd, req, Outcomes(cut, response, p, hw, parseFloat), i);
    ReachesClear(cut, response, p, req, i, NUM_DISCRETE, hw, parseFloat);
  }

  /** A pass that has run out of sensors, or meets a required one it cannot
      read, stops there with the readings and flags it has. */
  lemma PopulateStops(cut: Cut, sd: SensorData, response: string, p: DiscretePacketInfo, req: Flags, i: nat,
                      hw: SensorDataRange, parseFloat: FloatParser)
    requires i <= NUM_DISCRETE
    requires i == NUM_DISCRETE || (req[i] && !Readable(cut, i, response, p, hw, parseFloat))
    ensures PopulateFrom(cut, sd, response, p, req, i, hw, parseFloat).data == sd
    ensures PopulateFrom(cut, sd, response, p, req, i, hw, parseFloat).requirement == req
  {
  }

  /** A pass keeps to the frame of `Framed`. */
  lemma PopulateFrame(cut: Cut, sd: SensorData, response: string, p: DiscretePacketInfo, req: Flags, i: nat,
                      hw: SensorDataRange, parseFloat: FloatParser)
    requires i <= NUM_DISCRETE
    ensures Framed(sd, req, i, PopulateFrom(cut, sd, response, p, req, i, hw, parseFloat))
  {
    PopulateIsPass(cut, sd, response, p, req, i, hw, parseFloat);
    PassFrame(sd, req, Outcomes(cut, response, p, hw, parseFloat), i);
  }

  /** A cleared flag means the sensor was readable and the offered reading
      was stored. */
  lemma PopulateStores(cut: Cut, sd: SensorData, response: string, p: DiscretePacketInfo, req: Flags, i: nat,
                       hw: SensorDataRange, parseFloat: FloatParser)
    requires i <= NUM_DISCRETE
    ensures var r := PopulateFrom(cut, sd, response, p, req, i, hw, parseFloat);
            forall k :: i <= k < NUM_DISCRETE && req[k] && !r.requirement[k] ==>
              Readable(cut, k, response, p, hw, parseFloat) && Offered(k, response, p, hw, parseFloat).Some?
              && r.data.values[k] == Offered(k, response, p, hw, parseFloat) && r.data.response[k]
  {
    var outs := Outcomes(cut, response, p, hw, parseFloat);
    var r := PopulateFrom(cut, sd, response, p, req, i, hw, parseFloat);
    PopulateIsPass(cut, sd, response, p, req, i, hw, parseFloat);
    PassStores(sd, req, outs, i);
    forall k | i <= k < NUM_DISCRETE && req[k] && !r.requirement[k]
      ensures Readable(cut, k, response, p, hw, parseFloat) && Offered(k, response, p, hw, parseFloat).Some?
              && r.data.values[k] == Offered(k, response, p, hw, parseFloat) && r.data.response[k]
    {
      assert outs[k] == Outcome(cut, k, response, p, hw, parseFloat);
    }
  }

  /** A required sensor the pass reaches and reads stays required exactly
      when the response offers nothing valid for it. */
  lemma PopulateDecides(cut: Cut, sd: SensorData, response: string, p: DiscretePacketInfo, req: Flags, i: nat,
                        hw: SensorDataRange, parseFloat: FloatParser)
    requires i <= NUM_DISCRETE
    ensures var r := PopulateFrom(cut, sd, response, p, req, i, hw, parseFloat);
            forall k :: i <= k < NUM_DISCRETE && req[k] && Reaches(cut, response, p, req, i, k + 1, hw, parseFloat) ==>
              (r.requirement[k] <==> Offered(k, response, p, hw, parseFloat).None?)
  {
    var outs := Outcomes(cut, response, p, hw, parseFloat);
    var r := PopulateFrom(cut, sd, response, p, req, i, hw, parseFloat);
    PopulateIsPass(cut, sd, response, p, req, i, hw, parseFloat);
    PassDecides(sd, req, outs, i);
    forall k | i <= k < NUM_DISCRETE && req[k] && Reaches(cut, response, p, req, i, k + 1, hw, parseFloat)
      ensures r.requirement[k] <==> Offered(k, response, p, hw, parseFloat).None?
    {
      ReachesClear(cut, response, p, req, i, k + 1, hw, parseFloat);
      assert outs[k] == Outcome(cut, k, response, p, hw, parseFloat);
    }
  }

  /** `populateDiscreteResponse`: one pass over all required sensors. */
  function Populate(cut: Cut, sd: SensorData, response: string, p: DiscretePacketInfo, hw: SensorDataRange, parseFloat: FloatParser): (r: Populated)
    ensures r.thrown.None? <==> forall k :: 0 <= k < NUM_DISCRETE && p.requirement[k] ==> Readable(cut, k, response, p, hw, parseFloat)
    ensures cut == Corrected ==>
              (r.thrown.None? <==> forall k :: 0 <= k < NUM_DISCRETE && p.requirement[k] ==> HasIdentifier(p, k))
    ensures forall k :: 0 <= k < NUM_DISCRETE && r.requirement[k] ==> p.requirement[k]
    ensures forall k :: 0 <= k < NUM_DISCRETE && r.requirement[k] == p.requirement[k] ==>
              r.data.values[k] == sd.values[k] && r.data.response[k] == sd.response[k]
    ensures forall k :: 0 <= k < NUM_DISCRETE && p.requirement[k] && !r.requirement[k] ==>
              HasIdentifier(p, k) && r.data.values[k] == Offered(k, response, p, hw, parseFloat) && r.data.response[k]
    ensures r.thrown.None? ==> forall k :: 0 <= k < NUM_DISCRETE && p.requirement[k] ==>
              (r.requirement[k] <==> Offered(k, response, p, hw, parseFloat).None?)
  {
    PopulateThrowsIff(cut, sd, response, p, p.requirement, 0, hw, parseFloat);
    PopulateFrame(cut, sd, response, p, p.requirement, 0, hw, parseFloat);
    PopulateStores(cut, sd, response, p, p.requirement, 0, hw, parseFloat);
    PopulateDecides(cut, sd, response, p, p.requirement, 0, hw, parseFloat);
    PopulateFrom(cut, sd, response, p, p.requirement, 0, hw, parseFloat)
  }

  /** The answer `"T@#"` to a request for the temperature alone: the pass
      as written throws, the corrected pass finds no valid reading and
      leaves the flag set for the next attempt. */
  lemma EmptyFieldAbortsPass(sd: SensorData, p: DiscretePacketInfo, hw: SensorDataRange, parseFloat: FloatParser)
    requires p.requirement == [true, false, false, false, false]
    requires |p.sensorIdentifier| > TEMPERATURE && p.sensorIdentifier[TEMPERATURE] == 'T'
    requires p.sensorDataDelimiter == '@' && p.sensorDelimiter == '#'
    requires parseFloat("").None?
    ensures Populate(AsWritten, sd, "T@#", p, hw, parseFloat).thrown == Some(IndexOutOfBounds)
    ensures Populate(Corrected, sd, "T@#", p, hw, parseFloat) == Populated(sd, p.requirement, None)
  {
    EmptyFieldAborts(p.multiValueDelimiter, hw, parseFloat);
    assert !Readable(AsWritten, TEMPERATURE, "T@#", p, hw, parseFloat);
    assert Offered(TEMPERATURE, "T@#", p, hw, parseFloat).None?;
    assert PopulateFrom(AsWritten, sd, "T@#", p, p.requirement, 0, hw, parseFloat).thrown == Some(IndexOutOfBounds);
    assert PopulateFrom(Corrected, sd, "T@#", p, p.requirement, 1, hw, parseFloat) == Populated(sd, p.requirement, None);
  }
}
